=== FILE: README.md ===
# Booking decisions of the bronly restaurant-reservation app

This Dafny project models the decision logic of a Django restaurant-reservation site:

- whether a table is free at a given date and time;
- which errors each booking validator reports;
- who may cancel, confirm or view a reservation, and what such a request changes;
- the restaurant and table form rules and the owner's create/update/delete views;
- signup validation and the login redirect;
- the dashboard lists and counts;
- the loops of the `seed_data` management command.

Conventions:

- Times of day are minutes since midnight (`Domain.TimeOfDay`, 0..1439).
- A date is an integer day number.
- `datetime.combine(date, time)` is `Conflict.Moment(date, time) = date * 1440 + time`, so a two-hour window may end past midnight.
- "Today" is always a parameter.
- A query set is a sequence of immutable rows. A `Reservation` carries its `Table`, and the table carries its `Restaurant`, as the foreign keys the views follow.
- A view is a function from the request (GET or POST, the requesting user id, the already `.strip()`ped POST fields) to `Forbidden`, `Rendered(errors)` or `Saved(new state)`.

The modules follow the source apps:

| module | file | models |
|---|---|---|
| `Results` | results.dfy | `Option`, `Result`, the view outcome, the HTTP verb |
| `Domain` | domain.dfy | restaurants, tables, reservations, users; status enums and defaults; the table-number constraint |
| `Text` | text.dfy | `str.strip()`, digit counting, `int(...)`, `str(n)` and `f"{n:02d}"` |
| `Conflict` | conflict.dfy | the two-hour window rule and the exact-slot rule, and how they relate |
| `Booking` | booking.dfy | `ReservationForm`, `AvailabilityCheckForm`, `PublicReservationForm`, the `create_reservation` view |
| `Lifecycle` | lifecycle.dfy | `cancel_reservation`, `confirm_reservation`, `reservation_detail` |
| `RestaurantForms` | restaurant_forms.dfy | `RestaurantForm` and `TableForm` clean methods |
| `OwnerViews` | owner_views.dfy | the ownership gate, restaurant create/update/delete, table create/update/delete/list |
| `Accounts` | accounts.dfy | the three signup views and `login_user` |
| `Dashboard` | dashboard.dfy | customer, owner and admin dashboards, the admin-profile gate |
| `Seeding` | seeding.dfy | unique slugs, seeded hours, table numbering, the bounded reservation loop |

The views have no terminal states and no invalid-transition error: a permitted cancel or confirm overwrites whatever status the reservation had, including `cancelled`, `completed` and `no_show` (`Lifecycle.NoTerminalStates`).

## Model

| member | source | states |
|---|---|---|
| `Domain.NewReservation` | apps/reservations/models.py:35-44 | a reservation created from the booking fields alone is pending, has deposit status pending, no deposit amount and arrival not confirmed, and stores the given id, customer, table, date, time, guest count and special requests |
| `Domain.NewTable` | apps/restaurants/models.py:73-76 | a table created without `is_active` is active and stores the given id, restaurant, number, capacity and description |
| `Domain.AppendKeepsUniqueTableNumbers` | apps/restaurants/models.py:83 | adding a table whose number is new to its restaurant preserves the (restaurant, table_number) uniqueness |
| `Domain.IsOwnedBy` | apps/restaurants/models.py:59-61 | `is_owned_by`: the user is the restaurant's owner and has an owner profile |
| `Domain.OwnedByNeedsProfile` | apps/restaurants/models.py:59-61 | `is_owned_by` implies the owner id matches, and never holds for a user without an owner profile |
| `Text.Strip` | apps/restaurants/forms.py:38 | the result is the input with its leading and trailing whitespace cut away: a contiguous piece of the input with only whitespace before and after it, empty exactly when the input is all whitespace, and otherwise neither starting nor ending with whitespace |
| `Text.StripIdempotent` | apps/restaurants/forms.py:112 | stripping an already stripped value changes nothing |
| `Text.CountDigits` | apps/restaurants/forms.py:53 | the digit count is at most the length and is zero exactly when no character is a digit |
| `Text.CountDigitsAppend` | apps/restaurants/forms.py:53 | digit counts add up over concatenation |
| `Text.ParseInt` | apps/restaurants/views.py:207 | `int()` of a stripped string succeeds exactly when it is one or more digits, optionally after a single `+` or `-`; the empty string is rejected and an unsigned number is non-negative |
| `Text.IntToStringRoundTrip` | apps/restaurants/views.py:207 | `int(str(n)) == n` for every integer n |
| `Text.ParseSingleDigit` | apps/restaurants/views.py:207 | `int()` of one digit is that digit's value |
| `Text.ParseAppendDigit` | apps/restaurants/views.py:207 | appending a digit to an unsigned number gives ten times its value plus the digit, so every unsigned digit string has its decimal value |
| `Text.ParseLeadingZero` | apps/restaurants/views.py:207 | a leading zero does not change the value: `int("07") == int("7")` |
| `Text.ParsePlusSign` | apps/restaurants/views.py:207 | a leading `+` does not change the value |
| `Text.ParseMinusSign` | apps/restaurants/views.py:207 | a leading `-` negates the value |
| `Text.NatToStringInjective` | apps/restaurants/management/commands/seed_data.py:160 | distinct counters print differently |
| `Text.Pad2Injective` | apps/restaurants/management/commands/seed_data.py:205 | distinct numbers zero-pad to different texts |
| `Conflict.TimeRange` | apps/reservations/models.py:62-73 | `get_time_range` starts at date combined with time and lasts exactly the given number of hours |
| `Conflict.WindowMayEndPastMidnight` | apps/reservations/models.py:67-71 | a window starting after 22:00 ends on the next day |
| `Conflict.BookingWindowIsDefaultTimeRange` | apps/reservations/models.py:62-73 | the window the conflict check uses is `get_time_range` with its default two hours |
| `Conflict.ActiveOnTableAndDate` | apps/reservations/forms.py:111-115 | the candidate query returns exactly the pending or confirmed rows of that table and date |
| `Conflict.CheckTimeConflicts` | apps/reservations/forms.py:101-130 | the loop reports the table available exactly when no active reservation on that table and date has an overlapping window |
| `Conflict.NoneOverlapMeans` | apps/reservations/forms.py:218-229 | the availability loop succeeds exactly when no candidate's window overlaps the new one |
| `Conflict.CheckAvailability` | apps/reservations/forms.py:202-231 | `_check_availability` reports the table free exactly when no pending or confirmed row of that table and date has a window overlapping the new one |
| `Conflict.AvailabilityMatchesConflictCheck` | apps/reservations/forms.py:202-231 | `_check_availability` computes the same predicate as `_check_time_conflicts` |
| `Conflict.SameDayOverlapIffCloserThanTwoHours` | apps/reservations/forms.py:107-127 | on one date, two windows overlap exactly when the start times are less than 120 minutes apart |
| `Conflict.BackToBackBookingsDoNotConflict` | apps/reservations/forms.py:127 | a booking starting exactly when another ends is not a conflict (strict comparisons) |
| `Conflict.OnlyActiveSameTableSameDateBlock` | apps/reservations/forms.py:111-115 | cancelled, completed and no-show rows, and rows on another table or date, never block under either rule |
| `Conflict.NonBlockingRowIsIgnored` | apps/reservations/forms.py:111-128 | adding a non-blocking row does not change the conflict answer |
| `Conflict.ActiveReservationBlocksItself` | apps/reservations/forms.py:111-115 | the check excludes no instance, so an active reservation conflicts with its own slot under both rules |
| `Conflict.CrossMidnightOverlapIsNotDetected` | apps/reservations/forms.py:111-115 | a 23:00 booking and a 00:30 booking the next day overlap in time, yet the filter by date lets the second through |
| `Conflict.SlotTaken` | apps/restaurants/forms.py:224-230 | the `.exists()` query: some pending or confirmed row has the same table, date and time |
| `Conflict.SlotTakenImpliesWindowConflict` | apps/restaurants/forms.py:224-230 | whatever the exact-slot rule rejects, the window rule rejects too |
| `Conflict.NearbyBookingSeparatesTheRules` | apps/restaurants/forms.py:224-230 | a 19:00 booking blocks 18:30 under the window rule but not under the exact-slot rule |
| `Conflict.WindowCheckPreservesNoOverlap` | apps/reservations/forms.py:95-97 | inserting only bookings the window rule accepts keeps active windows on a table and date disjoint |
| `Conflict.SlotCheckPreservesNoSharedSlots` | apps/restaurants/forms.py:224-236 | inserting only bookings the exact-slot rule accepts keeps every active slot held at most once |
| `Conflict.SlotCheckAdmitsOverlap` | apps/restaurants/forms.py:224-230 | the exact-slot rule admits a booking whose window overlaps an existing one |
| `Booking.CleanDate` | apps/reservations/forms.py:31-41 | a date is accepted exactly when present and not before today; an earlier date is the past-date error |
| `Booking.CleanTime` | apps/reservations/forms.py:43-48 | a time is accepted exactly when present |
| `Booking.CleanGuestCount` | apps/reservations/forms.py:50-57 | a guest count is accepted exactly when present and in 1..20; below 1 and above 20 get their own errors |
| `Booking.CleanTable` | apps/reservations/forms.py:59-68 | with a restaurant context, only an active table of that restaurant is accepted; without one, any present table |
| `Booking.CleanTableOwnCheckIsUnreachable` | apps/reservations/forms.py:28-66 | the restaurant check in `clean_table` never fires, because the field's choices already exclude foreign tables |
| `Booking.FirstFailure` | apps/reservations/forms.py:82-97 | at most one error; none exactly when capacity, hours and window all pass; over capacity gives the capacity error, within capacity but outside hours the hours error, and the window error exactly when the other two pass |
| `Booking.ValidateReservationForm` | apps/reservations/forms.py:70-99 | the form is valid exactly when every field cleans and capacity, inclusive hours and the window rule pass; a past date is always reported; with every field clean the errors are exactly the first cross-field failure (capacity, then hours, then the window); with a field failing no cross-field error is reported |
| `Booking.TodayIsNotPast` | apps/reservations/forms.py:37-39 | a booking for today is never rejected as past |
| `Booking.ReservationFormStopsAtFirstFailure` | apps/reservations/forms.py:79-97 | with every field clean the form reports at most one error |
| `Booking.HoursAreInclusive` | apps/reservations/forms.py:90 | the opening and closing minutes are within hours, the minute before opening and after closing are not |
| `Booking.FindTable` | apps/reservations/forms.py:154-157 | the lookup finds a table exactly when one with that id exists |
| `Booking.CleanTableId` | apps/reservations/forms.py:151-158 | the table id is accepted exactly when present and naming an existing table |
| `Booking.ValidateAvailability` | apps/reservations/forms.py:151-200 | valid exactly when the table exists, the date is not past, the time is given, and (for a non-zero id) hours and the window rule pass; each field error is reported exactly when its field fails; the hours error and the window error are reported only when every field cleans and the id is non-zero, the window error only after the hours pass, and at most one of them; no guest count or capacity check |
| `Booking.FindBookableTable` | apps/restaurants/forms.py:200-207 | the lookup succeeds exactly when an active table with that id belongs to the form's restaurant |
| `Booking.AllFailures` | apps/restaurants/forms.py:209-236 | each of capacity, hours and exact-slot contributes its own error exactly when it fails, independently of the others |
| `Booking.ValidatePublicReservation` | apps/restaurants/forms.py:188-238 | valid exactly when the fields clean and, for a non-zero id, the table is bookable, large enough, open at that time and its exact slot free; with the fields clean and a non-zero id the errors are exactly `TableUnavailable` when no bookable table has that id, and otherwise every failing cross-field check of that table; with a field failing or a zero id no cross-field error is reported |
| `Booking.ZeroTableIdSkipsCrossFieldChecks` | apps/restaurants/forms.py:197-198 | a table id of 0 is falsy, so the form passes without any table, capacity, hours or slot check |
| `Booking.UnavailableTableIsTheOnlyCrossFieldError` | apps/restaurants/forms.py:200-207 | an inactive or foreign table yields the single error "not available" |
| `Booking.FirstFailureIsHeadOfAllFailures` | apps/restaurants/forms.py:209-236 | the two forms order their checks alike: a capacity or hours failure first in the public form is exactly the model form's one error, and the model form passing implies the public one does |
| `Booking.PublicFormAccumulates` | apps/restaurants/forms.py:209-222 | capacity and hours failures are reported together by the public form, only the capacity one by the model form |
| `Booking.HalfHourBeforeBookingDisagrees` | apps/restaurants/forms.py:224-232 | 18:30 next to an active 19:00 booking passes the public form and fails the model form |
| `Booking.CreateReservationErrors` | apps/reservations/views.py:29-38 | "required" exactly when date, time or guest count is blank; "not a number" exactly when `int()` fails; "out of range" exactly when the number is at most 0 or above capacity |
| `Booking.CreateReservation` | apps/reservations/views.py:23-56 | a pending reservation is created exactly when date and time are given and the guest count parses to 1..capacity; it stores the customer, table, date, time, parsed guest count, special requests and new id; otherwise the error list shown is exactly `CreateReservationErrors` |
| `Booking.BlankGuestCountGivesTwoErrors` | apps/reservations/views.py:30-38 | a blank guest count is reported both as missing and as not a number |
| `Booking.CreateReservationSkipsBookingRules` | apps/reservations/views.py:40-48 | the view saves a booking in the past, outside hours, on a slot already taken |
| `Lifecycle.CancelReservation` | apps/reservations/views.py:112-134 | forbidden unless customer or owner; a permitted POST sets the status to cancelled, whatever it was, and changes nothing else |
| `Lifecycle.ConfirmReservation` | apps/reservations/views.py:156-170 | forbidden unless the restaurant's owner; a permitted POST sets the status to confirmed, whatever it was, and changes nothing else |
| `Lifecycle.ReservationDetail` | apps/reservations/views.py:139-151 | visible exactly to the customer and the owner |
| `Lifecycle.CustomerCannotConfirm` | apps/reservations/views.py:160-162 | a customer who is not the owner may cancel but not confirm |
| `Lifecycle.NoTerminalStates` | apps/reservations/views.py:164-166 | a cancelled, completed or no-show booking can still be confirmed or cancelled by the owner |
| `Lifecycle.CancelIsIdempotent` | apps/reservations/views.py:123-125 | cancelling an already cancelled booking leaves it as it was |
| `Lifecycle.CancelNeverAddsConflicts` | apps/reservations/views.py:123-125 | a cancellation never turns a free slot into a conflict |
| `Lifecycle.CancelFreesTheSlot` | apps/reservations/views.py:123-125 | the cancelled booking no longer blocks its own slot under either rule |
| `Lifecycle.ConfirmPendingKeepsConflicts` | apps/reservations/views.py:164-166 | confirming a pending booking leaves every window-conflict answer unchanged |
| `RestaurantForms.CleanName` | apps/restaurants/forms.py:36-45 | accepted exactly when the stripped name has 2..200 characters, and the stripped name is returned |
| `RestaurantForms.CleanPhone` | apps/restaurants/forms.py:47-56 | accepted exactly when the stripped text holds at least 10 digits, and that text is returned with its formatting |
| `RestaurantForms.CleanPhoneField` | apps/restaurants/models.py:35 | the phone column's 20-character limit on the stripped text is checked before `clean_phone`: too long exactly when over 20 characters, otherwise the `clean_phone` verdict |
| `RestaurantForms.LongPhoneStopsAtTheLengthLimit` | apps/restaurants/models.py:35 | a number `clean_phone` alone would accept is refused by the length limit when its stripped text is over 20 characters |
| `RestaurantForms.PhoneFormattingIsIgnored` | apps/restaurants/forms.py:52-55 | non-digit formatting in front of ten or more digits never makes a phone number fail |
| `RestaurantForms.StripKeepsDigits` | apps/restaurants/forms.py:49-53 | stripping never removes a digit, so the digit test is the same before and after |
| `RestaurantForms.CleanEmail` | apps/restaurants/forms.py:58-69 | accepted exactly when non-blank and used by no restaurant other than the saved instance being edited |
| `RestaurantForms.CleanEmailField` | apps/restaurants/models.py:36 | the email column's default 254-character limit is checked before `clean_email`: too long exactly when over 254 characters, otherwise the `clean_email` verdict |
| `RestaurantForms.NewRestaurantCannotReuseEmail` | apps/restaurants/forms.py:63-68 | a new restaurant may not reuse any existing restaurant's email |
| `RestaurantForms.CheckHours` | apps/restaurants/forms.py:71-81 | no error exactly when both times are given and closing is after opening; closing at or before opening is the one error |
| `RestaurantForms.ValidateRestaurantForm` | apps/restaurants/forms.py:36-81 | the form passes exactly when name, phone (length limit, then digits), email (length limit, then uniqueness) and both hours pass; each error present is exactly its own field's verdict; at most five errors |
| `RestaurantForms.NameErrorsReported` | apps/restaurants/forms.py:36-45 | the form reports the name as required, too short or too long exactly when the stripped name is empty, one character, or over 200 characters |
| `RestaurantForms.PhoneErrorsReported` | apps/restaurants/forms.py:47-56 | the phone is reported as required when blank, too long when over 20 characters, and too short exactly when within the limit with fewer than 10 digits |
| `RestaurantForms.EmailErrorsReported` | apps/restaurants/forms.py:58-69 | the email is reported as required when blank, too long when over 254 characters, and taken exactly when another restaurant uses it |
| `RestaurantForms.HoursErrorsReported` | apps/restaurants/forms.py:71-81 | a missing time is reported for each missing time, and closing not after opening exactly when both are given and closing is not later; no table-form error is ever reported |
| `RestaurantForms.CleanTableNumber` | apps/restaurants/forms.py:110-117 | accepted exactly when the stripped number has 1..10 characters |
| `RestaurantForms.CleanCapacity` | apps/restaurants/forms.py:119-128 | accepted exactly when present and in 1..20; 0 is reported as missing, negatives as below one, above 20 as too many |
| `OwnerViews.UpdateIgnoresOwnerProfile` | apps/restaurants/views.py:124-126 | the owner without an owner profile, whom `is_owned_by` refuses, still passes the owner-id gate and has a posted update saved |
| `OwnerViews.MergeRestaurant` | apps/restaurants/views.py:129-139 | `posted or current` for each field: a blank name, cuisine, phone, email, address, city, postal code or time keeps the old value and a non-blank one replaces it; description and website are overwritten; id, owner and active flag never change |
| `OwnerViews.MergeIsIdempotent` | apps/restaurants/views.py:129-139 | posting the same update twice leaves the restaurant as the first post did |
| `OwnerViews.BlankPostOnlyClearsOptionalText` | apps/restaurants/views.py:129-139 | an all-blank update only clears the description and the website |
| `OwnerViews.MergeCanInvertHours` | apps/restaurants/views.py:138-139 | the update does not re-check hours, so it can leave closing before opening |
| `OwnerViews.UpdateRestaurant` | apps/restaurants/views.py:120-155 | forbidden exactly when the user is not the owner id; an owner's POST saves exactly the merge of the stored restaurant with the posted form, keeping id and owner |
| `OwnerViews.DeleteRestaurant` | apps/restaurants/views.py:160-176 | forbidden exactly when the user is not the owner id; only a POST removes the restaurant, and only that one |
| `OwnerViews.CreateRestaurantErrors` | apps/restaurants/views.py:79-84 | one error exactly when a required text field is blank, another exactly when a time is blank |
| `OwnerViews.CreateRestaurant` | apps/restaurants/views.py:64-115 | created exactly when there are no required-field errors; the new row has the new id, the requester as owner, is active, and holds every posted text field and both posted times |
| `OwnerViews.CreateThenUpdateIsNoOp` | apps/restaurants/views.py:91-147 | posting the creation form again through the edit view changes nothing, and the creator passes the edit gate |
| `OwnerViews.CreateRestaurantAcceptsInvertedHours` | apps/restaurants/views.py:79-107 | a restaurant closing before it opens is created without complaint |
| `OwnerViews.CreateTableErrors` | apps/restaurants/views.py:198-203 | "required" exactly when number or capacity is blank; "duplicate" exactly when the restaurant already has that number |
| `OwnerViews.AppendTable` | apps/restaurants/views.py:205-213 | the table is appended active with the given id, number, capacity and description, and uniqueness survives a new number |
| `OwnerViews.CreateTablePost` | apps/restaurants/views.py:193-222 | saved exactly when there are no errors and the capacity parses; otherwise the errors shown are the required and duplicate errors, or, when there are none, the not-a-number error |
| `OwnerViews.CreateTable` | apps/restaurants/views.py:185-227 | forbidden unless owner id; saved exactly on a POST with no errors and an integer capacity; the new table is active with the parsed capacity and the posted description; table-number uniqueness is kept; a POST shows exactly the required and duplicate errors, or the not-a-number error; a GET shows none |
| `OwnerViews.CreateTableStoresAnyInteger` | apps/restaurants/views.py:205-214 | a negative capacity is stored: `int()` is the only check |
| `OwnerViews.UpdateTable` | apps/restaurants/views.py:232-268 | forbidden unless owner id; saved exactly when the capacity is blank or an integer; a blank number or capacity keeps the old value; the description is overwritten |
| `OwnerViews.DeleteTable` | apps/restaurants/views.py:273-285 | forbidden unless owner id, and otherwise only the confirmation page: never a deletion |
| `OwnerViews.ListTables` | apps/restaurants/views.py:314-322 | the owner sees exactly the restaurant's tables, inactive ones too; anyone else is refused |
| `Accounts.SignupErrors` | apps/users/views.py:29-37 | each of missing credentials, password mismatch, taken username and taken email is reported exactly when it holds, independently |
| `Accounts.NormalizeEmail` | apps/users/views.py:40-48 | `create_user` stores the email normalised: each character after the last `@` is lower-cased and every other character is kept |
| `Accounts.NormalizeEmailIdempotent` | apps/users/views.py:40-48 | normalising a normalised address changes nothing |
| `Accounts.LowerCaseDomainIsKept` | apps/users/views.py:40-48 | an address with no upper-case letter in its domain is stored as posted |
| `Accounts.NewUser` | apps/users/views.py:39-48 | the new user has the posted username, the normalised email and exactly the profile of the view used |
| `Accounts.Signup` | apps/users/views.py:16-54 | a POST saves exactly when there are no errors and appends the new user with the normalised email; otherwise every error is shown |
| `Accounts.SignupIsRoleIndependent` | apps/users/views.py:70-78 | the three signup views accept and reject the same submissions with the same errors |
| `Accounts.RepeatedSignupIsRejected` | apps/users/views.py:34-37 | submitting the same form again, through any view, fails on the username, and also on the email exactly when the posted address was already normalised |
| `Accounts.MixedCaseDomainSkipsTheEmailError` | apps/users/views.py:36-48 | resubmitting `bob@Example.com` gets only the username error, because the lookup compares the raw address with the stored `bob@example.com` |
| `Accounts.SignupKeepsUsernamesUnique` | apps/users/views.py:34-35 | successful signups keep usernames unique |
| `Accounts.PrimaryRole` | apps/users/views.py:150-157 | the deciding profile is admin, else owner, else customer, else none |
| `Accounts.Login` | apps/users/views.py:139-162 | failed authentication shows the error page; a user goes to the owner list exactly when the owner profile decides, otherwise to the restaurant list |
| `Accounts.AdminProfileTakesPrecedence` | apps/users/views.py:150-153 | a user with both admin and owner profiles is not sent to the owner pages |
| `Accounts.SignedUpUserLogsInByRole` | apps/users/views.py:146-157 | a freshly signed-up user is redirected according to the view it signed up through |
| `Dashboard.Filter` | apps/dashboard/views.py:24-27 | `filter(...)` keeps every matching row as often as it occurs and no other row |
| `Dashboard.CountAppend` | apps/dashboard/views.py:59-67 | one more row raises a `.count()` by one exactly when it matches the filter |
| `Dashboard.StrongerFilterCountsFewer` | apps/dashboard/views.py:61-67 | a count under extra conditions never exceeds the count without them |
| `Dashboard.MomentOrderIsLexicographic` | apps/dashboard/views.py:28 | ordering by combined moment is ordering by date, then time |
| `Dashboard.SortBy` | apps/dashboard/views.py:28 | `order_by` yields a sorted permutation of the rows |
| `Dashboard.Top` | apps/dashboard/views.py:28 | `order_by(...)[:n]` keeps min(n, size) rows, a sub-multiset of the input, sorted, and omits a row only when full of rows that sort no later |
| `Dashboard.UpcomingList` | apps/dashboard/views.py:23-28 | at most 5 of the customer's active bookings from today on, none listed more often than it occurs, in (date, time) order, and none sooner is left out |
| `Dashboard.PastList` | apps/dashboard/views.py:30-33 | at most 5 of the customer's bookings before today, any status, none listed more often than it occurs, latest date first, and none later-dated is left out |
| `Dashboard.CustomerDashboard` | apps/dashboard/views.py:17-40 | at most five upcoming and five past rows of the user, each listed at most as often as it occurs, and no row on both lists; upcoming rows in (date, time) order and past rows latest date first; a matching row is left out only when its list is full of rows that come no later in that order |
| `Dashboard.InactiveFutureBookingIsHidden` | apps/dashboard/views.py:24-33 | a cancelled or completed booking for today or later is on neither list |
| `Dashboard.RecentList` | apps/dashboard/views.py:54-56 | at most 10 reservations on the user's restaurants, none listed more often than it occurs, latest (date, time) first, none later left out |
| `Dashboard.OwnerDashboard` | apps/dashboard/views.py:45-78 | each figure is the size of its filter: the user's restaurants, their tables, the reservations on them and the pending ones among those; pending ≤ reservations ≤ all rows, with the zero cases spelled out |
| `Dashboard.OwnerCountsFollowNewReservation` | apps/dashboard/views.py:59-67 | a new reservation raises the owner's reservation count by one exactly when it is on the owner's restaurant, and the pending count exactly when it is also pending |
| `Dashboard.AdminDashboard` | apps/dashboard/views.py:83-110 | forbidden exactly without an admin profile; counts every row; the pending figure is the size of the pending filter, at most the total and 0 exactly when none is pending |
| `Dashboard.AdminCountsFollowNewReservation` | apps/dashboard/views.py:91-95 | a new reservation raises the admin's total by one and the pending count by one exactly when it is pending |
| `Dashboard.AdminPage` | apps/dashboard/views.py:172-179 | every admin page is forbidden exactly without an admin profile |
| `Dashboard.OnlyAdminSignupsReachAdminPages` | apps/dashboard/views.py:86-88 | of freshly signed-up users, exactly the admin signups pass the admin gate |
| `Seeding.CandidateInjective` | apps/restaurants/management/commands/seed_data.py:154-161 | different retry counts probe different slugs |
| `Seeding.UniqueSlug` | apps/restaurants/management/commands/seed_data.py:154-163 | the chosen slug is free; it is the base exactly when the base is free, otherwise `base-k` for the first free k; the loop ends after at most as many retries as taken slugs |
| `Seeding.SeedSlugs` | apps/restaurants/management/commands/seed_data.py:145-163 | the i-th slug is the i-th restaurant's base with the fewest retries that avoid the database and the earlier seeded slugs, the base itself exactly when it is free; every seeded slug is new to the database and no two are equal |
| `Seeding.ChooseNextSlug` | apps/restaurants/management/commands/seed_data.py:154-163 | adding the first free candidate of the next base keeps every chosen slug tied to its base, minimal, new and distinct |
| `Seeding.ChosenBaseWhenFree` | apps/restaurants/management/commands/seed_data.py:154-157 | among chosen slugs, the base is kept exactly when neither the database nor an earlier slug holds it |
| `Seeding.SeededHours` | apps/restaurants/management/commands/seed_data.py:179-186 | seeded opening hours are on the hour in 8..11, closing hours in 20..23 |
| `Seeding.SeededHoursPassTheFormCheck` | apps/restaurants/management/commands/seed_data.py:142-143 | every seeded restaurant closes after it opens and passes the form's hours check |
| `Seeding.TableNumberInjective` | apps/restaurants/management/commands/seed_data.py:205 | different positions give different table numbers |
| `Seeding.RestaurantTables` | apps/restaurants/management/commands/seed_data.py:202-210 | ten active tables per restaurant, numbered `Table-01` to `Table-10`, with capacity 2, 4, 6 or 8 |
| `Seeding.SeedTables` | apps/restaurants/management/commands/seed_data.py:196-215 | ten tables per restaurant, each of a seeded restaurant, active, with a seeded capacity |
| `Seeding.SeededTableIsNumbered` | apps/restaurants/management/commands/seed_data.py:201-205 | the i-th table of the a-th restaurant's block belongs to it and is numbered `Table-{i+1:02d}` |
| `Seeding.SeededTablesAreUnique` | apps/restaurants/management/commands/seed_data.py:201-213 | the seeded tables meet the (restaurant, table_number) constraint |
| `Seeding.SeededNumbersPassTheTableForm` | apps/restaurants/management/commands/seed_data.py:205 | every seeded table number passes `clean_table_number` |
| `Seeding.SeededCapacitiesPassTheTableForm` | apps/restaurants/management/commands/seed_data.py:206 | every seeded capacity passes `clean_capacity` |
| `Seeding.Draw` | apps/restaurants/management/commands/seed_data.py:247-279 | a drawn row has a listed table and customer, a date 1..90 days ahead, a listed slot, 1..min(capacity, 8) guests and one of the four seeded statuses |
| `Seeding.Step` | apps/restaurants/management/commands/seed_data.py:257-287 | an iteration skips a candidate whose slot an active checked row holds; otherwise it queues it, and a full batch is flushed |
| `Seeding.Run` | apps/restaurants/management/commands/seed_data.py:244-287 | after k iterations exactly k attempts are counted, at most k rows created and the batch holds fewer than 100 |
| `Seeding.RunStep` | apps/restaurants/management/commands/seed_data.py:244-287 | one more iteration from the state after k iterations, with the candidate of attempt k, is the state after k + 1 |
| `Seeding.RunCreatedGrows` | apps/restaurants/management/commands/seed_data.py:265-281 | the number of created rows never decreases from one iteration to a later one |
| `Seeding.StepKeepsRows` | apps/restaurants/management/commands/seed_data.py:257-287 | an iteration with a seeded candidate keeps the starting rows in front and one seeded row per created row; with the batch consulted it keeps active slots apart |
| `Seeding.SeedLoop` | apps/restaurants/management/commands/seed_data.py:240-287 | the loop's final state is the run of its attempts; it stops at the first attempt that reaches `count` rows, or after 3·count attempts; starting rows stay in front, every new row is seeded, and with the batch consulted slots stay unshared |
| `Seeding.CandidatesAreSeeded` | apps/restaurants/management/commands/seed_data.py:249-279 | every candidate the rolls give is a row the command may create |
| `Seeding.SeedReservations` | apps/restaurants/management/commands/seed_data.py:217-293 | fails exactly when rows are wanted but no table or customer exists; otherwise the result is the flushed run of the loop's attempts, stopping at the first attempt that reaches `count` or after 3·count attempts; created ≤ count; earlier rows are kept; every new row is a seeded row; checking the batch too keeps slots unshared |
| `Seeding.AsWrittenSeedingDoubleBooks` | apps/restaurants/management/commands/seed_data.py:257-287 | the as-written check creates two active rows on the same slot within one batch |
| `Seeding.AsWrittenRunDoubleBooks` | apps/restaurants/management/commands/seed_data.py:244-293 | with equal rolls for the first two attempts, the as-written run has created two rows after two attempts (after one it had not), so the command stops there and writes two active rows on one slot |
| `Seeding.CheckedSeedingRefusesTheRepeat` | apps/restaurants/management/commands/seed_data.py:257-287 | checking the unflushed batch too refuses the repeated slot |

## Findings

| source | as written | input that shows it | evidently intended | confidence | as-written member | corrected member |
|---|---|---|---|---|---|---|
| apps/restaurants/management/commands/seed_data.py:258-287 | the double-booking test queries only rows already bulk-created; rows waiting in the current batch of up to 100 are not consulted | two iterations of one batch draw the same table, date and time slot, both with status pending or confirmed | no two active seeded reservations share a (table, date, time) slot, as the comment "double booking prevention" says | not executed | `Seeding.AsWrittenSeedingDoubleBooks` and `Seeding.AsWrittenRunDoubleBooks`, about the run that `Seeding.SeedReservations` returns in `PersistedOnly` scope | `Seeding.CheckedSeedingRefusesTheRepeat` and `Seeding.SeedReservations` in `PersistedAndBatch` scope, which preserves `Conflict.NoSharedSlots` |

## Left out

- The ORM, HTTP and templates are not modelled. Query sets are sequences, `get_object_or_404` is assumed to have found its row (the 404 path is not modelled), and redirects and message texts become enum tags.
- Pagination of the listing views is not modelled. The listing views `customer_reservations` and `restaurant_reservations`, and the public `restaurant_list`, `restaurant_detail` and `reserve_table` views, make no booking decision and are not modelled.
- Views take the POST fields already passed through `.strip()` and a blank date or time as `None`. `Text.Strip` models `.strip()` itself for the form clean methods.
- Django's built-in field parsing is taken as done: date, time and integer fields arrive as parsed values or `None`. Choice validation of `cuisine_type`, email and URL syntax are left out.
- RestaurantForms.ValidateRestaurantForm: the model columns' `max_length` validators run in the field's own cleaning, before `clean_<field>`. The phone limit (20, apps/restaurants/models.py:35) and the email limit (254, the `EmailField` default) are modelled. The name limit (200, models.py:32) and the table-number limit (10, models.py:73) equal the bounds of `clean_name` and `clean_table_number`, so `NameTooLong` and `TableNumberTooLong` stand for either message; the clean methods' own branches for them are unreachable through the form. The null-character validator of every text field, email syntax and the `cuisine_type` choices are left out.
- `RestaurantForms.CheckHours` also reports a missing opening or closing time. In the source that error comes from the model form's required-field validation, not from `clean`.
- `authenticate`, `login`, `logout` and password hashing are library calls. `Accounts.Login` receives what `authenticate` returned.
- Accounts.NewUser: the username is stored as posted. `create_user` also applies Unicode NFKC normalisation to it, which needs Unicode's decomposition tables; a username that only normalises to a taken one passes the view's check and then fails the unique column with a server error, which `Accounts.Signup` does not model.
- Accounts.NormalizeEmail lower-cases ASCII letters only, where Python's `str.lower()` also lower-cases other scripts.
- Booking.CreateReservation: a non-blank date or time that does not parse reaches `Reservation.objects.create` and raises a server error with nothing saved; the model's date and time are already parsed values or `None`, so that input is not represented.
- OwnerViews.UpdateRestaurant: a non-blank opening or closing time that does not parse makes `restaurant.save()` raise a server error with nothing saved; the model's posted times are already parsed values or `None`, so that input is not represented.
- Signup's extra profile fields (name, phone, title, business licence, dietary preferences) are stored unchecked and are not modelled.
- File uploads and their size checks (`clean_logo`, `clean_cover_image`), and latitude and longitude (floats), are left out.
- `datetime.now()` and `timezone.make_aware` are left out: `today` is a parameter.
- The check-then-insert race between the conflict check and the insert is left out: there is no locking to model.
- The deposit computation and `Reservation.check_conflict` are left out: neither exists in the application code.
- `PublicReservationForm.save` omitting the customer is left out: it is a persistence defect, not a decision.
- The admin dashboard's "recent by creation time" lists and the profile objects put into the dashboard contexts are left out: there are no creation timestamps in the model.
- The owner dashboard's restaurant list is left out. Only its count is modelled.
- Cascading deletes are left out: `OwnerViews.DeleteRestaurant` removes the restaurant row only.
- `OwnerViews.UpdateTable` does not model the database's unique constraint rejecting a renamed duplicate table number: the view itself does not check it.
- Seeding randomness is an oracle: each random choice is a roll taken modulo the number of choices. `random.choices` weights (30/50/10/10 %) are not modelled, only the set of statuses.
- Faker text, `slugify` and the per-table description text are not modelled: slug bases are inputs and the seeded table description is empty.
- `Seeding.UniqueSlug` treats the database slug test as subsumed by the taken set, which starts as every slug in the database. The `Restaurant` model in apps/restaurants/models.py:27-49 declares no `slug` field, although the seed command reads and writes one. As the repository stands, `values_list('slug', flat=True)` at apps/restaurants/management/commands/seed_data.py:145 therefore raises `FieldError`, and the `transaction.atomic()` block (seed_data.py:46-60) rolls back the owners and customers already created, before the slug, table or reservation loop runs. test_fixes.py:64-104 expects a slug generated from the name, with `-1` appended for a duplicate. The seeding model describes the command as it would run with that field present.
- `Seeding.SeedReservations` requires every table capacity to be at least 1, because `random.randint(1, n)` fails for n < 1; the seeded tables always meet this. An empty table or customer list is the error result: `random.choice` raises and the transaction keeps nothing.
- `Text.ParseInt` accepts an optional sign and ASCII digits. Python's `int()` also accepts underscores between digits and non-ASCII decimal digits, and those are not modelled. `Text.CountDigits` likewise counts ASCII digits only, where `str.isdigit` also counts other Unicode digits.
- `Dashboard.SortBy` is a stable insertion sort. The database's order among rows with equal keys is unspecified, and the model fixes one order.

=== FILE: accounts.dfy ===
/** Account creation and login: the three signup views share one validation, and the
    login view dispatches on which profile the authenticated user has. */
module Accounts {
  import opened Results
  import opened Domain
  import opened Text

  /** Which of the three signup views was used; each creates one profile kind. */
  datatype Role = AdminRole | OwnerRole | CustomerRole

  /** The POST fields the validation reads, each already passed through `.strip()`.
      The per-role extras (title, business licence, dietary preferences) and the name
      and phone fields are stored without any check and are not modelled. */
  datatype SignupForm = SignupForm(
    username: string,
    email: string,
    password: string,
    passwordConfirm: string)

  datatype SignupError =
    | MissingCredentials   // username, email or password blank
    | PasswordMismatch
    | UsernameTaken
    | EmailTaken

  predicate UsernameExists(users: seq<User>, username: string) {
    exists i :: 0 <= i < |users| && users[i].username == username
  }

  predicate EmailExists(users: seq<User>, email: string) {
    exists i :: 0 <= i < |users| && users[i].email == email
  }

  /** No two users share a username (Django's unique `username` column). */
  predicate UniqueUsernames(users: seq<User>) {
    forall i, j :: 0 <= i < j < |users| ==> users[i].username != users[j].username
  }

  /** The four independent checks of a signup POST, each contributing its own error;
      none of them stops the others. */
  function SignupErrors(form: SignupForm, users: seq<User>): (es: seq<SignupError>)
    ensures MissingCredentials in es <==> form.username == "" || form.email == "" || form.password == ""
    ensures PasswordMismatch in es <==> form.password != form.passwordConfirm
    ensures UsernameTaken in es <==> UsernameExists(users, form.username)
    ensures EmailTaken in es <==> EmailExists(users, form.email)
    ensures |es| <= 4
  {
    (if form.username == "" || form.email == "" || form.password == "" then [MissingCredentials] else [])
    + (if form.password != form.passwordConfirm then [PasswordMismatch] else [])
    + (if UsernameExists(users, form.username) then [UsernameTaken] else [])
    + (if EmailExists(users, form.email) then [EmailTaken] else [])
  }

  /** Position `k` of `e` lies after its last `@`: in the domain part. */
  predicate InDomain(e: string, k: int) {
    && 0 <= k < |e|
    && (exists j :: 0 <= j < k && e[j] == '@')
    && (forall j :: k <= j < |e| ==> e[j] != '@')
  }

  /** `normalize_email`, which `create_user` applies before storing: the part after the
      last `@` is lower-cased, the rest is kept; an address without `@` is unchanged. */
  function NormalizeEmail(e: string): (r: string)
    ensures |r| == |e|
    ensures forall k :: 0 <= k < |e| ==> r[k] == if InDomain(e, k) then LowerChar(e[k]) else e[k]
  {
    match LastIndexOf(e, '@')
    case None => e
    case Some(m) =>
      var r := e[..m + 1] + Lower(e[m + 1..]);
      assert forall k :: 0 <= k < |e| ==> (InDomain(e, k) <==> k > m) by {
        forall k | 0 <= k < |e| ensures InDomain(e, k) <==> k > m {
          if k > m { assert e[m] == '@'; }
        }
      }
      assert forall k :: m < k < |e| ==> r[k] == Lower(e[m + 1..])[k - (m + 1)];
      r
  }

  /** Normalising an address that is already normalised changes nothing. */
  lemma {:induction false} NormalizeEmailIdempotent(e: string)
    ensures NormalizeEmail(NormalizeEmail(e)) == NormalizeEmail(e)
  {
    var r := NormalizeEmail(e);
    assert forall k :: 0 <= k < |e| ==> (r[k] == '@' <==> e[k] == '@');
    forall k | 0 <= k < |e| ensures InDomain(r, k) <==> InDomain(e, k) {
      if InDomain(e, k) {
        var j :| 0 <= j < k && e[j] == '@';
        assert r[j] == '@';
      }
      if InDomain(r, k) {
        var j :| 0 <= j < k && r[j] == '@';
        assert e[j] == '@';
      }
    }
  }

  /** An address whose domain has no upper-case letter is stored exactly as posted. */
  lemma LowerCaseDomainIsKept(e: string)
    requires forall k :: 0 <= k < |e| && InDomain(e, k) ==> !('A' <= e[k] <= 'Z')
    ensures NormalizeEmail(e) == e
  {
  }

  /** The user row plus exactly the one profile the signup view creates; the email is
      stored normalised. */
  function NewUser(role: Role, id: int, form: SignupForm): (u: User)
    ensures u.id == id && u.username == form.username && u.email == NormalizeEmail(form.email)
    ensures u.hasAdminProfile <==> role == AdminRole
    ensures u.hasOwnerProfile <==> role == OwnerRole
    ensures u.hasCustomerProfile <==> role == CustomerRole
  {
    User(id, form.username, NormalizeEmail(form.email), role == AdminRole, role == OwnerRole, role == CustomerRole)
  }

  /** `signup_admin`, `signup_restaurant_owner` and `signup_customer`: a GET shows the
      empty form; a POST with no errors appends the user, otherwise every error is shown. */
  function Signup(role: Role, verb: Verb, form: SignupForm, users: seq<User>, newId: int)
    : (out: ViewResult<seq<User>, SignupError>)
    ensures !out.Forbidden?
    ensures out.Saved? <==> verb == Post && SignupErrors(form, users) == []
    ensures out.Rendered? && verb == Post ==> out.errors == SignupErrors(form, users) && out.errors != []
    ensures out.Saved? ==> |out.value| == |users| + 1 && out.value[..|users|] == users
                           && out.value[|users|] == NewUser(role, newId, form)
    ensures out.Saved? ==> form.username != "" && form.email != "" && form.password != ""
                           && form.password == form.passwordConfirm
  {
    if verb == Get then Rendered([])
    else
      assert verb == Post;
      var es := SignupErrors(form, users);
      if es != [] then Rendered(es)
      else
        var all := users + [NewUser(role, newId, form)];
        assert all[..|users|] == users;
        Saved(all)
  }

  /** The three signup views accept and reject exactly the same submissions, with the
      same errors; only the profile they attach differs. */
  lemma SignupIsRoleIndependent(r1: Role, r2: Role, verb: Verb, form: SignupForm,
                                users: seq<User>, newId: int)
    ensures Signup(r1, verb, form, users, newId).Saved? <==> Signup(r2, verb, form, users, newId).Saved?
    ensures Signup(r1, verb, form, users, newId).Rendered? ==>
            Signup(r1, verb, form, users, newId) == Signup(r2, verb, form, users, newId)
  {
  }

  /** Submitting the same form again, through any of the views, fails on the username.
      It fails on the email too exactly when the posted address was already normalised:
      the lookup compares the raw address with the stored, normalised one. */
  lemma RepeatedSignupIsRejected(role: Role, again: Role, form: SignupForm, users: seq<User>,
                                 id1: int, id2: int)
    requires Signup(role, Post, form, users, id1).Saved?
    ensures var second := Signup(again, Post, form, Signup(role, Post, form, users, id1).value, id2);
            second.Rendered? && UsernameTaken in second.errors
            && (EmailTaken in second.errors <==> NormalizeEmail(form.email) == form.email)
  {
    var after := Signup(role, Post, form, users, id1).value;
    assert after[|users|].username == form.username;
    assert EmailExists(after, form.email) <==> NormalizeEmail(form.email) == form.email by {
      assert forall i :: 0 <= i < |users| ==> after[i] == users[i];
      if NormalizeEmail(form.email) == form.email {
        assert after[|users|].email == form.email;
      }
    }
  }

  /** A domain in capitals slips past the email check on a resubmission: only the
      username error is shown. */
  lemma MixedCaseDomainSkipsTheEmailError()
    ensures var form := SignupForm("bob", "bob@Example.com", "pw", "pw");
            var first := Signup(CustomerRole, Post, form, [], 1);
            first.Saved? && Signup(CustomerRole, Post, form, first.value, 2) == Rendered([UsernameTaken])
  {
    var form := SignupForm("bob", "bob@Example.com", "pw", "pw");
    var u := NewUser(CustomerRole, 1, form);
    ExampleDomainIsLowered();
    ExampleFirstSignup(form, u);
    ExampleSecondSignup(form, u);
  }

  lemma ExampleFirstSignup(form: SignupForm, u: User)
    requires form == SignupForm("bob", "bob@Example.com", "pw", "pw")
    requires u == NewUser(CustomerRole, 1, form)
    ensures Signup(CustomerRole, Post, form, [], 1) == Saved([u])
  {
    assert SignupErrors(form, []) == [];
  }

  lemma ExampleSecondSignup(form: SignupForm, u: User)
    requires form == SignupForm("bob", "bob@Example.com", "pw", "pw")
    requires u.username == form.username && u.email != form.email
    ensures Signup(CustomerRole, Post, form, [u], 2) == Rendered([UsernameTaken])
  {
    assert [u][0].username == "bob";
    assert !EmailExists([u], form.email);
    assert SignupErrors(form, [u]) == [UsernameTaken];
  }

  lemma ExampleDomainIsLowered()
    ensures NormalizeEmail("bob@Example.com") != "bob@Example.com"
  {
    var e := "bob@Example.com";
    assert e[3] == '@' && forall j :: 4 <= j < |e| ==> e[j] != '@';
    assert InDomain(e, 4);
    assert NormalizeEmail(e)[4] == 'e' != e[4];
  }

  /** The username check keeps usernames unique across successful signups. */
  lemma {:induction false} SignupKeepsUsernamesUnique(role: Role, form: SignupForm,
                                                      users: seq<User>, newId: int)
    requires UniqueUsernames(users)
    ensures var out := Signup(role, Post, form, users, newId);
            out.Saved? ==> UniqueUsernames(out.value)
  {
    var out := Signup(role, Post, form, users, newId);
    if out.Saved? {
      var all := out.value;
      forall i, j | 0 <= i < j < |all| ensures all[i].username != all[j].username {
        if j == |users| {
          assert all[i] == users[i];
          assert !UsernameExists(users, form.username);
        } else {
          assert all[i] == users[i] && all[j] == users[j];
        }
      }
    }
  }

  /** Where `login_user` sends an authenticated user. */
  datatype Destination = RestaurantList | OwnerRestaurantList

  datatype LoginOutcome =
    | LoginPage(invalidCredentials: bool)
    | Redirect(to: Destination)

  /** The profile that decides the login redirect: admin first, then owner, then
      customer. */
  function PrimaryRole(u: User): (r: Option<Role>)
    ensures r == Some(AdminRole) <==> u.hasAdminProfile
    ensures r == Some(OwnerRole) <==> !u.hasAdminProfile && u.hasOwnerProfile
    ensures r == Some(CustomerRole) <==> !u.hasAdminProfile && !u.hasOwnerProfile && u.hasCustomerProfile
    ensures r == None <==> !u.hasAdminProfile && !u.hasOwnerProfile && !u.hasCustomerProfile
  {
    if u.hasAdminProfile then Some(AdminRole)
    else if u.hasOwnerProfile then Some(OwnerRole)
    else if u.hasCustomerProfile then Some(CustomerRole)
    else None
  }

  /** `login_user`. `authenticated` is what `authenticate` returned for the posted
      credentials (the password check is a library call). Only a user whose deciding
      profile is the owner profile lands on the owner's restaurant list. */
  function Login(verb: Verb, authenticated: Option<User>): (out: LoginOutcome)
    ensures verb == Get ==> out == LoginPage(false)
    ensures verb == Post && authenticated.None? ==> out == LoginPage(true)
    ensures out == Redirect(OwnerRestaurantList) <==>
            verb == Post && authenticated.Some? && PrimaryRole(authenticated.value) == Some(OwnerRole)
    ensures out == Redirect(RestaurantList) <==>
            verb == Post && authenticated.Some? && PrimaryRole(authenticated.value) != Some(OwnerRole)
  {
    if verb == Get then LoginPage(false)
    else
      assert verb == Post;
      match authenticated
      case None => LoginPage(true)
      case Some(u) =>
        match PrimaryRole(u)
        case Some(AdminRole) => Redirect(RestaurantList)
        case Some(OwnerRole) => Redirect(OwnerRestaurantList)
        case Some(CustomerRole) => Redirect(RestaurantList)
        case None => Redirect(RestaurantList)
  }

  /** An admin profile wins over an owner profile: such a user is not sent to the
      owner pages. */
  lemma AdminProfileTakesPrecedence(u: User)
    requires u.hasAdminProfile && u.hasOwnerProfile
    ensures Login(Post, Some(u)) == Redirect(RestaurantList)
  {
  }

  /** A freshly signed-up user has a single profile, so the login redirect follows the
      view it signed up through. */
  lemma SignedUpUserLogsInByRole(role: Role, form: SignupForm, users: seq<User>, newId: int)
    requires Signup(role, Post, form, users, newId).Saved?
    ensures var u := Signup(role, Post, form, users, newId).value[|users|];
            Login(Post, Some(u)) == (if role == OwnerRole then Redirect(OwnerRestaurantList)
                                     else Redirect(RestaurantList))
  {
  }
}

=== FILE: booking.dfy ===
/** The booking validators: the model form `ReservationForm` (stops at the first
    cross-field failure), the AJAX `AvailabilityCheckForm`, the public
    `PublicReservationForm` (collects every cross-field failure) and the
    hand-written checks of the `create_reservation` view. */
module Booking {
  import opened Results
  import opened Domain
  import opened Text
  import opened Conflict

  const MinGuests := 1
  const MaxGuests := 20

  datatype Field = TableField | TableIdField | DateField | TimeField | GuestCountField

  /** One reported problem; field-scoped errors name their field implicitly by kind. */
  datatype BookingError =
    | Required(field: Field)
    | PastDate
    | GuestCountBelowOne
    | GuestCountAboveTwenty
    | TableInvalidChoice        // the chosen table is outside the field's queryset
    | TableNotInRestaurant      // `clean_table`'s own check
    | TableDoesNotExist         // AvailabilityCheckForm's table lookup
    | TableUnavailable          // PublicReservationForm's table lookup
    | OverCapacity(capacity: int)
    | OutsideHours(opening: TimeOfDay, closing: TimeOfDay)
    | WindowTaken               // non-field error of the two-hour window rule
    | SlotAlreadyBooked         // non-field error of the exact-slot rule
    | FieldsRequired            // create_reservation: date, time and guest count
    | GuestCountNotNumber       // create_reservation: int() failed
    | GuestCountOutOfRange(max: int)

  /** An error only a form's cross-field `clean` step reports. */
  predicate CrossFieldError(e: BookingError) {
    e.OverCapacity? || e.OutsideHours? || e == WindowTaken || e == SlotAlreadyBooked || e == TableUnavailable
  }

  /** Opening hours are inclusive at both ends. */
  predicate WithinHours(r: Restaurant, time: TimeOfDay) {
    r.openingTime <= time <= r.closingTime
  }

  // ---------------------------------------------------------------- field cleaning

  /** `clean_reservation_date`: required, and not before `today`. */
  function CleanDate(date: Option<Date>, today: Date): (r: Result<Date, BookingError>)
    ensures r.Ok? <==> date.Some? && date.value >= today
    ensures r.Ok? ==> r.value == date.value
    ensures date.Some? && date.value < today ==> r == Err(PastDate)
  {
    if date.None? then Err(Required(DateField))
    else if date.value < today then Err(PastDate)
    else Ok(date.value)
  }

  /** `clean_reservation_time`: required. */
  function CleanTime(time: Option<TimeOfDay>): (r: Result<TimeOfDay, BookingError>)
    ensures r.Ok? <==> time.Some?
    ensures r.Ok? ==> r.value == time.value
  {
    if time.None? then Err(Required(TimeField)) else Ok(time.value)
  }

  /** `clean_guest_count` (and, in the public form, the field's min/max validators):
      a missing value is "required", 0 or less is below one, above 20 is too many. */
  function CleanGuestCount(guests: Option<int>): (r: Result<int, BookingError>)
    ensures r.Ok? <==> guests.Some? && MinGuests <= guests.value <= MaxGuests
    ensures r.Ok? ==> r.value == guests.value
    ensures guests.Some? && guests.value < MinGuests ==> r == Err(GuestCountBelowOne)
    ensures guests.Some? && guests.value > MaxGuests ==> r == Err(GuestCountAboveTwenty)
  {
    if guests.None? then Err(Required(GuestCountField))
    else if guests.value < MinGuests then Err(GuestCountBelowOne)
    else if guests.value > MaxGuests then Err(GuestCountAboveTwenty)
    else Ok(guests.value)
  }

  /** The table field of `ReservationForm`. With a restaurant context the field only
      offers that restaurant's active tables; `clean_table` then re-checks the restaurant. */
  function CleanTable(table: Option<Table>, context: Option<Restaurant>): (r: Result<Table, BookingError>)
    ensures r.Ok? <==> table.Some? && (context.Some? ==>
      table.value.restaurant.id == context.value.id && table.value.isActive)
    ensures r.Ok? ==> r.value == table.value
  {
    if table.None? then Err(Required(TableField))
    else if context.Some? && !(table.value.restaurant.id == context.value.id && table.value.isActive) then
      Err(TableInvalidChoice)
    else if context.Some? && table.value.restaurant.id != context.value.id then
      Err(TableNotInRestaurant)
    else Ok(table.value)
  }

  /** The queryset restriction already excludes foreign tables, so `clean_table`'s
      own restaurant check never reports anything. */
  lemma CleanTableOwnCheckIsUnreachable(table: Option<Table>, context: Option<Restaurant>)
    ensures CleanTable(table, context) != Err(TableNotInRestaurant)
  {
  }

  // ---------------------------------------------------------------- ReservationForm

  /** The cross-field checks of `ReservationForm.clean`: capacity, then hours, then the
      two-hour window; the first failure is raised and the rest are not run. */
  function FirstFailure(existing: seq<Reservation>, table: Table, date: Date, time: TimeOfDay,
                        guests: int): (es: seq<BookingError>)
    ensures |es| <= 1
    ensures es == [] <==> guests <= table.capacity && WithinHours(table.restaurant, time)
                          && !WindowConflict(existing, table.id, date, time)
    ensures guests > table.capacity ==> es == [OverCapacity(table.capacity)]
    ensures guests <= table.capacity && !WithinHours(table.restaurant, time) ==>
              es == [OutsideHours(table.restaurant.openingTime, table.restaurant.closingTime)]
    ensures es == [WindowTaken] <==> guests <= table.capacity && WithinHours(table.restaurant, time)
                                     && WindowConflict(existing, table.id, date, time)
  {
    if guests > table.capacity then [OverCapacity(table.capacity)]
    else if !WithinHours(table.restaurant, time) then
      [OutsideHours(table.restaurant.openingTime, table.restaurant.closingTime)]
    else if WindowConflict(existing, table.id, date, time) then [WindowTaken]
    else []
  }

  datatype ReservationRequest = ReservationRequest(
    table: Option<Table>,
    date: Option<Date>,
    time: Option<TimeOfDay>,
    guestCount: Option<int>)

  /** Every field of `ReservationForm` cleans. */
  predicate FieldsClean(req: ReservationRequest, context: Option<Restaurant>, today: Date) {
    && req.table.Some?
    && (context.Some? ==> (req.table.value.restaurant.id == context.value.id && req.table.value.isActive))
    && req.date.Some? && req.date.value >= today
    && req.time.Some?
    && req.guestCount.Some? && MinGuests <= req.guestCount.value <= MaxGuests
  }

  /** All errors `ReservationForm` reports: the field errors in field order, then at
      most one cross-field error, and the cross-field checks only when every field cleaned. */
  function ValidateReservationForm(req: ReservationRequest, context: Option<Restaurant>, today: Date,
                                   existing: seq<Reservation>): (es: seq<BookingError>)
    ensures es == [] <==>
      && req.table.Some?
      && (context.Some? ==> (req.table.value.restaurant.id == context.value.id && req.table.value.isActive))
      && req.date.Some? && req.date.value >= today
      && req.time.Some?
      && req.guestCount.Some? && MinGuests <= req.guestCount.value <= MaxGuests
      && req.guestCount.value <= req.table.value.capacity
      && WithinHours(req.table.value.restaurant, req.time.value)
      && !WindowConflict(existing, req.table.value.id, req.date.value, req.time.value)
    ensures req.date.Some? && req.date.value < today ==> PastDate in es
    ensures FieldsClean(req, context, today) ==>
              es == FirstFailure(existing, req.table.value, req.date.value, req.time.value, req.guestCount.value)
    ensures !FieldsClean(req, context, today) ==> es != [] && forall e :: e in es ==> !CrossFieldError(e)
  {
    var t := CleanTable(req.table, context);
    var d := CleanDate(req.date, today);
    var tm := CleanTime(req.time);
    var g := CleanGuestCount(req.guestCount);
    var fieldErrors := ErrorsOf(t) + ErrorsOf(d) + ErrorsOf(tm) + ErrorsOf(g);
    assert d.Err? ==> d.error in fieldErrors;
    if t.Ok? && d.Ok? && tm.Ok? && g.Ok? then
      fieldErrors + FirstFailure(existing, t.value, d.value, tm.value, g.value)
    else
      fieldErrors
  }

  /** A booking for today is not rejected as a past date. */
  lemma TodayIsNotPast(req: ReservationRequest, context: Option<Restaurant>, today: Date,
                       existing: seq<Reservation>)
    requires req.date == Some(today)
    ensures PastDate !in ValidateReservationForm(req, context, today, existing)
  {
  }

  /** The form never reports more than one cross-field error: with all fields clean the
      whole error list has at most one entry. */
  lemma ReservationFormStopsAtFirstFailure(req: ReservationRequest, context: Option<Restaurant>,
                                           today: Date, existing: seq<Reservation>)
    requires req.table.Some?
    requires context.Some? ==> (req.table.value.restaurant.id == context.value.id && req.table.value.isActive)
    requires req.date.Some? && req.date.value >= today && req.time.Some?
    requires req.guestCount.Some? && MinGuests <= req.guestCount.value <= MaxGuests
    ensures |ValidateReservationForm(req, context, today, existing)| <= 1
  {
  }

  /** Exactly at opening and exactly at closing is within hours; a minute outside is not. */
  lemma HoursAreInclusive(r: Restaurant)
    ensures WithinHours(r, r.openingTime) == (r.openingTime <= r.closingTime)
    ensures WithinHours(r, r.closingTime) == (r.openingTime <= r.closingTime)
    ensures r.openingTime > 0 ==> !WithinHours(r, r.openingTime - 1)
    ensures r.closingTime < 1439 ==> !WithinHours(r, r.closingTime + 1)
  {
  }

  // ---------------------------------------------------------------- AvailabilityCheckForm

  datatype AvailabilityRequest = AvailabilityRequest(
    tableId: Option<int>,
    date: Option<Date>,
    time: Option<TimeOfDay>)

  /** The first table with this id, if any (`Table.objects.get(id=...)`). */
  function FindTable(tables: seq<Table>, id: int): (r: Option<Table>)
    ensures r.Some? <==> exists i :: 0 <= i < |tables| && tables[i].id == id
    ensures r.Some? ==> r.value in tables && r.value.id == id
  {
    if |tables| == 0 then None
    else if tables[0].id == id then Some(tables[0])
    else
      var r := FindTable(tables[1..], id);
      assert forall i :: 1 <= i < |tables| ==> tables[i] == tables[1..][i - 1];
      assert r.Some? ==> tables[1..][..] == tables[1..] && r.value in tables[1..];
      r
  }

  /** `clean_table_id`: required, and the table must exist. */
  function CleanTableId(tableId: Option<int>, tables: seq<Table>): (r: Result<Table, BookingError>)
    ensures r.Ok? <==> tableId.Some? && FindTable(tables, tableId.value).Some?
    ensures r.Ok? ==> r.value.id == tableId.value
  {
    if tableId.None? then Err(Required(TableIdField))
    else match FindTable(tables, tableId.value)
      case None => Err(TableDoesNotExist)
      case Some(t) => Ok(t)
  }

  /** Every field of `AvailabilityCheckForm` cleans, and the table id is truthy, so
      `clean` goes on to the hours and window checks. */
  predicate AvailabilityChecked(req: AvailabilityRequest, tables: seq<Table>, today: Date) {
    && req.tableId.Some? && req.tableId.value != 0 && FindTable(tables, req.tableId.value).Some?
    && req.date.Some? && req.date.value >= today && req.time.Some?
  }

  /** `AvailabilityCheckForm`: date and table fields, then hours and the window check
      (the same predicate as `ReservationForm`); no guest count and no capacity check.
      A table id of 0 is falsy in the source and skips the cross-field checks. */
  function ValidateAvailability(req: AvailabilityRequest, tables: seq<Table>, today: Date,
                                existing: seq<Reservation>): (es: seq<BookingError>)
    ensures es == [] <==>
      && req.tableId.Some? && FindTable(tables, req.tableId.value).Some?
      && req.date.Some? && req.date.value >= today && req.time.Some?
      && (req.tableId.value != 0 ==>
            var t := FindTable(tables, req.tableId.value).value;
            WithinHours(t.restaurant, req.time.value) && !WindowConflict(existing, t.id, req.date.value, req.time.value))
    ensures |es| <= 3
    ensures Required(TableIdField) in es <==> req.tableId.None?
    ensures TableDoesNotExist in es <==> req.tableId.Some? && FindTable(tables, req.tableId.value).None?
    ensures Required(DateField) in es <==> req.date.None?
    ensures PastDate in es <==> req.date.Some? && req.date.value < today
    ensures Required(TimeField) in es <==> req.time.None?
    ensures (exists e :: e in es && e.OutsideHours?) <==>
              AvailabilityChecked(req, tables, today)
              && !WithinHours(FindTable(tables, req.tableId.value).value.restaurant, req.time.value)
    ensures WindowTaken in es <==>
              AvailabilityChecked(req, tables, today)
              && WithinHours(FindTable(tables, req.tableId.value).value.restaurant, req.time.value)
              && WindowConflict(existing, req.tableId.value, req.date.value, req.time.value)
    ensures AvailabilityChecked(req, tables, today) ==> |es| <= 1
    ensures !AvailabilityChecked(req, tables, today) ==> forall e :: e in es ==> !CrossFieldError(e)
  {
    var t := CleanTableId(req.tableId, tables);
    var d := CleanDate(req.date, today);
    var tm := CleanTime(req.time);
    var fieldErrors := ErrorsOf(t) + ErrorsOf(d) + ErrorsOf(tm);
    if t.Ok? && d.Ok? && tm.Ok? && req.tableId.value != 0 then
      var table := t.value;
      if !WithinHours(table.restaurant, tm.value) then
        var es := fieldErrors + [OutsideHours(table.restaurant.openingTime, table.restaurant.closingTime)];
        assert es[|es| - 1] in es;
        es
      else if !CheckAvailability(existing, table, d.value, tm.value) then
        AvailabilityMatchesConflictCheck(existing, table, d.value, tm.value);
        fieldErrors + [WindowTaken]
      else
        AvailabilityMatchesConflictCheck(existing, table, d.value, tm.value);
        fieldErrors
    else
      fieldErrors
  }

  // ---------------------------------------------------------------- PublicReservationForm

  datatype PublicRequest = PublicRequest(
    tableId: Option<int>,
    date: Option<Date>,
    time: Option<TimeOfDay>,
    guestCount: Option<int>)

  predicate Bookable(t: Table, id: int, restaurant: Restaurant) {
    t.id == id && t.restaurant.id == restaurant.id && t.isActive
  }

  /** The lookup `Table.objects.get(id=..., restaurant=self.restaurant, is_active=True)`;
      without a restaurant context no table matches. */
  function FindBookableTable(tables: seq<Table>, id: int, context: Option<Restaurant>): (r: Option<Table>)
    ensures r.Some? <==> context.Some? && (exists i :: 0 <= i < |tables| && Bookable(tables[i], id, context.value))
    ensures r.Some? ==> r.value in tables && r.value.id == id && r.value.isActive
                        && r.value.restaurant.id == context.value.id
  {
    if context.None? || |tables| == 0 then None
    else if tables[0].id == id && tables[0].restaurant.id == context.value.id && tables[0].isActive then
      Some(tables[0])
    else
      var r := FindBookableTable(tables[1..], id, context);
      assert forall i :: 1 <= i < |tables| ==> tables[i] == tables[1..][i - 1];
      r
  }

  /** The cross-field checks of `PublicReservationForm.clean`: every failing check adds
      its error; none stops the others. */
  function AllFailures(existing: seq<Reservation>, table: Table, date: Date, time: TimeOfDay,
                       guests: int): (es: seq<BookingError>)
    ensures OverCapacity(table.capacity) in es <==> guests > table.capacity
    ensures OutsideHours(table.restaurant.openingTime, table.restaurant.closingTime) in es
            <==> !WithinHours(table.restaurant, time)
    ensures SlotAlreadyBooked in es <==> SlotTaken(existing, table.id, date, time)
    ensures es == [] <==> guests <= table.capacity && WithinHours(table.restaurant, time)
                          && !SlotTaken(existing, table.id, date, time)
    ensures forall e :: e in es ==> e.OverCapacity? || e.OutsideHours? || e == SlotAlreadyBooked
  {
    (if guests > table.capacity then [OverCapacity(table.capacity)] else [])
    + (if !WithinHours(table.restaurant, time)
       then [OutsideHours(table.restaurant.openingTime, table.restaurant.closingTime)] else [])
    + (if SlotTaken(existing, table.id, date, time) then [SlotAlreadyBooked] else [])
  }

  /** Every field of `PublicReservationForm` cleans. */
  predicate PublicFieldsClean(req: PublicRequest, today: Date) {
    && req.tableId.Some?
    && req.date.Some? && req.date.value >= today && req.time.Some?
    && req.guestCount.Some? && MinGuests <= req.guestCount.value <= MaxGuests
  }

  /** All errors `PublicReservationForm` reports. A failed table lookup is raised on its
      own; otherwise capacity, hours and the exact-slot check all contribute. */
  function ValidatePublicReservation(req: PublicRequest, context: Option<Restaurant>, tables: seq<Table>,
                                     today: Date, existing: seq<Reservation>): (es: seq<BookingError>)
    ensures es == [] <==>
      && req.tableId.Some?
      && req.date.Some? && req.date.value >= today && req.time.Some?
      && req.guestCount.Some? && MinGuests <= req.guestCount.value <= MaxGuests
      && (req.tableId.value != 0 ==>
            && FindBookableTable(tables, req.tableId.value, context).Some?
            && var t := FindBookableTable(tables, req.tableId.value, context).value;
               req.guestCount.value <= t.capacity && WithinHours(t.restaurant, req.time.value)
               && !SlotTaken(existing, t.id, req.date.value, req.time.value))
    ensures PublicFieldsClean(req, today) && req.tableId.value != 0 ==>
              match FindBookableTable(tables, req.tableId.value, context)
              case None => es == [TableUnavailable]
              case Some(t) => es == AllFailures(existing, t, req.date.value, req.time.value, req.guestCount.value)
    ensures !PublicFieldsClean(req, today) || req.tableId.value == 0 ==>
              forall e :: e in es ==> !CrossFieldError(e)
  {
    var id := if req.tableId.Some? then Ok(req.tableId.value) else Err(Required(TableIdField));
    var d := CleanDate(req.date, today);
    var tm := CleanTime(req.time);
    var g := CleanGuestCount(req.guestCount);
    var fieldErrors := ErrorsOf(id) + ErrorsOf(d) + ErrorsOf(tm) + ErrorsOf(g);
    if id.Ok? && id.value != 0 && d.Ok? && tm.Ok? && g.Ok? then
      match FindBookableTable(tables, id.value, context)
      case None => fieldErrors + [TableUnavailable]
      case Some(t) => fieldErrors + AllFailures(existing, t, d.value, tm.value, g.value)
    else
      fieldErrors
  }

  /** A table id of 0 is falsy: with every field clean the form is valid without any
      table lookup, capacity, hours or slot check. */
  lemma ZeroTableIdSkipsCrossFieldChecks(req: PublicRequest, context: Option<Restaurant>,
                                         tables: seq<Table>, today: Date, existing: seq<Reservation>)
    requires req.tableId == Some(0)
    requires req.date.Some? && req.date.value >= today && req.time.Some?
    requires req.guestCount.Some? && MinGuests <= req.guestCount.value <= MaxGuests
    ensures ValidatePublicReservation(req, context, tables, today, existing) == []
  {
  }

  /** A table that is inactive or belongs to another restaurant yields only "not available". */
  lemma UnavailableTableIsTheOnlyCrossFieldError(req: PublicRequest, context: Option<Restaurant>,
                                                  tables: seq<Table>, today: Date, existing: seq<Reservation>)
    requires req.tableId.Some? && req.tableId.value != 0
    requires req.date.Some? && req.date.value >= today && req.time.Some?
    requires req.guestCount.Some? && MinGuests <= req.guestCount.value <= MaxGuests
    requires forall i :: 0 <= i < |tables| && tables[i].id == req.tableId.value ==>
               !tables[i].isActive || context.None? || tables[i].restaurant.id != context.value.id
    ensures ValidatePublicReservation(req, context, tables, today, existing) == [TableUnavailable]
  {
  }

  /** The two validators order their cross-field checks the same way: whenever the
      public form's first error is about capacity or hours, it is exactly the one error
      `ReservationForm` raises. */
  lemma FirstFailureIsHeadOfAllFailures(existing: seq<Reservation>, table: Table, date: Date,
                                        time: TimeOfDay, guests: int)
    ensures var all := AllFailures(existing, table, date, time, guests);
            |all| > 0 && all[0] != SlotAlreadyBooked ==> FirstFailure(existing, table, date, time, guests) == [all[0]]
    ensures FirstFailure(existing, table, date, time, guests) == [] ==> AllFailures(existing, table, date, time, guests) == []
  {
    SlotTakenImpliesWindowConflict(existing, table.id, date, time);
  }

  /** Capacity and hours failures are reported together by the public form, while the
      model form reports only the capacity failure. */
  lemma PublicFormAccumulates(existing: seq<Reservation>, table: Table, date: Date, time: TimeOfDay,
                              guests: int)
    requires guests > table.capacity && !WithinHours(table.restaurant, time)
    ensures |AllFailures(existing, table, date, time, guests)| >= 2
    ensures FirstFailure(existing, table, date, time, guests) == [OverCapacity(table.capacity)]
  {
    var all := AllFailures(existing, table, date, time, guests);
    assert all[0] == OverCapacity(table.capacity);
    assert all[1] == OutsideHours(table.restaurant.openingTime, table.restaurant.closingTime);
  }

  /** 18:30 next to an active 19:00 booking: accepted by the public form's exact-slot
      rule, rejected by the model form's window rule. */
  lemma HalfHourBeforeBookingDisagrees(r: Reservation, guests: int)
    requires IsActive(r.status) && r.time == 19 * 60
    requires guests <= r.table.capacity && WithinHours(r.table.restaurant, 18 * 60 + 30)
    ensures AllFailures([r], r.table, r.date, 18 * 60 + 30, guests) == []
    ensures FirstFailure([r], r.table, r.date, 18 * 60 + 30, guests) == [WindowTaken]
  {
    NearbyBookingSeparatesTheRules(r);
  }

  // ---------------------------------------------------------------- create_reservation view

  /** The raw POST fields after `.strip()`; a blank date or time is `None`. */
  datatype CreateRequest = CreateRequest(
    date: Option<Date>,
    time: Option<TimeOfDay>,
    guestCount: string,
    specialRequests: string)

  /** The error list the `create_reservation` view builds. */
  function CreateReservationErrors(table: Table, req: CreateRequest): (es: seq<BookingError>)
    ensures FieldsRequired in es <==> req.date.None? || req.time.None? || req.guestCount == ""
    ensures GuestCountNotNumber in es <==> ParseInt(req.guestCount).None?
    ensures GuestCountOutOfRange(table.capacity) in es <==>
      ParseInt(req.guestCount).Some? && (ParseInt(req.guestCount).value <= 0
                                         || ParseInt(req.guestCount).value > table.capacity)
    ensures |es| <= 2
  {
    var required := if req.date.None? || req.time.None? || req.guestCount == "" then [FieldsRequired] else [];
    match ParseInt(req.guestCount)
    case None => required + [GuestCountNotNumber]
    case Some(n) =>
      if n <= 0 || n > table.capacity then required + [GuestCountOutOfRange(table.capacity)] else required
  }

  /** `create_reservation`: saves a pending reservation exactly when the error list is
      empty. It never looks at the date, the opening hours or other reservations. */
  function CreateReservation(table: Table, customerId: int, req: CreateRequest, newId: int)
    : (out: Result<Reservation, seq<BookingError>>)
    ensures out.Ok? <==> req.date.Some? && req.time.Some? && ParseInt(req.guestCount).Some?
                         && 0 < ParseInt(req.guestCount).value <= table.capacity
    ensures out.Err? ==> out.error != [] && out.error == CreateReservationErrors(table, req)
    ensures out.Ok? ==> out.value.status == Pending && out.value.table == table
                        && out.value.customerId == customerId
                        && Some(out.value.date) == req.date && Some(out.value.time) == req.time
                        && Some(out.value.guestCount) == ParseInt(req.guestCount)
                        && out.value.specialRequests == req.specialRequests && out.value.id == newId
  {
    var es := CreateReservationErrors(table, req);
    if es == [] then
      Ok(NewReservation(newId, customerId, table, req.date.value, req.time.value,
                        ParseInt(req.guestCount).value, req.specialRequests))
    else Err(es)
  }

  /** A blank guest count is reported twice: as missing and as not a number. */
  lemma BlankGuestCountGivesTwoErrors(table: Table, req: CreateRequest)
    requires req.guestCount == ""
    ensures CreateReservationErrors(table, req) == [FieldsRequired, GuestCountNotNumber]
  {
  }

  /** The view accepts a booking every form would refuse: a past date, outside the
      opening hours, on a slot that is already taken. */
  lemma CreateReservationSkipsBookingRules(table: Table, customerId: int, date: Date, time: TimeOfDay,
                                           today: Date, existing: seq<Reservation>)
    requires table.capacity >= 2
    requires date < today && !WithinHours(table.restaurant, time)
    requires SlotTaken(existing, table.id, date, time)
    ensures CreateReservation(table, customerId, CreateRequest(Some(date), Some(time), "2", ""), 0).Ok?
  {
    assert ParseInt("2") == Some(2) by {
      assert AllDigits("2");
      assert DigitsValue("2") == DigitsValue("2"[..0]) * 10 + DigitValue('2');
    }
  }
}

=== FILE: conflict.dfy ===
/** Slot-conflict detection. The reservation forms use a fixed two-hour window and
    strict half-open overlap; the public booking form and the seeding command only
    compare the exact (table, date, time) slot. Both rules are modelled here. */
module Conflict {
  import opened Domain

  /** The window length of `timedelta(hours=2)`, in minutes. */
  const WindowMinutes := 120

  /** `datetime.combine(date, time)` as minutes since day zero. */
  function Moment(date: Date, time: TimeOfDay): int {
    date * MinutesPerDay + time
  }

  /** A half-open interval of moments `[start, end)`. */
  datatype Window = Window(start: int, end: int)

  /** `Reservation.get_time_range(duration_hours)`. */
  function TimeRange(r: Reservation, durationHours: int): (w: Window)
    ensures w.start == Moment(r.date, r.time)
    ensures w.end - w.start == durationHours * 60
  {
    var start := Moment(r.date, r.time);
    Window(start, start + durationHours * 60)
  }

  /** The window a booking at `date`/`time` occupies in the conflict check. */
  function BookingWindow(date: Date, time: TimeOfDay): Window {
    Window(Moment(date, time), Moment(date, time) + WindowMinutes)
  }

  /** `(StartA < EndB) and (EndA > StartB)`. */
  predicate Overlaps(a: Window, b: Window) {
    a.start < b.end && a.end > b.start
  }

  /** The reservation is one the window query returns and its window overlaps the new one. */
  predicate Blocks(r: Reservation, tableId: int, date: Date, time: TimeOfDay) {
    && r.table.id == tableId
    && r.date == date
    && IsActive(r.status)
    && Overlaps(BookingWindow(date, time), BookingWindow(r.date, r.time))
  }

  /** Window rule: some active reservation on the same table and date overlaps. */
  predicate WindowConflict(existing: seq<Reservation>, tableId: int, date: Date, time: TimeOfDay) {
    exists i :: 0 <= i < |existing| && Blocks(existing[i], tableId, date, time)
  }

  /** The reservation occupies exactly this slot and is active. */
  predicate TakesSlot(r: Reservation, tableId: int, date: Date, time: TimeOfDay) {
    r.table.id == tableId && r.date == date && r.time == time && IsActive(r.status)
  }

  /** Exact-slot rule: an active reservation has the identical table, date and time. */
  predicate SlotTaken(existing: seq<Reservation>, tableId: int, date: Date, time: TimeOfDay) {
    exists i :: 0 <= i < |existing| && TakesSlot(existing[i], tableId, date, time)
  }

  /** The queryset `filter(table=..., reservation_date=..., status__in=[pending, confirmed])`. */
  function ActiveOnTableAndDate(existing: seq<Reservation>, tableId: int, date: Date): (c: seq<Reservation>)
    ensures |c| <= |existing|
    ensures forall r :: r in c <==> r in existing && r.table.id == tableId && r.date == date && IsActive(r.status)
  {
    if |existing| == 0 then []
    else
      var rest := ActiveOnTableAndDate(existing[1..], tableId, date);
      var r := existing[0];
      assert forall x :: x in existing <==> x == r || x in existing[1..];
      if r.table.id == tableId && r.date == date && IsActive(r.status) then [r] + rest else rest
  }

  /** `ReservationForm._check_time_conflicts`: true when the table is free. The loop
      returns at the first overlapping candidate, as the source does. */
  method CheckTimeConflicts(existing: seq<Reservation>, table: Table, date: Date, time: TimeOfDay)
    returns (available: bool)
    ensures available <==> !WindowConflict(existing, table.id, date, time)
  {
    var candidates := ActiveOnTableAndDate(existing, table.id, date);
    var newWindow := BookingWindow(date, time);
    var i := 0;
    while i < |candidates|
      invariant 0 <= i <= |candidates|
      invariant forall k :: 0 <= k < i ==> !Overlaps(newWindow, BookingWindow(candidates[k].date, candidates[k].time))
    {
      var c := candidates[i];
      var existingWindow := BookingWindow(c.date, c.time);
      if newWindow.start < existingWindow.end && newWindow.end > existingWindow.start {
        assert c in existing && Blocks(c, table.id, date, time);
        return false;
      }
      i := i + 1;
    }
    forall k | 0 <= k < |existing| ensures !Blocks(existing[k], table.id, date, time) {
      var r := existing[k];
      if r.table.id == table.id && r.date == date && IsActive(r.status) {
        assert r in candidates;
      }
    }
    return true;
  }

  /** Whether no candidate of an already filtered list overlaps the new window. */
  function NoneOverlap(candidates: seq<Reservation>, date: Date, time: TimeOfDay): bool {
    if |candidates| == 0 then true
    else if Overlaps(BookingWindow(date, time), BookingWindow(candidates[0].date, candidates[0].time)) then false
    else NoneOverlap(candidates[1..], date, time)
  }

  /** `AvailabilityCheckForm._check_availability`, written as a recursion over the
      filtered candidates rather than a loop. */
  function CheckAvailability(existing: seq<Reservation>, table: Table, date: Date, time: TimeOfDay): (ok: bool)
    ensures ok <==> forall r :: r in existing && r.table.id == table.id && r.date == date && IsActive(r.status)
                      ==> !Overlaps(BookingWindow(date, time), BookingWindow(r.date, r.time))
  {
    var candidates := ActiveOnTableAndDate(existing, table.id, date);
    NoneOverlapMeans(candidates, date, time);
    NoneOverlap(candidates, date, time)
  }

  lemma {:induction false} NoneOverlapMeans(candidates: seq<Reservation>, date: Date, time: TimeOfDay)
    ensures NoneOverlap(candidates, date, time) <==>
      forall r :: r in candidates ==> !Overlaps(BookingWindow(date, time), BookingWindow(r.date, r.time))
  {
    if |candidates| > 0 {
      NoneOverlapMeans(candidates[1..], date, time);
      assert forall r :: r in candidates <==> r == candidates[0] || r in candidates[1..];
    }
  }

  /** The availability check computes exactly the conflict predicate of the booking form. */
  lemma AvailabilityMatchesConflictCheck(existing: seq<Reservation>, table: Table, date: Date, time: TimeOfDay)
    ensures CheckAvailability(existing, table, date, time) <==> !WindowConflict(existing, table.id, date, time)
  {
    var candidates := ActiveOnTableAndDate(existing, table.id, date);
    NoneOverlapMeans(candidates, date, time);
    if WindowConflict(existing, table.id, date, time) {
      var i :| 0 <= i < |existing| && Blocks(existing[i], table.id, date, time);
      assert existing[i] in candidates;
    }
  }

  /** On one date, two windows overlap exactly when the start times are less than
      two hours apart. */
  lemma SameDayOverlapIffCloserThanTwoHours(date: Date, t1: TimeOfDay, t2: TimeOfDay)
    ensures Overlaps(BookingWindow(date, t1), BookingWindow(date, t2)) <==> -WindowMinutes < t1 - t2 < WindowMinutes
  {
  }

  /** Touching windows do not conflict: a booking starting when another ends is free. */
  lemma BackToBackBookingsDoNotConflict(existing: seq<Reservation>, r: Reservation, time: TimeOfDay)
    requires time == r.time + WindowMinutes
    requires forall i :: 0 <= i < |existing| ==> existing[i] == r
    ensures !WindowConflict(existing, r.table.id, r.date, time)
  {
  }

  /** Only active reservations on the same table and date can block. */
  lemma OnlyActiveSameTableSameDateBlock(r: Reservation, tableId: int, date: Date, time: TimeOfDay)
    requires !IsActive(r.status) || r.table.id != tableId || r.date != date
    ensures !Blocks(r, tableId, date, time)
    ensures !TakesSlot(r, tableId, date, time)
  {
  }

  /** A reservation that does not block can be added to the list without changing the outcome. */
  lemma NonBlockingRowIsIgnored(existing: seq<Reservation>, r: Reservation, tableId: int, date: Date, time: TimeOfDay)
    requires !Blocks(r, tableId, date, time)
    ensures WindowConflict(existing + [r], tableId, date, time) <==> WindowConflict(existing, tableId, date, time)
  {
    var all := existing + [r];
    if WindowConflict(all, tableId, date, time) {
      var i :| 0 <= i < |all| && Blocks(all[i], tableId, date, time);
      assert i < |existing| && existing[i] == all[i];
    }
    if WindowConflict(existing, tableId, date, time) {
      var i :| 0 <= i < |existing| && Blocks(existing[i], tableId, date, time);
      assert all[i] == existing[i];
    }
  }

  /** The exact-slot rule is weaker than the window rule: whatever it rejects, the
      window rule rejects too. */
  lemma SlotTakenImpliesWindowConflict(existing: seq<Reservation>, tableId: int, date: Date, time: TimeOfDay)
    ensures SlotTaken(existing, tableId, date, time) ==> WindowConflict(existing, tableId, date, time)
  {
    if SlotTaken(existing, tableId, date, time) {
      var i :| 0 <= i < |existing| && TakesSlot(existing[i], tableId, date, time);
      assert Blocks(existing[i], tableId, date, time);
    }
  }

  /** ... but not conversely: a 19:00 booking blocks 18:30 under the window rule only. */
  lemma NearbyBookingSeparatesTheRules(r: Reservation)
    requires IsActive(r.status) && r.time == 19 * 60
    ensures WindowConflict([r], r.table.id, r.date, 18 * 60 + 30)
    ensures !SlotTaken([r], r.table.id, r.date, 18 * 60 + 30)
  {
    assert Blocks([r][0], r.table.id, r.date, 18 * 60 + 30);
  }

  /** An active reservation blocks its own slot: the check excludes no instance, so
      re-validating an existing booking unchanged reports a conflict with itself. */
  lemma ActiveReservationBlocksItself(r: Reservation)
    requires IsActive(r.status)
    ensures WindowConflict([r], r.table.id, r.date, r.time)
    ensures SlotTaken([r], r.table.id, r.date, r.time)
  {
    assert Blocks([r][0], r.table.id, r.date, r.time);
    assert TakesSlot([r][0], r.table.id, r.date, r.time);
  }

  /** The window the detector uses is `get_time_range` with its default duration. */
  lemma BookingWindowIsDefaultTimeRange(r: Reservation)
    ensures BookingWindow(r.date, r.time) == TimeRange(r, 2)
  {
  }

  /** A window is not clipped at midnight: a booking after 22:00 ends on the next day. */
  lemma WindowMayEndPastMidnight(r: Reservation)
    requires r.time > 22 * 60
    ensures TimeRange(r, 2).end > Moment(r.date + 1, 0)
    ensures TimeRange(r, 2).start < Moment(r.date + 1, 0)
  {
  }

  /** Windows are compared only within one date: a booking late in the evening and one
      just after midnight overlap in time, yet the next day's booking is not blocked. */
  lemma CrossMidnightOverlapIsNotDetected(r: Reservation)
    requires IsActive(r.status) && r.time == 23 * 60
    ensures Overlaps(BookingWindow(r.date + 1, 30), BookingWindow(r.date, r.time))
    ensures !WindowConflict([r], r.table.id, r.date + 1, 30)
  {
  }

  /** No two active reservations on one table and date have overlapping windows. */
  predicate NoOverlappingBookings(rs: seq<Reservation>) {
    forall i, j :: 0 <= i < j < |rs| && IsActive(rs[i].status) && IsActive(rs[j].status)
      && rs[i].table.id == rs[j].table.id && rs[i].date == rs[j].date
      ==> !Overlaps(BookingWindow(rs[i].date, rs[i].time), BookingWindow(rs[j].date, rs[j].time))
  }

  /** No two active reservations hold the identical slot. */
  predicate NoSharedSlots(rs: seq<Reservation>) {
    forall i, j :: 0 <= i < j < |rs| && IsActive(rs[i].status) && IsActive(rs[j].status)
      ==> !(rs[i].table.id == rs[j].table.id && rs[i].date == rs[j].date && rs[i].time == rs[j].time)
  }

  /** Inserting only bookings the window rule accepts keeps the table free of overlaps. */
  lemma WindowCheckPreservesNoOverlap(rs: seq<Reservation>, r: Reservation)
    requires NoOverlappingBookings(rs)
    requires !WindowConflict(rs, r.table.id, r.date, r.time)
    ensures NoOverlappingBookings(rs + [r])
  {
    var all := rs + [r];
    forall i, j | 0 <= i < j < |all| && IsActive(all[i].status) && IsActive(all[j].status)
      && all[i].table.id == all[j].table.id && all[i].date == all[j].date
      ensures !Overlaps(BookingWindow(all[i].date, all[i].time), BookingWindow(all[j].date, all[j].time))
    {
      if j == |rs| {
        assert all[i] == rs[i];
        assert !Blocks(rs[i], r.table.id, r.date, r.time);
      }
    }
  }

  /** Inserting only bookings the exact-slot rule accepts keeps slots unshared. */
  lemma SlotCheckPreservesNoSharedSlots(rs: seq<Reservation>, r: Reservation)
    requires NoSharedSlots(rs)
    requires IsActive(r.status) ==> !SlotTaken(rs, r.table.id, r.date, r.time)
    ensures NoSharedSlots(rs + [r])
  {
    var all := rs + [r];
    forall i, j | 0 <= i < j < |all| && IsActive(all[i].status) && IsActive(all[j].status)
      ensures !(all[i].table.id == all[j].table.id && all[i].date == all[j].date && all[i].time == all[j].time)
    {
      if j == |rs| {
        assert all[i] == rs[i];
        assert !TakesSlot(rs[i], r.table.id, r.date, r.time);
      }
    }
  }

  /** The exact-slot rule does not keep windows apart: it admits 18:30 next to 19:00. */
  lemma SlotCheckAdmitsOverlap(r: Reservation, s: Reservation)
    requires IsActive(r.status) && IsActive(s.status)
    requires s.table.id == r.table.id && s.date == r.date
    requires r.time == 19 * 60 && s.time == 18 * 60 + 30
    ensures NoOverlappingBookings([r]) && !SlotTaken([r], s.table.id, s.date, s.time)
    ensures !NoOverlappingBookings([r] + [s])
  {
    var all := [r] + [s];
    assert all[0] == r && all[1] == s;
  }
}

=== FILE: dashboard.dfy ===
/** The three dashboards: filter / order / take over the reservation table, the owner's
    counts, and the admin-profile gate. A query set becomes a sequence; `order_by` is a
    sort by an integer key and `[:n]` a prefix. */
module Dashboard {
  import opened Results
  import opened Domain
  import opened Conflict
  import opened Accounts

  const UpcomingLimit: nat := 5
  const PastLimit: nat := 5
  const RecentLimit: nat := 10

  /** The rows of `s` that satisfy `p`, in their original order. */
  function Filter<T(==,!new)>(s: seq<T>, p: T -> bool): (r: seq<T>)
    ensures forall x :: x in r <==> x in s && p(x)
    ensures forall x :: multiset(r)[x] == if p(x) then multiset(s)[x] else 0
    ensures multiset(r) <= multiset(s)
    ensures |r| <= |s|
  {
    if |s| == 0 then []
    else
      var rest := Filter(s[1..], p);
      assert s == [s[0]] + s[1..];
      assert forall x :: x in s <==> x == s[0] || x in s[1..];
      if p(s[0]) then [s[0]] + rest else rest
  }

  /** `.count()` of a filtered query set. */
  function Count<T(==,!new)>(s: seq<T>, p: T -> bool): nat {
    |Filter(s, p)|
  }

  /** One more row adds one to a count exactly when it matches the filter. */
  lemma {:induction false} CountAppend<T(!new)>(s: seq<T>, x: T, p: T -> bool)
    ensures Count(s + [x], p) == Count(s, p) + (if p(x) then 1 else 0)
  {
    if |s| > 0 {
      assert (s + [x])[1..] == s[1..] + [x];
      CountAppend(s[1..], x, p);
    } else {
      assert s + [x] == [x];
    }
  }

  /** A stronger filter never keeps more rows, so a count under extra conditions is at
      most the count without them. */
  lemma {:induction false} StrongerFilterCountsFewer<T(!new)>(s: seq<T>, p: T -> bool, q: T -> bool)
    requires forall x :: p(x) ==> q(x)
    ensures Count(s, p) <= Count(s, q)
  {
    if |s| > 0 {
      StrongerFilterCountsFewer(s[1..], p, q);
    }
  }

  /** The three `order_by` clauses the dashboards use. */
  datatype Ordering =
    | DateTimeAscending    // 'reservation_date', 'reservation_time'
    | DateDescending       // '-reservation_date'
    | DateTimeDescending   // '-reservation_date', '-reservation_time'

  /** The sort key: smaller keys come first. */
  function Key(o: Ordering, r: Reservation): int {
    match o
    case DateTimeAscending => Moment(r.date, r.time)
    case DateDescending => -r.date
    case DateTimeDescending => -Moment(r.date, r.time)
  }

  predicate SortedBy(o: Ordering, s: seq<Reservation>) {
    forall i, j :: 0 <= i < j < |s| ==> Key(o, s[i]) <= Key(o, s[j])
  }

  /** Ordering by date and then by time, as two columns. */
  predicate DateTimeLe(a: Reservation, b: Reservation) {
    a.date < b.date || (a.date == b.date && a.time <= b.time)
  }

  /** Because a time of day stays below one day's minutes, comparing single moments is
      the same as comparing (date, time) column by column. */
  lemma {:induction false} MomentOrderIsLexicographic(a: Reservation, b: Reservation)
    ensures Moment(a.date, a.time) <= Moment(b.date, b.time) <==> DateTimeLe(a, b)
  {
    if a.date < b.date {
      assert (a.date + 1) * MinutesPerDay <= b.date * MinutesPerDay;
    } else if b.date < a.date {
      assert (b.date + 1) * MinutesPerDay <= a.date * MinutesPerDay;
    }
  }

  /** A row that sorts no later than the head of a sorted sequence can go in front. */
  lemma {:induction false} ConsSorted(o: Ordering, a: Reservation, t: seq<Reservation>)
    requires SortedBy(o, t)
    requires |t| > 0 ==> Key(o, a) <= Key(o, t[0])
    ensures SortedBy(o, [a] + t)
  {
    var all := [a] + t;
    forall i, j | 0 <= i < j < |all| ensures Key(o, all[i]) <= Key(o, all[j]) {
      if i == 0 {
        assert all[j] == t[j - 1];
        if j > 1 {
          assert Key(o, t[0]) <= Key(o, t[j - 1]);
        }
      } else {
        assert all[i] == t[i - 1] && all[j] == t[j - 1];
      }
    }
  }

  /** Inserts one row into a sorted sequence, after every row with a smaller key. */
  function Insert(o: Ordering, x: Reservation, s: seq<Reservation>): (r: seq<Reservation>)
    requires SortedBy(o, s)
    ensures |r| == |s| + 1 && SortedBy(o, r)
    ensures multiset(r) == multiset(s) + multiset{x}
    ensures r[0] == x || (|s| > 0 && r[0] == s[0])
  {
    if |s| == 0 then [x]
    else if Key(o, x) <= Key(o, s[0]) then
      ConsSorted(o, x, s);
      [x] + s
    else
      var rest := Insert(o, x, s[1..]);
      assert s == [s[0]] + s[1..];
      assert |s| > 1 ==> Key(o, s[0]) <= Key(o, s[1]);
      ConsSorted(o, s[0], rest);
      [s[0]] + rest
  }

  /** `order_by`: a permutation of the rows, sorted by the key. */
  function SortBy(o: Ordering, s: seq<Reservation>): (r: seq<Reservation>)
    ensures |r| == |s| && SortedBy(o, r)
    ensures multiset(r) == multiset(s)
  {
    if |s| == 0 then []
    else
      assert s == [s[0]] + s[1..];
      Insert(o, s[0], SortBy(o, s[1..]))
  }

  /** Everything past the first `k` rows of a sorted sequence sorts no earlier than the
      rows kept. */
  lemma {:induction false} PrefixOfSortedIsLeast(o: Ordering, sorted: seq<Reservation>, k: nat)
    requires SortedBy(o, sorted) && k <= |sorted|
    ensures forall y, i :: y in sorted && y !in sorted[..k] && 0 <= i < k ==> Key(o, sorted[i]) <= Key(o, y)
  {
    forall y, i | y in sorted && y !in sorted[..k] && 0 <= i < k
      ensures Key(o, sorted[i]) <= Key(o, y)
    {
      var j :| 0 <= j < |sorted| && sorted[j] == y;
      assert forall m :: 0 <= m < k ==> sorted[..k][m] == sorted[m];
    }
  }

  /** Two orderings of the same rows have the same members. */
  lemma SameRowsSameMembers<T>(a: seq<T>, b: seq<T>)
    requires multiset(a) == multiset(b)
    ensures forall y :: y in a <==> y in b
  {
    forall y ensures y in a <==> y in b {
      assert y in a <==> y in multiset(a);
      assert y in b <==> y in multiset(b);
    }
  }

  /** A prefix holds no row more often than the whole sequence. */
  lemma PrefixIsSubMultiset<T>(s: seq<T>, k: nat)
    requires k <= |s|
    ensures multiset(s[..k]) <= multiset(s)
  {
    assert s == s[..k] + s[k..];
  }

  /** `.order_by(...)[:n]`: the first `n` rows in key order. A row is left out only
      when the result is full of rows that sort no later. */
  function Top(o: Ordering, s: seq<Reservation>, n: nat): (r: seq<Reservation>)
    ensures |r| == if |s| <= n then |s| else n
    ensures SortedBy(o, r)
    ensures multiset(r) <= multiset(s)
    ensures forall x :: x in r ==> x in s
    ensures forall y :: y in s && y !in r ==> |r| == n
    ensures forall y, i :: y in s && y !in r && 0 <= i < |r| ==> Key(o, r[i]) <= Key(o, y)
  {
    var sorted := SortBy(o, s);
    var k := if |s| <= n then |s| else n;
    PrefixOfSortedIsLeast(o, sorted, k);
    SameRowsSameMembers(s, sorted);
    PrefixIsSubMultiset(sorted, k);
    assert k == |s| ==> sorted[..k] == sorted;
    sorted[..k]
  }

  /** A row that `customer_dashboard` lists as upcoming for this user. */
  predicate Upcoming(r: Reservation, userId: int, today: Date) {
    r.customerId == userId && r.date >= today && IsActive(r.status)
  }

  /** A row that `customer_dashboard` lists as past for this user, whatever its status. */
  predicate Past(r: Reservation, userId: int, today: Date) {
    r.customerId == userId && r.date < today
  }

  /** Rows sorted by ascending moment are in (date, time) order, and a row that sorts
      no earlier than all of them comes no earlier by date and time. */
  lemma {:induction false} AscendingIsDateTimeOrder(s: seq<Reservation>, pool: seq<Reservation>)
    requires SortedBy(DateTimeAscending, s)
    requires forall y, i :: y in pool && y !in s && 0 <= i < |s| ==> Key(DateTimeAscending, s[i]) <= Key(DateTimeAscending, y)
    ensures forall i, j :: 0 <= i < j < |s| ==> DateTimeLe(s[i], s[j])
    ensures forall y, i :: y in pool && y !in s && 0 <= i < |s| ==> DateTimeLe(s[i], y)
  {
    forall i, j | 0 <= i < j < |s| ensures DateTimeLe(s[i], s[j]) {
      MomentOrderIsLexicographic(s[i], s[j]);
    }
    forall y, i | y in pool && y !in s && 0 <= i < |s| ensures DateTimeLe(s[i], y) {
      MomentOrderIsLexicographic(s[i], y);
    }
  }

  /** The mirror image for descending moments. */
  lemma {:induction false} DescendingIsReverseDateTimeOrder(s: seq<Reservation>, pool: seq<Reservation>)
    requires SortedBy(DateTimeDescending, s)
    requires forall y, i :: y in pool && y !in s && 0 <= i < |s| ==> Key(DateTimeDescending, s[i]) <= Key(DateTimeDescending, y)
    ensures forall i, j :: 0 <= i < j < |s| ==> DateTimeLe(s[j], s[i])
    ensures forall y, i :: y in pool && y !in s && 0 <= i < |s| ==> DateTimeLe(y, s[i])
  {
    forall i, j | 0 <= i < j < |s| ensures DateTimeLe(s[j], s[i]) {
      MomentOrderIsLexicographic(s[j], s[i]);
    }
    forall y, i | y in pool && y !in s && 0 <= i < |s| ensures DateTimeLe(y, s[i]) {
      MomentOrderIsLexicographic(y, s[i]);
    }
  }

  /** The upcoming list of `customer_dashboard`: the user's five soonest active
      reservations from today on. */
  function UpcomingList(rs: seq<Reservation>, userId: int, today: Date): (up: seq<Reservation>)
    ensures |up| <= UpcomingLimit
    ensures multiset(up) <= multiset(rs)
    ensures forall x :: x in up ==> x in rs && Upcoming(x, userId, today)
    ensures forall i, j :: 0 <= i < j < |up| ==> DateTimeLe(up[i], up[j])
    ensures forall y :: y in rs && Upcoming(y, userId, today) && y !in up ==>
              |up| == UpcomingLimit && forall i :: 0 <= i < |up| ==> DateTimeLe(up[i], y)
  {
    var candidates := Filter(rs, x => Upcoming(x, userId, today));
    var up := Top(DateTimeAscending, candidates, UpcomingLimit);
    AscendingIsDateTimeOrder(up, candidates);
    up
  }

  /** Rows sorted by descending date come latest date first, and a row that sorts no
      earlier than all of them is dated no later. */
  lemma LatestDateFirst(s: seq<Reservation>, pool: seq<Reservation>)
    requires SortedBy(DateDescending, s)
    requires forall y, i :: y in pool && y !in s && 0 <= i < |s| ==> Key(DateDescending, s[i]) <= Key(DateDescending, y)
    ensures forall i, j :: 0 <= i < j < |s| ==> s[i].date >= s[j].date
    ensures forall y, i :: y in pool && y !in s && 0 <= i < |s| ==> s[i].date >= y.date
  {
  }

  /** The past list of `customer_dashboard`: the user's five latest-dated reservations
      before today, whatever their status. */
  function PastList(rs: seq<Reservation>, userId: int, today: Date): (past: seq<Reservation>)
    ensures |past| <= PastLimit
    ensures multiset(past) <= multiset(rs)
    ensures forall x :: x in past ==> x in rs && Past(x, userId, today)
    ensures forall i, j :: 0 <= i < j < |past| ==> past[i].date >= past[j].date
    ensures forall y :: y in rs && Past(y, userId, today) && y !in past ==>
              |past| == PastLimit && forall i :: 0 <= i < |past| ==> past[i].date >= y.date
  {
    var candidates := Filter(rs, x => Past(x, userId, today));
    var past := Top(DateDescending, candidates, PastLimit);
    LatestDateFirst(past, candidates);
    assert multiset(past) <= multiset(candidates) <= multiset(rs);
    past
  }

  datatype CustomerView = CustomerView(upcoming: seq<Reservation>, past: seq<Reservation>)

  /** `customer_dashboard`: at most five of the user's active bookings from today on and
      at most five of the user's earlier bookings, each row listed at most as often as
      it occurs, and no row on both lists. */
  function CustomerDashboard(rs: seq<Reservation>, userId: int, today: Date): (v: CustomerView)
    ensures |v.upcoming| <= UpcomingLimit && |v.past| <= PastLimit
    ensures multiset(v.upcoming) <= multiset(rs) && multiset(v.past) <= multiset(rs)
    ensures forall x :: x in v.upcoming ==> Upcoming(x, userId, today) && x !in v.past
    ensures forall x :: x in v.past ==> Past(x, userId, today)
    ensures forall i, j :: 0 <= i < j < |v.upcoming| ==> DateTimeLe(v.upcoming[i], v.upcoming[j])
    ensures forall y :: y in rs && Upcoming(y, userId, today) && y !in v.upcoming ==>
              |v.upcoming| == UpcomingLimit && forall i :: 0 <= i < |v.upcoming| ==> DateTimeLe(v.upcoming[i], y)
    ensures forall i, j :: 0 <= i < j < |v.past| ==> v.past[i].date >= v.past[j].date
    ensures forall y :: y in rs && Past(y, userId, today) && y !in v.past ==>
              |v.past| == PastLimit && forall i :: 0 <= i < |v.past| ==> v.past[i].date >= y.date
  {
    CustomerView(UpcomingList(rs, userId, today), PastList(rs, userId, today))
  }

  /** A cancelled or completed booking for today or later is on neither list. */
  lemma InactiveFutureBookingIsHidden(rs: seq<Reservation>, userId: int, today: Date, r: Reservation)
    requires r.date >= today && !IsActive(r.status)
    ensures var v := CustomerDashboard(rs, userId, today);
            r !in v.upcoming && r !in v.past
  {
  }

  /** A reservation on a table of a restaurant the user owns (by owner id). */
  predicate ForOwner(r: Reservation, userId: int) {
    r.table.restaurant.ownerId == userId
  }

  /** The recent list of `owner_dashboard`: the ten latest reservations, by date and then
      time, over all of the user's restaurants. */
  function RecentList(rs: seq<Reservation>, userId: int): (recent: seq<Reservation>)
    ensures |recent| <= RecentLimit
    ensures multiset(recent) <= multiset(rs)
    ensures forall x :: x in recent ==> x in rs && ForOwner(x, userId)
    ensures forall i, j :: 0 <= i < j < |recent| ==> DateTimeLe(recent[j], recent[i])
    ensures forall y :: y in rs && ForOwner(y, userId) && y !in recent ==>
              |recent| == RecentLimit && forall i :: 0 <= i < |recent| ==> DateTimeLe(y, recent[i])
  {
    var mine := Filter(rs, x => ForOwner(x, userId));
    var recent := Top(DateTimeDescending, mine, RecentLimit);
    DescendingIsReverseDateTimeOrder(recent, mine);
    recent
  }

  /** The owner's figures on `owner_dashboard`. */
  datatype OwnerStats = OwnerStats(
    recent: seq<Reservation>,
    restaurants: nat,
    tables: nat,
    reservations: nat,
    pending: nat)

  /** `owner_dashboard`: counts over the user's restaurants, their tables and their
      reservations, and the recent list. It does not ask for an owner profile; every
      filter is by owner id. */
  function OwnerDashboard(restaurants: seq<Restaurant>, tables: seq<Table>, rs: seq<Reservation>,
                          userId: int): (st: OwnerStats)
    ensures st.recent == RecentList(rs, userId)
    ensures st.restaurants == Count(restaurants, (x: Restaurant) => x.ownerId == userId)
    ensures st.tables == Count(tables, (t: Table) => t.restaurant.ownerId == userId)
    ensures st.reservations == Count(rs, x => ForOwner(x, userId))
    ensures st.pending == Count(rs, x => ForOwner(x, userId) && x.status == Pending)
    ensures st.pending <= st.reservations <= |rs|
    ensures st.restaurants <= |restaurants| && st.tables <= |tables|
    ensures st.reservations == 0 <==> forall x :: x in rs ==> !ForOwner(x, userId)
    ensures st.pending == 0 <==> forall x :: x in rs && ForOwner(x, userId) ==> x.status != Pending
  {
    var mine := Filter(rs, x => ForOwner(x, userId));
    var pending := Filter(rs, x => ForOwner(x, userId) && x.status == Pending);
    StrongerFilterCountsFewer(rs, x => ForOwner(x, userId) && x.status == Pending, x => ForOwner(x, userId));
    assert |mine| == 0 <==> forall x :: x in rs ==> !ForOwner(x, userId) by {
      if |mine| != 0 { assert mine[0] in mine; }
    }
    assert |pending| == 0 <==> forall x :: x in rs && ForOwner(x, userId) ==> x.status != Pending by {
      if |pending| != 0 { assert pending[0] in pending; }
    }
    OwnerStats(
      RecentList(rs, userId),
      Count(restaurants, (x: Restaurant) => x.ownerId == userId),
      Count(tables, (t: Table) => t.restaurant.ownerId == userId),
      |mine|,
      |pending|)
  }

  /** A new reservation on one of the owner's tables raises the owner's reservation
      count by one, and the pending count by one when it is pending; a reservation at
      someone else's restaurant changes neither. */
  lemma OwnerCountsFollowNewReservation(restaurants: seq<Restaurant>, tables: seq<Table>,
                                        rs: seq<Reservation>, x: Reservation, userId: int)
    ensures var before := OwnerDashboard(restaurants, tables, rs, userId);
            var after := OwnerDashboard(restaurants, tables, rs + [x], userId);
            && after.reservations == before.reservations + (if ForOwner(x, userId) then 1 else 0)
            && after.pending == before.pending + (if ForOwner(x, userId) && x.status == Pending then 1 else 0)
  {
    CountAppend(rs, x, y => ForOwner(y, userId));
    CountAppend(rs, x, y => ForOwner(y, userId) && y.status == Pending);
  }

  /** The system-wide figures on `admin_dashboard`. */
  datatype AdminStats = AdminStats(users: nat, restaurants: nat, tables: nat, reservations: nat, pending: nat)

  /** `admin_dashboard`: forbidden unless the user has an admin profile; the counts are
      over every row, and the pending count never exceeds the total. */
  function AdminDashboard(u: User, users: seq<User>, restaurants: seq<Restaurant>, tables: seq<Table>,
                          rs: seq<Reservation>): (out: Option<AdminStats>)
    ensures out.Some? <==> u.hasAdminProfile
    ensures out.Some? ==> out.value.users == |users| && out.value.restaurants == |restaurants|
                          && out.value.tables == |tables| && out.value.reservations == |rs|
    ensures out.Some? ==> out.value.pending == Count(rs, (x: Reservation) => x.status == Pending)
    ensures out.Some? ==> out.value.pending <= out.value.reservations
    ensures out.Some? ==> (out.value.pending == 0 <==> forall x :: x in rs ==> x.status != Pending)
  {
    if !u.hasAdminProfile then None
    else
      var pending := Filter(rs, (x: Reservation) => x.status == Pending);
      assert |pending| == 0 <==> forall x :: x in rs ==> x.status != Pending by {
        if |pending| != 0 { assert pending[0] in pending; }
      }
      Some(AdminStats(|users|, |restaurants|, |tables|, |rs|, |pending|))
  }

  /** Every new reservation raises the admin's reservation count by one, and the pending
      count by one exactly when it is pending. */
  lemma AdminCountsFollowNewReservation(u: User, users: seq<User>, restaurants: seq<Restaurant>,
                                        tables: seq<Table>, rs: seq<Reservation>, x: Reservation)
    requires u.hasAdminProfile
    ensures var before := AdminDashboard(u, users, restaurants, tables, rs).value;
            var after := AdminDashboard(u, users, restaurants, tables, rs + [x]).value;
            && after.reservations == before.reservations + 1
            && after.pending == before.pending + (if x.status == Pending then 1 else 0)
  {
    CountAppend(rs, x, (y: Reservation) => y.status == Pending);
  }

  /** The other admin pages (users, restaurants, orders, analytics, subscriptions) share
      the dashboard's gate and show nothing else that is decided here. */
  function AdminPage(u: User): (out: ViewResult<(), ()>)
    ensures out.Forbidden? <==> !u.hasAdminProfile
    ensures !out.Forbidden? ==> out == Rendered([])
  {
    if u.hasAdminProfile then Rendered([]) else Forbidden
  }

  /** Only accounts created through the admin signup reach the admin pages. */
  lemma OnlyAdminSignupsReachAdminPages(role: Role, form: SignupForm, users: seq<User>, newId: int)
    requires Signup(role, Post, form, users, newId).Saved?
    ensures var u := Signup(role, Post, form, users, newId).value[|users|];
            !AdminPage(u).Forbidden? <==> role == AdminRole
  {
  }
}

=== FILE: domain.dfy ===
/** The persistent entities of the reservation system: restaurants, tables,
    reservations and users, with the enumerations and defaults of their models. */
module Domain {
  import opened Results

  const MinutesPerDay := 1440

  /** A calendar date, as a day number. */
  type Date = int

  /** A time of day, in minutes since midnight (a Python `datetime.time`). */
  type TimeOfDay = t: int | 0 <= t < 1440

  /** Reservation.status; `Pending` is the model default. */
  datatype Status = Pending | Confirmed | Cancelled | Completed | NoShow

  /** Reservation.deposit_status; `DepositPending` is the model default. */
  datatype DepositStatus = DepositPending | Paid | Refunded | PartiallyRefunded

  datatype Restaurant = Restaurant(
    id: int,
    ownerId: int,
    name: string,
    description: string,
    cuisineType: string,
    phone: string,
    email: string,
    website: string,
    address: string,
    city: string,
    postalCode: string,
    openingTime: TimeOfDay,
    closingTime: TimeOfDay,
    isActive: bool)

  /** A table, carrying the restaurant its foreign key points at. */
  datatype Table = Table(
    id: int,
    restaurant: Restaurant,
    tableNumber: string,
    capacity: int,
    description: string,
    isActive: bool)

  /** A reservation, carrying its table; the deposit amount is in cents. */
  datatype Reservation = Reservation(
    id: int,
    customerId: int,
    table: Table,
    date: Date,
    time: TimeOfDay,
    guestCount: int,
    specialRequests: string,
    status: Status,
    depositAmount: Option<int>,
    depositStatus: DepositStatus,
    arrivalConfirmed: bool)

  /** A user together with which of the three one-to-one profiles exist for it. */
  datatype User = User(
    id: int,
    username: string,
    email: string,
    hasAdminProfile: bool,
    hasOwnerProfile: bool,
    hasCustomerProfile: bool)

  /** Only pending and confirmed reservations occupy a table. */
  predicate IsActive(s: Status) {
    s == Pending || s == Confirmed
  }

  /** A reservation row as the ORM creates it when only the booking fields are given:
      every other column takes its model default. */
  function NewReservation(id: int, customerId: int, table: Table, date: Date, time: TimeOfDay,
                          guestCount: int, specialRequests: string): (r: Reservation)
    ensures r.status == Pending && IsActive(r.status)
    ensures r.depositStatus == DepositPending && r.depositAmount == None && !r.arrivalConfirmed
    ensures r.table == table && r.date == date && r.time == time && r.guestCount == guestCount
    ensures r.customerId == customerId && r.id == id && r.specialRequests == specialRequests
  {
    Reservation(id, customerId, table, date, time, guestCount, specialRequests,
                Pending, None, DepositPending, false)
  }

  /** A table row created without an explicit `is_active`. */
  function NewTable(id: int, restaurant: Restaurant, tableNumber: string, capacity: int,
                    description: string): (t: Table)
    ensures t.isActive
    ensures t.restaurant == restaurant && t.tableNumber == tableNumber && t.capacity == capacity
    ensures t.id == id && t.description == description
  {
    Table(id, restaurant, tableNumber, capacity, description, true)
  }

  /** `Restaurant.is_owned_by`: the user is the owner AND has an owner profile. */
  predicate IsOwnedBy(r: Restaurant, u: User) {
    r.ownerId == u.id && u.hasOwnerProfile
  }

  /** The `unique_together = (restaurant, table_number)` constraint on tables. */
  predicate UniqueTableNumbers(tables: seq<Table>) {
    forall i, j :: 0 <= i < j < |tables| && tables[i].restaurant.id == tables[j].restaurant.id
      ==> tables[i].tableNumber != tables[j].tableNumber
  }

  /** Whether the restaurant already has a table with this number. */
  predicate HasTableNumber(tables: seq<Table>, restaurantId: int, number: string) {
    exists i :: 0 <= i < |tables| && tables[i].restaurant.id == restaurantId
      && tables[i].tableNumber == number
  }

  /** Adding a table whose number is new to its restaurant keeps the constraint. */
  lemma AppendKeepsUniqueTableNumbers(tables: seq<Table>, t: Table)
    ensures !HasTableNumber(tables, t.restaurant.id, t.tableNumber) && UniqueTableNumbers(tables)
            ==> UniqueTableNumbers(tables + [t])
  {
    var all := tables + [t];
    forall i, j | !HasTableNumber(tables, t.restaurant.id, t.tableNumber) && UniqueTableNumbers(tables) && 0 <= i < j < |all| && all[i].restaurant.id == all[j].restaurant.id
      ensures all[i].tableNumber != all[j].tableNumber
    {
      if j == |tables| {
        assert all[i] == tables[i];
      }
    }
  }

  /** `is_owned_by` is stricter than a bare owner-id comparison: an owner id match
      without the owner profile does not make the user the owner. */
  lemma OwnedByNeedsProfile(r: Restaurant, u: User)
    ensures IsOwnedBy(r, u) ==> r.ownerId == u.id
    ensures !u.hasOwnerProfile ==> !IsOwnedBy(r, u)
  {
  }
}

=== FILE: lifecycle.dfy ===
/** Status changes and access rules of the reservation views. The source puts no
    condition on the current status: a permitted POST overwrites it. */
module Lifecycle {
  import opened Results
  import opened Domain
  import opened Conflict

  /** The owner of the reservation's restaurant, reached through its table. */
  function OwnerOf(r: Reservation): int {
    r.table.restaurant.ownerId
  }

  /** The requester is the booking's customer or the owner of its restaurant. */
  predicate CustomerOrOwner(r: Reservation, userId: int) {
    r.customerId == userId || OwnerOf(r) == userId
  }

  /** Everything but the status is the same. */
  predicate SameBooking(a: Reservation, b: Reservation) {
    a.(status := Pending) == b.(status := Pending)
  }

  datatype LifecycleError = NotPermitted

  /** `cancel_reservation`: the customer or the owner may cancel; a POST sets the
      status to cancelled whatever it was, a GET only shows the confirmation page. */
  function CancelReservation(r: Reservation, userId: int, verb: Verb): (out: ViewResult<Reservation, LifecycleError>)
    ensures out.Forbidden? <==> !CustomerOrOwner(r, userId)
    ensures out.Saved? <==> CustomerOrOwner(r, userId) && verb == Post
    ensures out.Saved? ==> out.value.status == Cancelled && SameBooking(out.value, r)
    ensures out.Rendered? ==> out.errors == []
  {
    if !CustomerOrOwner(r, userId) then Forbidden
    else if verb == Post then Saved(r.(status := Cancelled))
    else Rendered([])
  }

  /** `confirm_reservation`: only the owner may confirm; a POST sets the status to
      confirmed whatever it was. The customer alone cannot confirm. */
  function ConfirmReservation(r: Reservation, userId: int, verb: Verb): (out: ViewResult<Reservation, LifecycleError>)
    ensures out.Forbidden? <==> OwnerOf(r) != userId
    ensures out.Saved? <==> OwnerOf(r) == userId && verb == Post
    ensures out.Saved? ==> out.value.status == Confirmed && SameBooking(out.value, r)
    ensures out.Rendered? ==> out.errors == []
  {
    if OwnerOf(r) != userId then Forbidden
    else if verb == Post then Saved(r.(status := Confirmed))
    else Rendered([])
  }

  /** `reservation_detail`: visible to the customer and to the owner only. */
  function ReservationDetail(r: Reservation, userId: int): (out: ViewResult<Reservation, LifecycleError>)
    ensures out.Forbidden? <==> !CustomerOrOwner(r, userId)
    ensures !out.Forbidden? ==> out == Rendered([])
  {
    if CustomerOrOwner(r, userId) then Rendered([]) else Forbidden
  }

  /** A customer who does not own the restaurant may cancel but not confirm. */
  lemma CustomerCannotConfirm(r: Reservation, verb: Verb)
    requires OwnerOf(r) != r.customerId
    ensures !CancelReservation(r, r.customerId, verb).Forbidden?
    ensures ConfirmReservation(r, r.customerId, verb).Forbidden?
  {
  }

  /** There are no terminal states: a cancelled (or completed, or no-show) booking can
      be confirmed again by the owner, and a confirmed one cancelled again. */
  lemma NoTerminalStates(r: Reservation)
    requires r.status in {Cancelled, Completed, NoShow}
    ensures ConfirmReservation(r, OwnerOf(r), Post) == Saved(r.(status := Confirmed))
    ensures CancelReservation(r, OwnerOf(r), Post) == Saved(r.(status := Cancelled))
  {
  }

  /** Cancelling twice is cancelling once. */
  lemma CancelIsIdempotent(r: Reservation, userId: int)
    requires CustomerOrOwner(r, userId)
    ensures var once := CancelReservation(r, userId, Post).value;
            CancelReservation(once, userId, Post) == Saved(once)
  {
  }

  /** The list of reservations with the one at `i` replaced by `r2`. */
  function ReplaceAt(rs: seq<Reservation>, i: nat, r2: Reservation): (out: seq<Reservation>)
    requires i < |rs|
    ensures |out| == |rs| && out[i] == r2
    ensures forall k :: 0 <= k < |rs| && k != i ==> out[k] == rs[k]
  {
    rs[i := r2]
  }

  /** A cancellation never creates a conflict: whatever was free before stays free. */
  lemma CancelNeverAddsConflicts(rs: seq<Reservation>, i: nat, userId: int,
                                 tableId: int, date: Date, time: TimeOfDay)
    requires i < |rs| && CustomerOrOwner(rs[i], userId)
    requires !WindowConflict(rs, tableId, date, time)
    ensures !WindowConflict(ReplaceAt(rs, i, CancelReservation(rs[i], userId, Post).value), tableId, date, time)
  {
    var after := ReplaceAt(rs, i, CancelReservation(rs[i], userId, Post).value);
    forall k | 0 <= k < |after| ensures !Blocks(after[k], tableId, date, time) {
      if k != i {
        assert after[k] == rs[k];
      }
    }
  }

  /** The cancelled booking's own slot is free again once nothing else holds it. */
  lemma CancelFreesTheSlot(r: Reservation, userId: int)
    requires CustomerOrOwner(r, userId)
    ensures var c := CancelReservation(r, userId, Post).value;
            !WindowConflict([c], r.table.id, r.date, r.time) && !SlotTaken([c], r.table.id, r.date, r.time)
  {
  }

  /** Confirming a pending booking leaves every conflict answer unchanged, because
      pending and confirmed bookings both occupy their window. */
  lemma ConfirmPendingKeepsConflicts(rs: seq<Reservation>, i: nat, tableId: int, date: Date, time: TimeOfDay)
    requires i < |rs| && rs[i].status == Pending
    ensures WindowConflict(ReplaceAt(rs, i, ConfirmReservation(rs[i], OwnerOf(rs[i]), Post).value), tableId, date, time)
            <==> WindowConflict(rs, tableId, date, time)
  {
    var after := ReplaceAt(rs, i, ConfirmReservation(rs[i], OwnerOf(rs[i]), Post).value);
    assert forall k :: 0 <= k < |rs| ==> (Blocks(after[k], tableId, date, time) <==> Blocks(rs[k], tableId, date, time));
  }
}

=== FILE: owner_views.dfy ===
/** The restaurant-owner views: every one of them is gated on the restaurant's
    owner id, and each does its own hand-written validation of the POST fields. */
module OwnerViews {
  import opened Results
  import opened Domain
  import opened Text

  datatype OwnerError =
    | RestaurantFieldsRequired  // name, phone, email, address, city, cuisine type
    | TimesRequired             // opening and closing time
    | TableFieldsRequired       // table number and capacity
    | DuplicateTableNumber
    | CapacityNotNumber

  /** The gate every owner view applies: a bare owner-id comparison. */
  predicate MayManage(r: Restaurant, userId: int) {
    r.ownerId == userId
  }

  /** The restaurant form as posted, each field already `.strip()`ped as the views read
      it (`request.POST.get(name, '').strip()`); a blank time is `None`. */
  datatype RestaurantPost = RestaurantPost(
    name: string, description: string, cuisineType: string, phone: string, email: string,
    website: string, address: string, city: string, postalCode: string,
    openingTime: Option<TimeOfDay>, closingTime: Option<TimeOfDay>)

  /** `posted or current`: a blank field keeps the value. */
  function KeepIfBlank(current: string, posted: string): (v: string)
    ensures posted == "" ==> v == current
    ensures posted != "" ==> v == posted
  {
    if posted == "" then current else posted
  }

  function KeepTimeIfBlank(current: TimeOfDay, posted: Option<TimeOfDay>): (v: TimeOfDay)
    ensures posted.None? ==> v == current
    ensures posted.Some? ==> v == posted.value
  {
    if posted.None? then current else posted.value
  }

  /** The field merge of `update_restaurant`. Blank name, cuisine, phone, email, address,
      city, postal code and times keep the old value; description and website are
      overwritten, so a blank one clears them. */
  function MergeRestaurant(prev: Restaurant, p: RestaurantPost): (r: Restaurant)
    ensures r.id == prev.id && r.ownerId == prev.ownerId && r.isActive == prev.isActive
    ensures r.description == p.description && r.website == p.website
    ensures p.name == "" ==> r.name == prev.name
    ensures p.cuisineType == "" ==> r.cuisineType == prev.cuisineType
    ensures p.phone == "" ==> r.phone == prev.phone
    ensures p.email == "" ==> r.email == prev.email
    ensures p.address == "" ==> r.address == prev.address
    ensures p.city == "" ==> r.city == prev.city
    ensures p.postalCode == "" ==> r.postalCode == prev.postalCode
    ensures p.openingTime.None? ==> r.openingTime == prev.openingTime
    ensures p.closingTime.None? ==> r.closingTime == prev.closingTime
    ensures p.name != "" ==> r.name == p.name
    ensures p.cuisineType != "" ==> r.cuisineType == p.cuisineType
    ensures p.phone != "" ==> r.phone == p.phone
    ensures p.email != "" ==> r.email == p.email
    ensures p.address != "" ==> r.address == p.address
    ensures p.city != "" ==> r.city == p.city
    ensures p.postalCode != "" ==> r.postalCode == p.postalCode
    ensures p.openingTime.Some? ==> r.openingTime == p.openingTime.value
    ensures p.closingTime.Some? ==> r.closingTime == p.closingTime.value
  {
    prev.(name := KeepIfBlank(prev.name, p.name),
         description := p.description,
         cuisineType := KeepIfBlank(prev.cuisineType, p.cuisineType),
         phone := KeepIfBlank(prev.phone, p.phone),
         email := KeepIfBlank(prev.email, p.email),
         website := p.website,
         address := KeepIfBlank(prev.address, p.address),
         city := KeepIfBlank(prev.city, p.city),
         postalCode := KeepIfBlank(prev.postalCode, p.postalCode),
         openingTime := KeepTimeIfBlank(prev.openingTime, p.openingTime),
         closingTime := KeepTimeIfBlank(prev.closingTime, p.closingTime))
  }

  /** Posting the same form twice leaves the restaurant as the first post left it. */
  lemma MergeIsIdempotent(prev: Restaurant, p: RestaurantPost)
    ensures MergeRestaurant(MergeRestaurant(prev, p), p) == MergeRestaurant(prev, p)
  {
  }

  /** An all-blank post changes nothing but the description and the website, which it clears. */
  lemma BlankPostOnlyClearsOptionalText(prev: Restaurant)
    ensures MergeRestaurant(prev, RestaurantPost("", "", "", "", "", "", "", "", "", None, None))
            == prev.(description := "", website := "")
  {
  }

  /** The update merge does not re-check the opening hours: it can leave a restaurant
      that closes before it opens. */
  lemma MergeCanInvertHours(prev: Restaurant, p: RestaurantPost)
    requires p.openingTime == Some(22 * 60) && p.closingTime == Some(9 * 60)
    ensures MergeRestaurant(prev, p).closingTime < MergeRestaurant(prev, p).openingTime
  {
  }

  /** `update_restaurant`. */
  function UpdateRestaurant(r: Restaurant, userId: int, verb: Verb, p: RestaurantPost)
    : (out: ViewResult<Restaurant, OwnerError>)
    ensures out.Forbidden? <==> !MayManage(r, userId)
    ensures out.Saved? <==> MayManage(r, userId) && verb == Post
    ensures out.Saved? ==> out.value == MergeRestaurant(r, p)
    ensures out.Saved? ==> out.value.id == r.id && out.value.ownerId == r.ownerId
  {
    if !MayManage(r, userId) then Forbidden
    else if verb == Post then Saved(MergeRestaurant(r, p))
    else Rendered([])
  }

  /** The views gate on the owner id, not on `is_owned_by`: the owner without an owner
      profile, whom `is_owned_by` refuses, may still post an update and have it saved. */
  lemma UpdateIgnoresOwnerProfile(r: Restaurant, u: User, p: RestaurantPost)
    requires r.ownerId == u.id && !u.hasOwnerProfile
    ensures !IsOwnedBy(r, u)
    ensures UpdateRestaurant(r, u.id, Post, p) == Saved(MergeRestaurant(r, p))
  {
  }

  /** The restaurants left once the one with this id is removed. */
  function RemoveRestaurant(rs: seq<Restaurant>, id: int): (out: seq<Restaurant>)
    ensures forall x :: x in out <==> x in rs && x.id != id
    ensures |out| <= |rs|
  {
    if |rs| == 0 then []
    else
      var rest := RemoveRestaurant(rs[1..], id);
      assert forall x :: x in rs <==> x == rs[0] || x in rs[1..];
      if rs[0].id == id then rest else [rs[0]] + rest
  }

  /** `delete_restaurant`: the owner's POST removes it; a GET only asks for confirmation. */
  function DeleteRestaurant(rs: seq<Restaurant>, r: Restaurant, userId: int, verb: Verb)
    : (out: ViewResult<seq<Restaurant>, OwnerError>)
    ensures out.Forbidden? <==> !MayManage(r, userId)
    ensures out.Saved? <==> MayManage(r, userId) && verb == Post
    ensures out.Saved? ==> forall x :: x in out.value <==> x in rs && x.id != r.id
  {
    if !MayManage(r, userId) then Forbidden
    else if verb == Post then Saved(RemoveRestaurant(rs, r.id))
    else Rendered([])
  }

  /** The required-field errors of `create_restaurant`. */
  function CreateRestaurantErrors(p: RestaurantPost): (es: seq<OwnerError>)
    ensures RestaurantFieldsRequired in es <==>
      p.name == "" || p.phone == "" || p.email == "" || p.address == ""
      || p.city == "" || p.cuisineType == ""
    ensures TimesRequired in es <==> p.openingTime.None? || p.closingTime.None?
    ensures |es| <= 2
  {
    (if p.name == "" || p.phone == "" || p.email == "" || p.address == ""
        || p.city == "" || p.cuisineType == "" then [RestaurantFieldsRequired] else [])
    + (if p.openingTime.None? || p.closingTime.None? then [TimesRequired] else [])
  }

  /** `create_restaurant`: any logged-in user becomes the owner; only presence is
      checked, not the order of the opening and closing times. */
  function CreateRestaurant(userId: int, p: RestaurantPost, newId: int): (out: Result<Restaurant, seq<OwnerError>>)
    ensures out.Ok? <==> CreateRestaurantErrors(p) == []
    ensures out.Err? ==> out.error == CreateRestaurantErrors(p) && out.error != []
    ensures out.Ok? ==> out.value.id == newId && out.value.ownerId == userId && out.value.isActive
    ensures out.Ok? ==> out.value.name == p.name && out.value.description == p.description
                        && out.value.cuisineType == p.cuisineType && out.value.phone == p.phone
                        && out.value.email == p.email && out.value.website == p.website
                        && out.value.address == p.address && out.value.city == p.city
                        && out.value.postalCode == p.postalCode
    ensures out.Ok? ==> Some(out.value.openingTime) == p.openingTime
                        && Some(out.value.closingTime) == p.closingTime
  {
    var es := CreateRestaurantErrors(p);
    if es != [] then Err(es)
    else Ok(Restaurant(newId, userId, p.name, p.description, p.cuisineType,
                       p.phone, p.email, p.website, p.address, p.city,
                       p.postalCode, p.openingTime.value, p.closingTime.value, true))
  }

  /** Posting the creation form again through the edit view changes nothing: the
      created restaurant already holds every posted value, and its owner may edit it. */
  lemma CreateThenUpdateIsNoOp(userId: int, p: RestaurantPost, newId: int)
    requires CreateRestaurant(userId, p, newId).Ok?
    ensures var r := CreateRestaurant(userId, p, newId).value;
            UpdateRestaurant(r, userId, Post, p) == Saved(r)
  {
  }

  /** A restaurant closing before it opens is created without complaint. */
  lemma CreateRestaurantAcceptsInvertedHours(userId: int, p: RestaurantPost, newId: int)
    requires p.name != "" && p.phone != "" && p.email != ""
    requires p.address != "" && p.city != "" && p.cuisineType != ""
    requires p.openingTime == Some(22 * 60) && p.closingTime == Some(9 * 60)
    ensures CreateRestaurant(userId, p, newId).Ok?
    ensures CreateRestaurant(userId, p, newId).value.closingTime < CreateRestaurant(userId, p, newId).value.openingTime
  {
  }

  /** The validation errors of a `create_table` POST, before the capacity is parsed. The
      duplicate check runs even for a blank number. */
  function CreateTableErrors(tables: seq<Table>, r: Restaurant, number: string, capacity: string)
    : (es: seq<OwnerError>)
    ensures TableFieldsRequired in es <==> number == "" || capacity == ""
    ensures DuplicateTableNumber in es <==> HasTableNumber(tables, r.id, number)
  {
    (if number == "" || capacity == "" then [TableFieldsRequired] else [])
    + (if HasTableNumber(tables, r.id, number) then [DuplicateTableNumber] else [])
  }

  /** Appends a new active table; the uniqueness constraint survives when the number
      is new to the restaurant. */
  function AppendTable(tables: seq<Table>, r: Restaurant, number: string, capacity: int,
                       description: string, newId: int): (out: seq<Table>)
    ensures |out| == |tables| + 1 && out[..|tables|] == tables
    ensures out[|tables|].restaurant == r && out[|tables|].tableNumber == number
    ensures out[|tables|].isActive && out[|tables|].capacity == capacity
    ensures out[|tables|].description == description && out[|tables|].id == newId
    ensures !HasTableNumber(tables, r.id, number) && UniqueTableNumbers(tables) ==> UniqueTableNumbers(out)
  {
    var t := NewTable(newId, r, number, capacity, description);
    AppendKeepsUniqueTableNumbers(tables, t);
    assert (tables + [t])[..|tables|] == tables;
    tables + [t]
  }

  /** The POST branch of `create_table`, after the ownership gate. */
  function CreateTablePost(tables: seq<Table>, r: Restaurant, number: string, capacity: string,
                           description: string, newId: int): (out: ViewResult<seq<Table>, OwnerError>)
    ensures !out.Forbidden?
    ensures out.Saved? <==> CreateTableErrors(tables, r, number, capacity) == [] && ParseInt(capacity).Some?
    ensures out.Saved? ==> out.value == AppendTable(tables, r, number, ParseInt(capacity).value, description, newId)
    ensures out.Rendered? ==> out.errors != []
    ensures out.Rendered? ==> (out.errors ==
              (if CreateTableErrors(tables, r, number, capacity) != [] then CreateTableErrors(tables, r, number, capacity)
               else [CapacityNotNumber]))
  {
    var es := CreateTableErrors(tables, r, number, capacity);
    if es != [] then Rendered(es)
    else match ParseInt(capacity)
      case None => Rendered([CapacityNotNumber])
      case Some(c) => Saved(AppendTable(tables, r, number, c, description, newId))
  }

  /** `create_table`: on a valid POST the table is appended, active, with the parsed
      capacity; `int()` is the only capacity check, so any integer is stored. */
  function CreateTable(tables: seq<Table>, r: Restaurant, userId: int, verb: Verb,
                       number: string, capacity: string, description: string, newId: int)
    : (out: ViewResult<seq<Table>, OwnerError>)
    ensures out.Forbidden? <==> !MayManage(r, userId)
    ensures out.Saved? <==> (MayManage(r, userId) && verb == Post
      && CreateTableErrors(tables, r, number, capacity) == []
      && ParseInt(capacity).Some?)
    ensures out.Saved? ==> |out.value| == |tables| + 1 && out.value[..|tables|] == tables
    ensures out.Saved? ==> (var t := out.value[|tables|];
      t.restaurant == r && t.tableNumber == number && t.isActive
      && Some(t.capacity) == ParseInt(capacity)
      && t.description == description && t.id == newId)
    ensures out.Saved? && UniqueTableNumbers(tables) ==> UniqueTableNumbers(out.value)
    ensures out.Rendered? && verb == Post ==> (out.errors ==
              (if CreateTableErrors(tables, r, number, capacity) != [] then CreateTableErrors(tables, r, number, capacity)
               else [CapacityNotNumber]))
    ensures out.Rendered? && verb == Get ==> out.errors == []
  {
    if !MayManage(r, userId) then Forbidden
    else if verb == Get then Rendered([])
    else
      assert verb == Post;
      CreateTablePost(tables, r, number, capacity, description, newId)
  }

  /** `create_table` stores a negative capacity: there is no range check. */
  lemma CreateTableStoresAnyInteger(tables: seq<Table>, r: Restaurant, number: string)
    requires number != "" && !HasTableNumber(tables, r.id, number)
    ensures var out := CreateTable(tables, r, r.ownerId, Post, number, "-3", "", 0);
            out.Saved? && out.value[|tables|].capacity == -3
  {
    assert ParseInt("-3") == Some(-3) by {
      assert "-3"[1..] == "3";
      assert DigitsValue("3") == DigitsValue("3"[..0]) * 10 + DigitValue('3');
    }
  }

  /** `update_table`: a blank number or capacity keeps the old one, the description is
      overwritten, and a capacity `int()` cannot read prevents the save. */
  function UpdateTable(t: Table, userId: int, verb: Verb, number: string, capacity: string,
                       description: string): (out: ViewResult<Table, OwnerError>)
    ensures out.Forbidden? <==> !MayManage(t.restaurant, userId)
    ensures out.Saved? <==> (MayManage(t.restaurant, userId) && verb == Post
                             && (capacity == "" || ParseInt(capacity).Some?))
    ensures out.Saved? ==> out.value.id == t.id && out.value.restaurant == t.restaurant
                           && out.value.isActive == t.isActive
                           && out.value.tableNumber == KeepIfBlank(t.tableNumber, number)
                           && out.value.description == description
    ensures out.Saved? && capacity == "" ==> out.value.capacity == t.capacity
    ensures out.Saved? && capacity != "" ==> Some(out.value.capacity) == ParseInt(capacity)
    ensures out.Rendered? && verb == Post ==> out.errors == [CapacityNotNumber]
  {
    if !MayManage(t.restaurant, userId) then Forbidden
    else if verb == Get then Rendered([])
    else
      var edited := t.(tableNumber := KeepIfBlank(t.tableNumber, number),
                       description := description);
      if capacity == "" then
        assert verb == Post;
        Saved(edited)
      else match ParseInt(capacity)
        case None => Rendered([CapacityNotNumber])
        case Some(c) => Saved(edited.(capacity := c))
  }

  /** `delete_table`: whatever the verb, the owner only ever sees the confirmation page;
      the table is never removed. */
  function DeleteTable(t: Table, userId: int, verb: Verb): (out: ViewResult<Table, OwnerError>)
    ensures out.Forbidden? <==> !MayManage(t.restaurant, userId)
    ensures !out.Saved?
    ensures !out.Forbidden? ==> out == Rendered([])
  {
    if !MayManage(t.restaurant, userId) then Forbidden else Rendered([])
  }

  /** The tables of one restaurant, active or not. */
  function TablesOf(tables: seq<Table>, restaurantId: int): (out: seq<Table>)
    ensures forall t :: t in out <==> t in tables && t.restaurant.id == restaurantId
  {
    if |tables| == 0 then []
    else
      var rest := TablesOf(tables[1..], restaurantId);
      assert forall x :: x in tables <==> x == tables[0] || x in tables[1..];
      if tables[0].restaurant.id == restaurantId then [tables[0]] + rest else rest
  }

  /** `list_tables`: the owner sees every table of the restaurant, inactive ones too. */
  function ListTables(tables: seq<Table>, r: Restaurant, userId: int): (out: Option<seq<Table>>)
    ensures out.Some? <==> MayManage(r, userId)
    ensures out.Some? ==> forall t :: t in out.value <==> t in tables && t.restaurant.id == r.id
  {
    if MayManage(r, userId) then Some(TablesOf(tables, r.id)) else None
  }
}

=== FILE: restaurant_forms.dfy ===
/** The custom field rules of `RestaurantForm` and `TableForm`. */
module RestaurantForms {
  import opened Results
  import opened Domain
  import opened Text

  const MinNameLength := 2
  const MaxNameLength := 200
  const MinPhoneDigits := 10
  const MaxPhoneLength := 20
  const MaxEmailLength := 254
  const MaxTableNumberLength := 10
  const MinCapacity := 1
  const MaxCapacity := 20

  datatype FormError =
    | NameRequired | NameTooShort | NameTooLong
    | PhoneRequired | PhoneTooShort | PhoneTooLong
    | EmailRequired | EmailTooLong | EmailTaken
    | OpeningTimeRequired | ClosingTimeRequired | ClosingNotAfterOpening
    | TableNumberRequired | TableNumberTooLong
    | CapacityRequired | CapacityBelowOne | CapacityAboveTwenty

  /** The form field an error belongs to: name, phone, email, the hours, or a field of
      `TableForm`. */
  datatype FormField = NameField | PhoneField | EmailField | HoursField | TableFormField

  function FieldOf(e: FormError): FormField {
    match e
    case NameRequired | NameTooShort | NameTooLong => NameField
    case PhoneRequired | PhoneTooShort | PhoneTooLong => PhoneField
    case EmailRequired | EmailTooLong | EmailTaken => EmailField
    case OpeningTimeRequired | ClosingTimeRequired | ClosingNotAfterOpening => HoursField
    case _ => TableFormField
  }

  /** `clean_name`: the stripped name, 2 to 200 characters long. */
  function CleanName(raw: string): (r: Result<string, FormError>)
    ensures r.Ok? <==> MinNameLength <= |Strip(raw)| <= MaxNameLength
    ensures r.Ok? ==> r.value == Strip(raw)
    ensures r.Err? ==> FieldOf(r.error) == NameField
    ensures r == Err(NameRequired) <==> Strip(raw) == ""
    ensures r == Err(NameTooShort) <==> 0 < |Strip(raw)| < MinNameLength
    ensures r == Err(NameTooLong) <==> |Strip(raw)| > MaxNameLength
    ensures AllSpace(raw) ==> r == Err(NameRequired)
  {
    var name := Strip(raw);
    if name == "" then Err(NameRequired)
    else if |name| < MinNameLength then Err(NameTooShort)
    else if |name| > MaxNameLength then Err(NameTooLong)
    else Ok(name)
  }

  /** `clean_phone`: at least ten digit characters, any formatting around them; the
      stripped text itself is kept, formatting included. */
  function CleanPhone(raw: string): (r: Result<string, FormError>)
    ensures r.Ok? <==> CountDigits(Strip(raw)) >= MinPhoneDigits
    ensures r.Ok? ==> r.value == Strip(raw)
    ensures r.Err? ==> FieldOf(r.error) == PhoneField
    ensures AllSpace(raw) ==> r == Err(PhoneRequired)
  {
    var phone := Strip(raw);
    if phone == "" then Err(PhoneRequired)
    else if CountDigits(phone) < MinPhoneDigits then Err(PhoneTooShort)
    else Ok(phone)
  }

  /** The phone field as the model form cleans it: the model column's `max_length` on
      the stripped text first, and `clean_phone` only when that passes. */
  function CleanPhoneField(raw: string): (r: Result<string, FormError>)
    ensures r.Ok? <==> |Strip(raw)| <= MaxPhoneLength && CountDigits(Strip(raw)) >= MinPhoneDigits
    ensures r.Ok? ==> r.value == Strip(raw)
    ensures r == Err(PhoneTooLong) <==> |Strip(raw)| > MaxPhoneLength
    ensures r == Err(PhoneRequired) <==> Strip(raw) == ""
    ensures r == Err(PhoneTooShort) <==>
              Strip(raw) != "" && |Strip(raw)| <= MaxPhoneLength && CountDigits(Strip(raw)) < MinPhoneDigits
    ensures r.Err? ==> FieldOf(r.error) == PhoneField
    ensures |Strip(raw)| <= MaxPhoneLength ==> r == CleanPhone(raw)
  {
    if |Strip(raw)| > MaxPhoneLength then Err(PhoneTooLong) else CleanPhone(raw)
  }

  /** `clean_phone` alone accepts a long formatted number that the field's length limit
      refuses first, so the custom rule never sees it. */
  lemma LongPhoneStopsAtTheLengthLimit(raw: string)
    requires |Strip(raw)| > MaxPhoneLength && CountDigits(Strip(raw)) >= MinPhoneDigits
    ensures CleanPhone(raw).Ok? && CleanPhoneField(raw) == Err(PhoneTooLong)
  {
  }

  /** Another restaurant (not the instance being edited) already uses the email. The
      instance is excluded only when its primary key is truthy (saved, non-zero). */
  predicate EmailUsedElsewhere(restaurants: seq<Restaurant>, email: string, instancePk: Option<int>) {
    exists i :: 0 <= i < |restaurants| && restaurants[i].email == email
      && !(instancePk.Some? && instancePk.value != 0 && restaurants[i].id == instancePk.value)
  }

  /** `clean_email`: required and unique among the other restaurants. */
  function CleanEmail(raw: string, restaurants: seq<Restaurant>, instancePk: Option<int>): (r: Result<string, FormError>)
    ensures r.Ok? <==> Strip(raw) != "" && !EmailUsedElsewhere(restaurants, Strip(raw), instancePk)
    ensures r.Ok? ==> r.value == Strip(raw)
  {
    var email := Strip(raw);
    if email == "" then Err(EmailRequired)
    else if EmailUsedElsewhere(restaurants, email, instancePk) then Err(EmailTaken)
    else Ok(email)
  }

  /** The email field as the model form cleans it: the column's default `max_length` of
      254 on the stripped text first, then `clean_email`. */
  function CleanEmailField(raw: string, restaurants: seq<Restaurant>, instancePk: Option<int>)
    : (r: Result<string, FormError>)
    ensures r.Ok? <==> Strip(raw) != "" && |Strip(raw)| <= MaxEmailLength
                       && !EmailUsedElsewhere(restaurants, Strip(raw), instancePk)
    ensures r.Ok? ==> r.value == Strip(raw)
    ensures r == Err(EmailTooLong) <==> |Strip(raw)| > MaxEmailLength
    ensures r == Err(EmailRequired) <==> Strip(raw) == ""
    ensures r == Err(EmailTaken) <==>
              Strip(raw) != "" && |Strip(raw)| <= MaxEmailLength && EmailUsedElsewhere(restaurants, Strip(raw), instancePk)
    ensures r.Err? ==> FieldOf(r.error) == EmailField
    ensures |Strip(raw)| <= MaxEmailLength ==> r == CleanEmail(raw, restaurants, instancePk)
  {
    if |Strip(raw)| > MaxEmailLength then Err(EmailTooLong) else CleanEmail(raw, restaurants, instancePk)
  }

  /** A new restaurant (no primary key yet) may not reuse any existing email. */
  lemma NewRestaurantCannotReuseEmail(restaurants: seq<Restaurant>, i: nat, raw: string)
    requires i < |restaurants| && Strip(raw) == restaurants[i].email
    ensures CleanEmail(raw, restaurants, None) == (if Strip(raw) == "" then Err(EmailRequired) else Err(EmailTaken))
  {
  }

  /** `RestaurantForm.clean`: when both times are given, closing must be after opening. */
  function CheckHours(opening: Option<TimeOfDay>, closing: Option<TimeOfDay>): (es: seq<FormError>)
    ensures es == [] <==> opening.Some? && closing.Some? && opening.value < closing.value
    ensures opening.Some? && closing.Some? && closing.value <= opening.value ==> es == [ClosingNotAfterOpening]
    ensures OpeningTimeRequired in es <==> opening.None?
    ensures ClosingTimeRequired in es <==> closing.None?
    ensures ClosingNotAfterOpening in es <==> opening.Some? && closing.Some? && closing.value <= opening.value
    ensures forall e :: e in es ==> FieldOf(e) == HoursField
    ensures |es| <= 2
  {
    (if opening.None? then [OpeningTimeRequired] else [])
    + (if closing.None? then [ClosingTimeRequired] else [])
    + (if opening.Some? && closing.Some? && closing.value <= opening.value then [ClosingNotAfterOpening] else [])
  }

  datatype RestaurantInput = RestaurantInput(
    name: string, phone: string, email: string,
    openingTime: Option<TimeOfDay>, closingTime: Option<TimeOfDay>)

  /** The errors of `RestaurantForm` on these fields, in field order: at most one per
      field, then the hours. */
  function ValidateRestaurantForm(f: RestaurantInput, restaurants: seq<Restaurant>, instancePk: Option<int>)
    : (es: seq<FormError>)
    ensures es == [] <==>
      && MinNameLength <= |Strip(f.name)| <= MaxNameLength
      && |Strip(f.phone)| <= MaxPhoneLength && CountDigits(Strip(f.phone)) >= MinPhoneDigits
      && Strip(f.email) != "" && |Strip(f.email)| <= MaxEmailLength
      && !EmailUsedElsewhere(restaurants, Strip(f.email), instancePk)
      && f.openingTime.Some? && f.closingTime.Some? && f.openingTime.value < f.closingTime.value
    ensures forall x :: FieldOf(x) == NameField ==> (x in es <==> CleanName(f.name) == Err(x))
    ensures forall x :: FieldOf(x) == PhoneField ==> (x in es <==> CleanPhoneField(f.phone) == Err(x))
    ensures forall x :: FieldOf(x) == EmailField ==>
              (x in es <==> CleanEmailField(f.email, restaurants, instancePk) == Err(x))
    ensures forall x :: FieldOf(x) == HoursField ==> (x in es <==> x in CheckHours(f.openingTime, f.closingTime))
    ensures forall x :: x in es ==> FieldOf(x) != TableFormField
    ensures |es| <= 5
  {
    var name := CleanName(f.name);
    var phone := CleanPhoneField(f.phone);
    var email := CleanEmailField(f.email, restaurants, instancePk);
    var hours := CheckHours(f.openingTime, f.closingTime);
    JoinByField(name, phone, email, hours);
    ErrorsOf(name) + ErrorsOf(phone) + ErrorsOf(email) + hours
  }

  /** Joining one result per field and the hours' errors: empty exactly when every part
      is, and each error comes from the part of its own field. */
  lemma JoinByField(name: Result<string, FormError>, phone: Result<string, FormError>,
                    email: Result<string, FormError>, hours: seq<FormError>)
    requires name.Err? ==> FieldOf(name.error) == NameField
    requires phone.Err? ==> FieldOf(phone.error) == PhoneField
    requires email.Err? ==> FieldOf(email.error) == EmailField
    requires forall e :: e in hours ==> FieldOf(e) == HoursField
    requires |hours| <= 2
    ensures var es := ErrorsOf(name) + ErrorsOf(phone) + ErrorsOf(email) + hours;
      && (es == [] <==> name.Ok? && phone.Ok? && email.Ok? && hours == [])
      && (forall x :: FieldOf(x) == NameField ==> (x in es <==> name == Err(x)))
      && (forall x :: FieldOf(x) == PhoneField ==> (x in es <==> phone == Err(x)))
      && (forall x :: FieldOf(x) == EmailField ==> (x in es <==> email == Err(x)))
      && (forall x :: FieldOf(x) == HoursField ==> (x in es <==> x in hours))
      && (forall x :: x in es ==> FieldOf(x) != TableFormField)
      && |es| <= 5
  {
    var es := ErrorsOf(name) + ErrorsOf(phone) + ErrorsOf(email) + hours;
    assert forall x :: x in es <==> x in ErrorsOf(name) || x in ErrorsOf(phone) || x in ErrorsOf(email) || x in hours;
  }

  /** The field of each restaurant-form error. */
  lemma FieldsOfErrors()
    ensures FieldOf(NameRequired) == NameField && FieldOf(NameTooShort) == NameField
            && FieldOf(NameTooLong) == NameField
    ensures FieldOf(PhoneRequired) == PhoneField && FieldOf(PhoneTooShort) == PhoneField
            && FieldOf(PhoneTooLong) == PhoneField
    ensures FieldOf(EmailRequired) == EmailField && FieldOf(EmailTooLong) == EmailField
            && FieldOf(EmailTaken) == EmailField
    ensures FieldOf(OpeningTimeRequired) == HoursField && FieldOf(ClosingTimeRequired) == HoursField
            && FieldOf(ClosingNotAfterOpening) == HoursField
  {
  }

  /** Which error the form reports for the name: one condition per error. */
  lemma NameErrorsReported(f: RestaurantInput, restaurants: seq<Restaurant>, instancePk: Option<int>)
    ensures var es := ValidateRestaurantForm(f, restaurants, instancePk);
      && (NameRequired in es <==> Strip(f.name) == "")
      && (NameTooShort in es <==> 0 < |Strip(f.name)| < MinNameLength)
      && (NameTooLong in es <==> |Strip(f.name)| > MaxNameLength)
  {
    FieldsOfErrors();
  }

  /** Which error the form reports for the phone: the length limit before `clean_phone`. */
  lemma PhoneErrorsReported(f: RestaurantInput, restaurants: seq<Restaurant>, instancePk: Option<int>)
    ensures var es := ValidateRestaurantForm(f, restaurants, instancePk);
      && (PhoneRequired in es <==> Strip(f.phone) == "")
      && (PhoneTooLong in es <==> |Strip(f.phone)| > MaxPhoneLength)
      && (PhoneTooShort in es <==>
            Strip(f.phone) != "" && |Strip(f.phone)| <= MaxPhoneLength && CountDigits(Strip(f.phone)) < MinPhoneDigits)
  {
    FieldsOfErrors();
  }

  /** Which error the form reports for the email: the length limit before `clean_email`. */
  lemma EmailErrorsReported(f: RestaurantInput, restaurants: seq<Restaurant>, instancePk: Option<int>)
    ensures var es := ValidateRestaurantForm(f, restaurants, instancePk);
      && (EmailRequired in es <==> Strip(f.email) == "")
      && (EmailTooLong in es <==> |Strip(f.email)| > MaxEmailLength)
      && (EmailTaken in es <==>
            Strip(f.email) != "" && |Strip(f.email)| <= MaxEmailLength
            && EmailUsedElsewhere(restaurants, Strip(f.email), instancePk))
  {
    FieldsOfErrors();
  }

  /** Which error the form reports for the hours, and never a `TableForm` error. */
  lemma HoursErrorsReported(f: RestaurantInput, restaurants: seq<Restaurant>, instancePk: Option<int>)
    ensures var es := ValidateRestaurantForm(f, restaurants, instancePk);
      && (OpeningTimeRequired in es <==> f.openingTime.None?)
      && (ClosingTimeRequired in es <==> f.closingTime.None?)
      && (ClosingNotAfterOpening in es <==>
            f.openingTime.Some? && f.closingTime.Some? && f.closingTime.value <= f.openingTime.value)
      && (forall e :: e in es ==> FieldOf(e) != TableFormField)
  {
    FieldsOfErrors();
  }

  /** `TableForm.clean_table_number`: non-empty after stripping and at most 10 characters. */
  function CleanTableNumber(raw: string): (r: Result<string, FormError>)
    ensures r.Ok? <==> 0 < |Strip(raw)| <= MaxTableNumberLength
    ensures r.Ok? ==> r.value == Strip(raw)
  {
    var number := Strip(raw);
    if number == "" then Err(TableNumberRequired)
    else if |number| > MaxTableNumberLength then Err(TableNumberTooLong)
    else Ok(number)
  }

  /** `TableForm.clean_capacity`: 1 to 20. A capacity of 0 is falsy and reported as
      missing, not as too small. */
  function CleanCapacity(capacity: Option<int>): (r: Result<int, FormError>)
    ensures r.Ok? <==> capacity.Some? && MinCapacity <= capacity.value <= MaxCapacity
    ensures r.Ok? ==> r.value == capacity.value
    ensures capacity == Some(0) ==> r == Err(CapacityRequired)
    ensures capacity.Some? && capacity.value < 0 ==> r == Err(CapacityBelowOne)
    ensures capacity.Some? && capacity.value > MaxCapacity ==> r == Err(CapacityAboveTwenty)
  {
    if capacity.None? || capacity.value == 0 then Err(CapacityRequired)
    else if capacity.value < MinCapacity then Err(CapacityBelowOne)
    else if capacity.value > MaxCapacity then Err(CapacityAboveTwenty)
    else Ok(capacity.value)
  }

  /** Only the digits count towards a phone number's length: formatting is free. */
  lemma PhoneFormattingIsIgnored(digits: string, formatting: string)
    requires AllDigits(digits) && |digits| >= MinPhoneDigits
    requires forall k :: 0 <= k < |formatting| ==> !IsDigit(formatting[k])
    ensures CleanPhone(formatting + digits) == Ok(Strip(formatting + digits))
  {
    CountDigitsAppend(formatting, digits);
    AllDigitsCount(digits);
    StripKeepsDigits(formatting + digits);
  }

  lemma {:induction false} AllDigitsCount(s: string)
    requires AllDigits(s)
    ensures CountDigits(s) == |s|
  {
    if |s| > 0 {
      AllDigitsCount(s[1..]);
    }
  }

  /** Stripping never removes a digit. */
  lemma StripKeepsDigits(s: string)
    ensures CountDigits(Strip(s)) == CountDigits(s)
  {
    TrimStartKeepsDigits(s);
    TrimEndKeepsDigits(TrimStart(s));
  }

  lemma {:induction false} TrimStartKeepsDigits(s: string)
    ensures CountDigits(TrimStart(s)) == CountDigits(s)
  {
    if |s| > 0 && IsSpace(s[0]) {
      TrimStartKeepsDigits(s[1..]);
    }
  }

  lemma {:induction false} TrimEndKeepsDigits(s: string)
    ensures CountDigits(TrimEnd(s)) == CountDigits(s)
  {
    if |s| > 0 && IsSpace(s[|s| - 1]) {
      var init := s[..|s| - 1];
      assert s == init + [s[|s| - 1]];
      CountDigitsAppend(init, [s[|s| - 1]]);
      TrimEndKeepsDigits(init);
    }
  }
}

=== FILE: results.dfy ===
/** Small failure-carrying datatypes shared by every validator and view of the model. */
module Results {

  /** A value that may be absent: an empty form field, a failed lookup. */
  datatype Option<T> = None | Some(value: T)

  /** Either a successfully cleaned value or the error that rejected it. */
  datatype Result<T, E> = Ok(value: T) | Err(error: E)

  /** The ways a request-handling view can end: the permission check refused,
      a page was rendered (a GET, or a POST with errors), or something was saved. */
  datatype ViewResult<T, E> = Forbidden | Rendered(errors: seq<E>) | Saved(value: T)

  /** The HTTP verb of a request; only the distinction GET/POST matters to the views. */
  datatype Verb = Get | Post

  /** The error list a field-level cleaning step contributes. */
  function ErrorsOf<T, E>(r: Result<T, E>): (es: seq<E>)
    ensures r.Ok? <==> es == []
    ensures r.Err? ==> es == [r.error]
  {
    if r.Err? then [r.error] else []
  }
}

=== FILE: seeding.dfy ===
/** The `seed_data` management command: the unique-slug loop of `create_restaurants`,
    the seeded opening hours, the table numbering of `create_tables`, and the bounded
    loop of `create_reservations`. Every random choice is an oracle value taken modulo
    the number of choices; Faker text and `slugify` are inputs. */
module Seeding {
  import opened Results
  import opened Domain
  import opened Text
  import opened Conflict
  import opened RestaurantForms

  // ---------------------------------------------------------------- slugs

  /** The slug tried on the k-th retry: `f"{base_slug}-{counter}"`. */
  function Suffixed(base: string, k: nat): string {
    base + "-" + NatToString(k)
  }

  /** The slug tried after `k` failed probes: the base itself, then `base-1`, `base-2`, … */
  function Candidate(base: string, k: nat): (s: string)
    ensures k == 0 ==> s == base
    ensures k > 0 ==> |s| > |base| && s[..|base|] == base
  {
    if k == 0 then base else Suffixed(base, k)
  }

  /** Different retry counts give different slugs. */
  lemma CandidateInjective(base: string, a: nat, b: nat)
    requires Candidate(base, a) == Candidate(base, b)
    ensures a == b
  {
    if a > 0 && b > 0 {
      var n := |base| + 1;
      assert NatToString(a) == Suffixed(base, a)[n..];
      assert NatToString(b) == Suffixed(base, b)[n..];
      NatToStringInjective(a, b);
    }
  }

  /** Every slug probed with at most `k` retries. */
  function Probed(base: string, k: nat): (p: set<string>)
    ensures forall m :: 0 <= m <= k ==> Candidate(base, m) in p
  {
    if k == 0 then {base} else Probed(base, k - 1) + {Candidate(base, k)}
  }

  /** Only probed candidates are in the probe set. */
  lemma {:induction false} ProbedOnlyCandidates(base: string, k: nat, s: string)
    requires s in Probed(base, k)
    ensures exists m :: 0 <= m <= k && s == Candidate(base, m)
  {
    if k == 0 {
      assert s == Candidate(base, 0);
    } else if s == Candidate(base, k) {
      assert 0 <= k <= k && s == Candidate(base, k);
    } else {
      ProbedOnlyCandidates(base, k - 1, s);
    }
  }

  /** `k + 1` probes give `k + 1` distinct slugs. */
  lemma {:induction false} ProbedSize(base: string, k: nat)
    ensures |Probed(base, k)| == k + 1
  {
    if k > 0 {
      ProbedSize(base, k - 1);
      if Candidate(base, k) in Probed(base, k - 1) {
        ProbedOnlyCandidates(base, k - 1, Candidate(base, k));
        var m :| 0 <= m <= k - 1 && Candidate(base, k) == Candidate(base, m);
        CandidateInjective(base, k, m);
      }
    }
  }

  /** A subset is no larger than its superset. */
  lemma SubsetIsSmaller(a: set<string>, b: set<string>)
    requires a <= b
    ensures |a| <= |b|
  {
    assert b == (b - a) + a;
  }

  /** The slug loop of `create_restaurants`: starting from the base slug, append `-1`,
      `-2`, … until the slug is not taken. `taken` is `existing_slugs`, which starts as
      every slug in the database; no restaurant is written during the loop, so the
      database test adds nothing to it. The result is free, and it is the base itself
      exactly when the base is free, or else the first free suffix. */
  method UniqueSlug(base: string, taken: set<string>) returns (slug: string, retries: nat)
    ensures slug !in taken
    ensures slug == Candidate(base, retries)
    ensures retries == 0 <==> base !in taken
    ensures forall m :: 0 <= m < retries ==> Candidate(base, m) in taken
    ensures retries <= |taken|
  {
    slug := base;
    retries := 0;
    while slug in taken
      invariant slug == Candidate(base, retries)
      invariant forall m :: 0 <= m < retries ==> Candidate(base, m) in taken
      invariant retries <= |taken|
      decreases |taken| - retries
    {
      assert forall s :: s in Probed(base, retries) ==> s in taken by {
        forall s | s in Probed(base, retries) ensures s in taken {
          ProbedOnlyCandidates(base, retries, s);
        }
      }
      ProbedSize(base, retries);
      SubsetIsSmaller(Probed(base, retries), taken);
      retries := retries + 1;
      slug := Candidate(base, retries);
    }
  }

  /** `slugs` are the slugs chosen for the first `|slugs|` bases: each is its base with
      `retries` retries, every earlier retry was already in the database or chosen
      before, and the chosen slugs are new to the database and pairwise distinct. */
  predicate ChosenSlugs(bases: seq<string>, existing: set<string>, slugs: seq<string>, retries: seq<nat>) {
    && |slugs| == |retries| <= |bases|
    && (forall i :: 0 <= i < |slugs| ==> slugs[i] == Candidate(bases[i], retries[i]))
    && (forall i, m :: 0 <= i < |slugs| && 0 <= m < retries[i] ==>
          Candidate(bases[i], m) in existing || Candidate(bases[i], m) in slugs[..i])
    && (forall i :: 0 <= i < |slugs| ==> slugs[i] !in existing)
    && (forall i, j :: 0 <= i < j < |slugs| ==> slugs[i] != slugs[j])
  }

  /** Choosing the first free candidate of the next base keeps `ChosenSlugs`. */
  lemma ChooseNextSlug(bases: seq<string>, existing: set<string>, slugs: seq<string>, retries: seq<nat>,
                       slug: string, r: nat)
    requires ChosenSlugs(bases, existing, slugs, retries) && |slugs| < |bases|
    requires slug == Candidate(bases[|slugs|], r) && slug !in existing && slug !in slugs
    requires forall m :: 0 <= m < r ==>
               Candidate(bases[|slugs|], m) in existing || Candidate(bases[|slugs|], m) in slugs
    ensures ChosenSlugs(bases, existing, slugs + [slug], retries + [r])
  {
    var n := |slugs|;
    var next := slugs + [slug];
    assert forall i :: 0 <= i <= n ==> next[..i] == slugs[..i];
  }

  /** The base itself is kept exactly when it is free. */
  lemma ChosenBaseWhenFree(bases: seq<string>, existing: set<string>, slugs: seq<string>, retries: seq<nat>,
                           i: nat)
    requires ChosenSlugs(bases, existing, slugs, retries) && i < |slugs|
    ensures retries[i] == 0 <==> bases[i] !in existing && bases[i] !in slugs[..i]
  {
    if retries[i] == 0 {
      assert slugs[i] == bases[i];
    } else {
      assert Candidate(bases[i], 0) == bases[i];
    }
  }

  /** The slugs of all seeded restaurants, in order: each is its own base slug with the
      fewest retries that make it new to the database and to the slugs chosen before it.
      Each chosen slug joins the taken set, so none is in the database already and no
      two are equal. */
  method SeedSlugs(bases: seq<string>, existing: set<string>) returns (slugs: seq<string>, retries: seq<nat>)
    ensures |slugs| == |bases| && |retries| == |bases|
    ensures forall i :: 0 <= i < |slugs| ==> slugs[i] == Candidate(bases[i], retries[i])
    ensures forall i, m :: 0 <= i < |slugs| && 0 <= m < retries[i] ==>
              Candidate(bases[i], m) in existing || Candidate(bases[i], m) in slugs[..i]
    ensures forall i :: 0 <= i < |slugs| ==>
              (retries[i] == 0 <==> bases[i] !in existing && bases[i] !in slugs[..i])
    ensures forall i :: 0 <= i < |slugs| ==> slugs[i] !in existing
    ensures forall i, j :: 0 <= i < j < |slugs| ==> slugs[i] != slugs[j]
  {
    var taken := existing;
    slugs := [];
    retries := [];
    for n := 0 to |bases|
      invariant |slugs| == n
      invariant forall s :: s in taken <==> s in existing || s in slugs
      invariant ChosenSlugs(bases, existing, slugs, retries)
    {
      var slug, r := UniqueSlug(bases[n], taken);
      ChooseNextSlug(bases, existing, slugs, retries, slug, r);
      slugs := slugs + [slug];
      retries := retries + [r];
      taken := taken + {slug};
    }
    forall i | 0 <= i < |slugs|
      ensures retries[i] == 0 <==> bases[i] !in existing && bases[i] !in slugs[..i]
    {
      ChosenBaseWhenFree(bases, existing, slugs, retries, i);
    }
  }

  // ---------------------------------------------------------------- hours

  const OpeningHours: seq<nat> := [8, 9, 10, 11]
  const ClosingHours: seq<nat> := [20, 21, 22, 23]

  /** The opening and closing times of one seeded restaurant, on the hour. */
  function SeededHours(openRoll: nat, closeRoll: nat): (hours: (TimeOfDay, TimeOfDay))
    ensures hours.0 % 60 == 0 && hours.1 % 60 == 0
    ensures 8 * 60 <= hours.0 <= 11 * 60 && 20 * 60 <= hours.1 <= 23 * 60
  {
    (OpeningHours[openRoll % |OpeningHours|] * 60, ClosingHours[closeRoll % |ClosingHours|] * 60)
  }

  /** Whatever the rolls, a seeded restaurant closes after it opens, so it passes the
      restaurant form's hours check. */
  lemma SeededHoursPassTheFormCheck(openRoll: nat, closeRoll: nat)
    ensures var (opening, closing) := SeededHours(openRoll, closeRoll);
            opening < closing && CheckHours(Some(opening), Some(closing)) == []
  {
  }

  // ---------------------------------------------------------------- tables

  const TablesPerRestaurant: nat := 10
  const SeededCapacities: seq<int> := [2, 4, 6, 8]

  /** `f"Table-{i:02d}"`. */
  function TableNumber(i: nat): string {
    "Table-" + Pad2(i)
  }

  /** Different positions give different numbers. */
  lemma TableNumberInjective(a: nat, b: nat)
    requires TableNumber(a) == TableNumber(b)
    ensures a == b
  {
    assert Pad2(a) == TableNumber(a)[6..];
    assert Pad2(b) == TableNumber(b)[6..];
    Pad2Injective(a, b);
  }

  /** The table at position `k` (0-based) of one restaurant. */
  function Seated(r: Restaurant, firstId: int, rolls: int -> nat, k: nat): (t: Table)
    ensures t.restaurant == r && t.isActive && t.capacity in SeededCapacities
    ensures t.tableNumber == TableNumber(k + 1)
  {
    NewTable(firstId + k, r, TableNumber(k + 1),
             SeededCapacities[rolls(firstId + k) % |SeededCapacities|], "")
  }

  /** The ten tables of one restaurant, `Table-01` … `Table-10`, active, each with a
      rolled capacity; ids count up from `firstId`. */
  function RestaurantTables(r: Restaurant, firstId: int, rolls: int -> nat): (ts: seq<Table>)
    ensures |ts| == TablesPerRestaurant
    ensures forall k :: 0 <= k < |ts| ==>
              ts[k].restaurant == r && ts[k].tableNumber == TableNumber(k + 1) && ts[k].isActive
    ensures forall k :: 0 <= k < |ts| ==> ts[k].capacity in SeededCapacities
  {
    var ts := seq(TablesPerRestaurant, k requires 0 <= k < TablesPerRestaurant => Seated(r, firstId, rolls, k));
    assert forall k :: 0 <= k < |ts| ==> ts[k] == Seated(r, firstId, rolls, k);
    ts
  }

  /** `create_tables`: ten tables per restaurant, in restaurant order, all active and
      with a capacity from 2, 4, 6, 8. */
  function SeedTables(restaurants: seq<Restaurant>, firstId: int, rolls: int -> nat): (ts: seq<Table>)
    ensures |ts| == TablesPerRestaurant * |restaurants|
    ensures forall k :: 0 <= k < |ts| ==>
              ts[k].restaurant in restaurants && ts[k].isActive && ts[k].capacity in SeededCapacities
  {
    if |restaurants| == 0 then []
    else
      var head := RestaurantTables(restaurants[0], firstId, rolls);
      var tail := SeedTables(restaurants[1..], firstId + TablesPerRestaurant, rolls);
      assert forall k :: 0 <= k < |tail| ==> tail[k].restaurant in restaurants;
      head + tail
  }

  /** The i-th table of the a-th block of ten belongs to the a-th restaurant and is
      numbered `Table-{i+1:02d}`. */
  lemma {:induction false} SeededTableIsNumbered(restaurants: seq<Restaurant>, firstId: int,
                                                  rolls: int -> nat, a: nat, i: nat)
    requires a < |restaurants| && i < TablesPerRestaurant
    ensures var ts := SeedTables(restaurants, firstId, rolls);
            var k := 10 * a + i;
            k < |ts| && ts[k].restaurant == restaurants[a] && ts[k].tableNumber == TableNumber(i + 1)
  {
    var head := RestaurantTables(restaurants[0], firstId, rolls);
    var tail := SeedTables(restaurants[1..], firstId + TablesPerRestaurant, rolls);
    assert SeedTables(restaurants, firstId, rolls) == head + tail;
    if a > 0 {
      SeededTableIsNumbered(restaurants[1..], firstId + TablesPerRestaurant, rolls, a - 1, i);
      var lo := 10 * (a - 1) + i;
      assert 10 * a + i == lo + |head|;
      assert (head + tail)[lo + |head|] == tail[lo];
    }
  }

  /** When the seeded restaurants have distinct ids, the seeded tables meet the
      `(restaurant, table_number)` uniqueness constraint. */
  lemma {:induction false} SeededTablesAreUnique(restaurants: seq<Restaurant>, firstId: int, rolls: int -> nat)
    requires forall i, j :: 0 <= i < j < |restaurants| ==> restaurants[i].id != restaurants[j].id
    ensures UniqueTableNumbers(SeedTables(restaurants, firstId, rolls))
  {
    if |restaurants| > 0 {
      var head := RestaurantTables(restaurants[0], firstId, rolls);
      var rest := restaurants[1..];
      var tail := SeedTables(rest, firstId + TablesPerRestaurant, rolls);
      SeededTablesAreUnique(rest, firstId + TablesPerRestaurant, rolls);
      var all := head + tail;
      assert all == SeedTables(restaurants, firstId, rolls);
      forall i, j | 0 <= i < j < |all|
        ensures all[i].restaurant.id == all[j].restaurant.id ==> all[i].tableNumber != all[j].tableNumber
      {
        if j < |head| {
          if all[i].tableNumber == all[j].tableNumber {
            TableNumberInjective(1 + i, 1 + j);
          }
        } else if i < |head| {
          var t := tail[j - |head|];
          var m :| 0 <= m < |rest| && rest[m] == t.restaurant;
          assert all[i].restaurant.id != all[j].restaurant.id by {
            assert restaurants[0].id != restaurants[m + 1].id;
          }
        } else {
          assert all[i] == tail[i - |head|] && all[j] == tail[j - |head|];
        }
      }
    }
  }

  /** The numbers `Table-01` … `Table-10` pass `TableForm.clean_table_number`. */
  lemma SeededNumbersPassTheTableForm(i: nat)
    requires 1 <= i <= TablesPerRestaurant
    ensures CleanTableNumber(TableNumber(i)).Ok?
  {
    var s := TableNumber(i);
    assert |Pad2(i)| == 2 by {
      if i < 10 {
        assert |NatToString(i)| == 1;
      } else {
        assert NatToString(10) == NatToString(1) + [DigitChar(0)];
      }
    }
    assert s[0] == 'T' && s[|s| - 1] == Pad2(i)[1];
    StripOfTrimmed(s);
  }

  /** The seeded capacities pass `TableForm.clean_capacity`. */
  lemma SeededCapacitiesPassTheTableForm(c: int)
    requires c in SeededCapacities
    ensures CleanCapacity(Some(c)) == Ok(c)
  {
  }

  // ---------------------------------------------------------------- reservations

  const BatchSize: nat := 100
  const HorizonDays: nat := 90
  const MaxSeededGuests: int := 8
  const AttemptsPerReservation: nat := 3

  /** "12:00" … "13:30" and "18:00" … "20:00", every half hour. */
  const TimeSlots: seq<TimeOfDay> := [720, 750, 780, 810, 1080, 1110, 1140, 1170, 1200]
  const SeededStatuses: seq<Status> := [Pending, Confirmed, Cancelled, Completed]

  /** The random values one loop iteration consumes. */
  datatype Roll = Roll(table: nat, customer: nat, day: nat, slot: nat, guests: nat, status: nat,
                       specialRequests: string)

  function Min(a: int, b: int): int {
    if a <= b then a else b
  }

  /** A row the loop may create: a listed table and customer, a date 1..90 days ahead, a
      listed time, 1..min(capacity, 8) guests and one of the four seeded statuses. */
  predicate SeededRow(r: Reservation, tables: seq<Table>, customers: seq<User>, today: Date) {
    && r.table in tables
    && (exists c :: c in customers && c.id == r.customerId)
    && today + 1 <= r.date <= today + HorizonDays
    && r.time in TimeSlots
    && 1 <= r.guestCount <= Min(r.table.capacity, MaxSeededGuests)
    && r.status in SeededStatuses
  }

  /** The reservation one iteration builds from its roll. `random.randint(1, n)` needs
      `n >= 1`, hence the capacity requirement, which the tables of `create_tables` meet. */
  function Draw(roll: Roll, tables: seq<Table>, customers: seq<User>, today: Date, id: int): (r: Reservation)
    requires |tables| > 0 && |customers| > 0
    requires forall t :: t in tables ==> t.capacity >= 1
    ensures SeededRow(r, tables, customers, today)
    ensures r.id == id && r.status != NoShow
  {
    var t := tables[roll.table % |tables|];
    var c := customers[roll.customer % |customers|];
    var slot := TimeSlots[roll.slot % |TimeSlots|];
    var guests := 1 + roll.guests % Min(t.capacity, MaxSeededGuests);
    NewReservation(id, c.id, t, today + 1 + roll.day % HorizonDays, slot, guests, roll.specialRequests)
      .(status := SeededStatuses[roll.status % |SeededStatuses|])
  }

  /** Which rows the double-booking test consults. */
  datatype CheckScope =
    | PersistedOnly      // as written: only rows already bulk-created
    | PersistedAndBatch  // also the rows waiting in the current batch

  datatype SeedState = SeedState(db: seq<Reservation>, batch: seq<Reservation>, created: nat, attempts: nat)

  function Seen(scope: CheckScope, st: SeedState): seq<Reservation> {
    if scope == PersistedOnly then st.db else st.db + st.batch
  }

  /** One loop iteration with its candidate row: skip it when an active row already
      holds the same table, date and time; otherwise queue it and flush a full batch. */
  function Step(scope: CheckScope, st: SeedState, c: Reservation): (next: SeedState)
    requires |st.batch| < BatchSize
    ensures next.attempts == st.attempts + 1 && |next.batch| < BatchSize
    ensures SlotTaken(Seen(scope, st), c.table.id, c.date, c.time) ==>
              next == st.(attempts := st.attempts + 1)
    ensures !SlotTaken(Seen(scope, st), c.table.id, c.date, c.time) ==>
              next.created == st.created + 1 && next.db + next.batch == st.db + st.batch + [c]
    ensures next.db == st.db || next.db == st.db + st.batch + [c]
  {
    if SlotTaken(Seen(scope, st), c.table.id, c.date, c.time) then st.(attempts := st.attempts + 1)
    else
      var batch := st.batch + [c];
      if |batch| >= BatchSize then
        SeedState(st.db + batch, [], st.created + 1, st.attempts + 1)
      else
        SeedState(st.db, batch, st.created + 1, st.attempts + 1)
  }

  /** The candidate each attempt draws, given its attempt number and the rows created so
      far: the roll of that attempt with the next free id. */
  function Candidates(rolls: nat -> Roll, tables: seq<Table>, customers: seq<User>, today: Date,
                      firstId: int): (draw: (nat, nat) -> Reservation)
    requires |tables| > 0 && |customers| > 0
    requires forall t :: t in tables ==> t.capacity >= 1
  {
    (attempt: nat, created: nat) => Draw(rolls(attempt), tables, customers, today, firstId + created)
  }

  /** The state after the first `k` iterations of the loop, each a `Step` with the
      candidate `draw` gives for it. */
  function Run(scope: CheckScope, draw: (nat, nat) -> Reservation, db0: seq<Reservation>, k: nat): (st: SeedState)
    ensures st.attempts == k && |st.batch| < BatchSize && st.created <= k
  {
    if k == 0 then SeedState(db0, [], 0, 0)
    else
      var prev := Run(scope, draw, db0, k - 1);
      Step(scope, prev, draw(prev.attempts, prev.created))
  }

  /** The loop's state is the run of its attempts so far: one more iteration keeps it so. */
  lemma RunStep(scope: CheckScope, draw: (nat, nat) -> Reservation, db0: seq<Reservation>, st: SeedState)
    requires st == Run(scope, draw, db0, st.attempts)
    ensures var next := Step(scope, st, draw(st.attempts, st.created));
            next == Run(scope, draw, db0, next.attempts)
  {
    assert Step(scope, st, draw(st.attempts, st.created)) == Run(scope, draw, db0, st.attempts + 1);
  }

  /** The number of rows created never goes down from one attempt to a later one. */
  lemma {:induction false} RunCreatedGrows(scope: CheckScope, draw: (nat, nat) -> Reservation,
                                           db0: seq<Reservation>, j: nat, k: nat)
    requires j <= k
    ensures Run(scope, draw, db0, j).created <= Run(scope, draw, db0, k).created
  {
    if j < k {
      RunCreatedGrows(scope, draw, db0, j, k - 1);
      var prev := Run(scope, draw, db0, k - 1);
      assert Run(scope, draw, db0, k) == Step(scope, prev, draw(prev.attempts, prev.created));
    }
  }

  /** The rows a state holds, written or queued: those it started from, then one seeded
      row per row created. */
  predicate KeepsRows(st: SeedState, db0: seq<Reservation>, tables: seq<Table>, customers: seq<User>, today: Date) {
    && |st.db| + |st.batch| == |db0| + st.created
    && (st.db + st.batch)[..|db0|] == db0
    && forall i :: |db0| <= i < |st.db + st.batch| ==> SeededRow((st.db + st.batch)[i], tables, customers, today)
  }

  /** One iteration with a seeded candidate keeps `KeepsRows`, and with the batch consulted
      it keeps active slots apart. */
  lemma StepKeepsRows(scope: CheckScope, st: SeedState, c: Reservation, db0: seq<Reservation>,
                      tables: seq<Table>, customers: seq<User>, today: Date)
    requires |st.batch| < BatchSize
    requires KeepsRows(st, db0, tables, customers, today) && SeededRow(c, tables, customers, today)
    ensures KeepsRows(Step(scope, st, c), db0, tables, customers, today)
    ensures scope == PersistedAndBatch && NoSharedSlots(st.db + st.batch) ==>
              NoSharedSlots(Step(scope, st, c).db + Step(scope, st, c).batch)
  {
    var next := Step(scope, st, c);
    if !SlotTaken(Seen(scope, st), c.table.id, c.date, c.time) {
      assert next.db + next.batch == st.db + st.batch + [c];
      assert (next.db + next.batch)[..|db0|] == (st.db + st.batch)[..|db0|];
      if scope == PersistedAndBatch && NoSharedSlots(st.db + st.batch) {
        SlotCheckPreservesNoSharedSlots(st.db + st.batch, c);
      }
    }
  }

  /** If no attempt before `n` reached `count` and attempt `n` has not either, no attempt
      up to `n` has. */
  lemma RunStaysBelow(scope: CheckScope, draw: (nat, nat) -> Reservation, db0: seq<Reservation>,
                      count: nat, n: nat)
    requires forall k :: 0 <= k < n ==> Run(scope, draw, db0, k).created < count
    requires Run(scope, draw, db0, n).created < count
    ensures forall k :: 0 <= k <= n ==> Run(scope, draw, db0, k).created < count
  {
    forall k | 0 <= k <= n
      ensures Run(scope, draw, db0, k).created < count
    {
      if k < n {
      } else {
        assert k == n;
      }
    }
  }

  /** The end of the command: the rows still queued are written. */
  function Flushed(st: SeedState): (out: SeedState)
    ensures out.batch == [] && out.db == st.db + st.batch
    ensures out.created == st.created && out.attempts == st.attempts
  {
    SeedState(st.db + st.batch, [], st.created, st.attempts)
  }

  datatype SeedError = NothingToChooseFrom  // `random.choice` of an empty list

  /** The loop of `create_reservations` with the candidate of each attempt given by `draw`:
      at most `3 * count` attempts, stopping once `count` rows are made. */
  method SeedLoop(scope: CheckScope, count: nat, draw: (nat, nat) -> Reservation, db0: seq<Reservation>,
                  tables: seq<Table>, customers: seq<User>, today: Date)
    returns (st: SeedState)
    requires forall attempt: nat, created: nat :: SeededRow(draw(attempt, created), tables, customers, today)
    ensures st == Run(scope, draw, db0, st.attempts)
    ensures st.created <= count && st.attempts <= AttemptsPerReservation * count
    ensures st.created == count || st.attempts == AttemptsPerReservation * count
    ensures forall k :: 0 <= k < st.attempts ==> Run(scope, draw, db0, k).created < count
    ensures KeepsRows(st, db0, tables, customers, today)
    ensures scope == PersistedAndBatch && NoSharedSlots(db0) ==> NoSharedSlots(st.db + st.batch)
  {
    var maxAttempts := AttemptsPerReservation * count;
    st := SeedState(db0, [], 0, 0);
    assert st.db + st.batch == db0;
    while st.created < count && st.attempts < maxAttempts
      invariant st.created <= count && st.attempts <= maxAttempts
      invariant st == Run(scope, draw, db0, st.attempts)
      invariant forall k :: 0 <= k < st.attempts ==> Run(scope, draw, db0, k).created < count
      invariant KeepsRows(st, db0, tables, customers, today)
      invariant scope == PersistedAndBatch && NoSharedSlots(db0) ==> NoSharedSlots(st.db + st.batch)
      decreases maxAttempts - st.attempts
    {
      var c := draw(st.attempts, st.created);
      StepKeepsRows(scope, st, c, db0, tables, customers, today);
      RunStep(scope, draw, db0, st);
      RunStaysBelow(scope, draw, db0, count, st.attempts);
      st := Step(scope, st, c);
    }
  }

  /** Every candidate the rolls produce is a row the command may create. */
  lemma CandidatesAreSeeded(rolls: nat -> Roll, tables: seq<Table>, customers: seq<User>, today: Date, firstId: int)
    requires |tables| > 0 && |customers| > 0
    requires forall t :: t in tables ==> t.capacity >= 1
    ensures var draw := Candidates(rolls, tables, customers, today, firstId);
            forall attempt: nat, created: nat :: SeededRow(draw(attempt, created), tables, customers, today)
  {
    var draw := Candidates(rolls, tables, customers, today, firstId);
    forall attempt: nat, created: nat
      ensures SeededRow(draw(attempt, created), tables, customers, today)
    {
      assert draw(attempt, created) == Draw(rolls(attempt), tables, customers, today, firstId + created);
    }
  }

  /** `create_reservations`: the loop above with the candidates the rolls give; the rows
      left in the last batch are flushed at the end. Row ids count up from `firstId`. With
      no table or no customer the first attempt raises, and the surrounding transaction
      keeps nothing; with `count == 0` the loop never draws. */
  method SeedReservations(scope: CheckScope, count: nat, tables: seq<Table>, customers: seq<User>,
                          db0: seq<Reservation>, today: Date, firstId: int, rolls: nat -> Roll)
    returns (out: Result<SeedState, SeedError>)
    requires forall t :: t in tables ==> t.capacity >= 1
    ensures out.Err? <==> count > 0 && (|tables| == 0 || |customers| == 0)
    ensures out.Ok? ==> out.value.created <= count && out.value.attempts <= AttemptsPerReservation * count
    ensures out.Ok? ==> out.value.created == count || out.value.attempts == AttemptsPerReservation * count
    ensures out.Ok? ==> out.value.batch == [] && |out.value.db| == |db0| + out.value.created
    ensures out.Ok? ==> out.value.db[..|db0|] == db0
    ensures out.Ok? ==> forall i :: |db0| <= i < |out.value.db| ==>
              SeededRow(out.value.db[i], tables, customers, today)
    ensures out.Ok? && scope == PersistedAndBatch && NoSharedSlots(db0) ==> NoSharedSlots(out.value.db)
    ensures out.Ok? && count == 0 ==> out.value == SeedState(db0, [], 0, 0)
    ensures out.Ok? && |tables| > 0 && |customers| > 0 ==>
              out.value == Flushed(Run(scope, Candidates(rolls, tables, customers, today, firstId), db0, out.value.attempts))
              && forall k :: 0 <= k < out.value.attempts ==>
                   Run(scope, Candidates(rolls, tables, customers, today, firstId), db0, k).created < count
  {
    if |tables| == 0 || |customers| == 0 {
      if count > 0 {
        return Err(NothingToChooseFrom);
      }
      return Ok(SeedState(db0, [], 0, 0));
    }
    var draw := Candidates(rolls, tables, customers, today, firstId);
    CandidatesAreSeeded(rolls, tables, customers, today, firstId);
    var st := SeedLoop(scope, count, draw, db0, tables, customers, today);
    if count == 0 {
      assert st == SeedState(db0, [], 0, 0);
    }
    return Ok(Flushed(st));
  }

  /** As written, the test never looks at the unflushed batch: drawing the same active
      slot twice in one batch queues both rows, and they are later written together. */
  lemma AsWrittenSeedingDoubleBooks(roll: Roll, tables: seq<Table>, customers: seq<User>,
                                    today: Date, firstId: int)
    requires |tables| > 0 && |customers| > 0
    requires forall t :: t in tables ==> t.capacity >= 1
    requires roll.status % |SeededStatuses| < 2
    ensures var first := Draw(roll, tables, customers, today, firstId);
            var second := Draw(roll, tables, customers, today, firstId + 1);
            var st := Step(PersistedOnly, Step(PersistedOnly, SeedState([], [], 0, 0), first), second);
            st.created == 2 && !NoSharedSlots(st.db + st.batch)
  {
    var first := Draw(roll, tables, customers, today, firstId);
    var second := Draw(roll, tables, customers, today, firstId + 1);
    assert IsActive(first.status) && IsActive(second.status);
    assert !SlotTaken([], first.table.id, first.date, first.time);
    var st1 := Step(PersistedOnly, SeedState([], [], 0, 0), first);
    assert st1 == SeedState([], [first], 1, 1);
    var st := Step(PersistedOnly, st1, second);
    assert st == SeedState([], [first, second], 2, 2);
    var all := st.db + st.batch;
    assert all[0] == first && all[1] == second;
  }

  /** The as-written command, given two equal rolls for its first two attempts, stops
      after them with two active rows on one slot. */
  lemma AsWrittenRunDoubleBooks(roll: Roll, tables: seq<Table>, customers: seq<User>, today: Date,
                                firstId: int, rolls: nat -> Roll)
    requires |tables| > 0 && |customers| > 0
    requires forall t :: t in tables ==> t.capacity >= 1
    requires rolls(0) == roll && rolls(1) == roll && roll.status % |SeededStatuses| < 2
    ensures var st := Run(PersistedOnly, Candidates(rolls, tables, customers, today, firstId), [], 2);
            st.created == 2 && !NoSharedSlots(Flushed(st).db)
    ensures Run(PersistedOnly, Candidates(rolls, tables, customers, today, firstId), [], 1).created < 2
  {
    var draw := Candidates(rolls, tables, customers, today, firstId);
    var first := Draw(roll, tables, customers, today, firstId);
    var second := Draw(roll, tables, customers, today, firstId + 1);
    AsWrittenSeedingDoubleBooks(roll, tables, customers, today, firstId);
    var st0 := Run(PersistedOnly, draw, [], 0);
    assert st0 == SeedState([], [], 0, 0);
    assert draw(0, 0) == first;
    RunStep(PersistedOnly, draw, [], st0);
    var st1 := Step(PersistedOnly, st0, first);
    assert st1 == Run(PersistedOnly, draw, [], 1);
    assert st1.created == 1 && st1.attempts == 1;
    assert draw(1, 1) == second;
    RunStep(PersistedOnly, draw, [], st1);
  }

  /** Consulting the batch as well refuses the second draw of that slot. */
  lemma CheckedSeedingRefusesTheRepeat(roll: Roll, tables: seq<Table>, customers: seq<User>,
                                       today: Date, firstId: int)
    requires |tables| > 0 && |customers| > 0
    requires forall t :: t in tables ==> t.capacity >= 1
    requires roll.status % |SeededStatuses| < 2
    ensures var first := Draw(roll, tables, customers, today, firstId);
            var second := Draw(roll, tables, customers, today, firstId + 1);
            var st := Step(PersistedAndBatch, Step(PersistedAndBatch, SeedState([], [], 0, 0), first), second);
            st.created == 1 && NoSharedSlots(st.db + st.batch)
  {
    var first := Draw(roll, tables, customers, today, firstId);
    var st1 := Step(PersistedAndBatch, SeedState([], [], 0, 0), first);
    assert st1.db + st1.batch == [first];
    assert TakesSlot((st1.db + st1.batch)[0], first.table.id, first.date, first.time);
  }
}

=== FILE: text.dfy ===
/** The string operations the views and forms rely on: Python's `str.strip()`,
    `str.isdigit()`, `int(...)` on a stripped string and `str(n)` / `f"{n:02d}"`. */
module Text {
  import opened Results

  /** Python's `str.isspace()`: the characters `str.strip()` removes. */
  predicate IsSpace(c: char) {
    || c == ' ' || '\t' <= c <= '\r' || '\U{1C}' <= c <= '\U{1F}'
    || c == '\U{85}' || c == '\U{A0}' || c == '\U{1680}' || '\U{2000}' <= c <= '\U{200A}'
    || c == '\U{2028}' || c == '\U{2029}' || c == '\U{202F}' || c == '\U{205F}' || c == '\U{3000}'
  }

  /** An ASCII decimal digit. */
  predicate IsDigit(c: char) {
    '0' <= c <= '9'
  }

  predicate AllSpace(s: string) {
    forall k :: 0 <= k < |s| ==> IsSpace(s[k])
  }

  predicate AllDigits(s: string) {
    forall k :: 0 <= k < |s| ==> IsDigit(s[k])
  }

  /** Drops leading whitespace. */
  function TrimStart(s: string): (r: string)
    ensures |r| <= |s| && r == s[|s| - |r|..]
    ensures |r| > 0 ==> !IsSpace(r[0])
    ensures forall k :: 0 <= k < |s| - |r| ==> IsSpace(s[k])
  {
    if |s| > 0 && IsSpace(s[0]) then TrimStart(s[1..]) else s
  }

  /** Drops trailing whitespace. */
  function TrimEnd(s: string): (r: string)
    ensures |r| <= |s| && r == s[..|r|]
    ensures |r| > 0 ==> !IsSpace(r[|r| - 1])
    ensures forall k :: |r| <= k < |s| ==> IsSpace(s[k])
  {
    if |s| > 0 && IsSpace(s[|s| - 1]) then TrimEnd(s[..|s| - 1]) else s
  }

  /** `s.strip()`: the text between the leading and the trailing whitespace. */
  function Strip(s: string): (r: string)
    ensures |r| <= |s|
    ensures |r| > 0 ==> !IsSpace(r[0]) && !IsSpace(r[|r| - 1])
    ensures r == "" <==> AllSpace(s)
    ensures exists i :: StrippedAt(s, r, i)
  {
    var t := TrimStart(s);
    var r := TrimEnd(t);
    TrimmedPieces(s);
    r
  }

  /** `r` is `s` with the `i` characters in front of it and everything after it, all
      whitespace, cut away. */
  predicate StrippedAt(s: string, r: string, i: int) {
    0 <= i <= |s| - |r| && r == s[i..i + |r|] && AllSpace(s[..i]) && AllSpace(s[i + |r|..])
  }

  /** The two trims cut exactly whitespace from the two ends. */
  lemma {:induction false} TrimmedPieces(s: string)
    ensures StrippedAt(s, TrimEnd(TrimStart(s)), |s| - |TrimStart(s)|)
  {
    var t := TrimStart(s);
    var r := TrimEnd(t);
    var i := |s| - |t|;
    FrontIsSpace(s);
    BackIsSpace(t);
    SuffixThenPrefix(s, t, r);
  }

  /** Cutting whitespace off the front and then off the back leaves a middle piece. */
  lemma {:induction false} SuffixThenPrefix(s: string, t: string, r: string)
    requires |t| <= |s| && t == s[|s| - |t|..] && AllSpace(s[..|s| - |t|])
    requires |r| <= |t| && r == t[..|r|] && AllSpace(t[|r|..])
    ensures StrippedAt(s, r, |s| - |t|)
  {
    var i := |s| - |t|;
    assert r == s[i..i + |r|];
    assert s[i + |r|..] == t[|r|..];
  }

  lemma {:induction false} FrontIsSpace(s: string)
    ensures AllSpace(s[..|s| - |TrimStart(s)|])
  {
    var i := |s| - |TrimStart(s)|;
    forall k | 0 <= k < i ensures IsSpace(s[..i][k]) {
      assert s[..i][k] == s[k];
    }
  }

  lemma {:induction false} BackIsSpace(t: string)
    ensures AllSpace(t[|TrimEnd(t)|..])
  {
    var n := |TrimEnd(t)|;
    forall k | 0 <= k < |t| - n ensures IsSpace(t[n..][k]) {
      assert t[n..][k] == t[n + k];
    }
  }

  /** A string with no whitespace at either end is its own strip. */
  lemma {:induction false} StripOfTrimmed(s: string)
    requires |s| > 0 ==> !IsSpace(s[0]) && !IsSpace(s[|s| - 1])
    ensures Strip(s) == s
  {
    assert TrimStart(s) == s;
    assert TrimEnd(s) == s;
  }

  /** Stripping twice is stripping once. */
  lemma StripIdempotent(s: string)
    ensures Strip(Strip(s)) == Strip(s)
  {
    StripOfTrimmed(Strip(s));
  }

  /** Python's `str.lower()` on one character, for the ASCII letters. */
  function LowerChar(c: char): (d: char)
    ensures 'A' <= c <= 'Z' ==> 'a' <= d <= 'z' && d as int == c as int + 32
    ensures !('A' <= c <= 'Z') ==> d == c
  {
    if 'A' <= c <= 'Z' then (c as int + 32) as char else c
  }

  /** `s.lower()`, letter by letter. */
  function Lower(s: string): (r: string)
    ensures |r| == |s|
    ensures forall k :: 0 <= k < |s| ==> r[k] == LowerChar(s[k])
  {
    seq(|s|, k requires 0 <= k < |s| => LowerChar(s[k]))
  }

  /** Lower-casing twice is lower-casing once. */
  lemma LowerIdempotent(s: string)
    ensures Lower(Lower(s)) == Lower(s)
  {
  }

  /** The index `s.rsplit(c, 1)` splits at: the last occurrence of `c`, if any. */
  function LastIndexOf(s: string, c: char): (r: Option<nat>)
    ensures r.Some? ==> r.value < |s| && s[r.value] == c
                        && forall k :: r.value < k < |s| ==> s[k] != c
    ensures r.None? <==> forall k :: 0 <= k < |s| ==> s[k] != c
  {
    if |s| == 0 then None
    else if s[|s| - 1] == c then Some(|s| - 1)
    else LastIndexOf(s[..|s| - 1], c)
  }

  /** The number of digit characters, as `''.join(c for c in s if c.isdigit())` counts them. */
  function CountDigits(s: string): (n: nat)
    ensures n <= |s|
    ensures n == 0 <==> forall k :: 0 <= k < |s| ==> !IsDigit(s[k])
  {
    if |s| == 0 then 0
    else (if IsDigit(s[0]) then 1 else 0) + CountDigits(s[1..])
  }

  /** Counting digits distributes over concatenation. */
  lemma {:induction false} CountDigitsAppend(a: string, b: string)
    ensures CountDigits(a + b) == CountDigits(a) + CountDigits(b)
  {
    if |a| == 0 {
      assert a + b == b;
    } else {
      assert (a + b)[1..] == a[1..] + b;
      CountDigitsAppend(a[1..], b);
    }
  }

  function DigitValue(c: char): nat
    requires IsDigit(c)
  {
    (c as int - '0' as int) as nat
  }

  function DigitChar(d: nat): (c: char)
    requires d < 10
    ensures IsDigit(c) && DigitValue(c) == d
  {
    (('0' as int) + d) as char
  }

  /** The number a non-empty run of decimal digits denotes (leading zeros allowed). */
  function DigitsValue(s: string): nat
    requires AllDigits(s)
  {
    if |s| == 0 then 0 else DigitsValue(s[..|s| - 1]) * 10 + DigitValue(s[|s| - 1])
  }

  /** `str(n)` for a natural number: its decimal digits, no leading zero. */
  function NatToString(n: nat): (s: string)
    ensures |s| >= 1 && AllDigits(s)
    ensures |s| > 1 ==> s[0] != '0'
  {
    if n < 10 then [DigitChar(n)] else NatToString(n / 10) + [DigitChar(n % 10)]
  }

  /** `str(n)` for any integer. */
  function IntToString(n: int): (s: string)
    ensures |s| >= 1
  {
    if n < 0 then "-" + NatToString(-n) else NatToString(n)
  }

  /** `f"{n:02d}"` for a natural number: at least two digits, zero padded. */
  function Pad2(n: nat): (s: string)
    ensures |s| >= 2 && AllDigits(s)
  {
    if n < 10 then "0" + NatToString(n) else NatToString(n)
  }

  /** Python's `int(s)` on an already stripped string: an optional sign followed by
      one or more decimal digits; anything else raises `ValueError` (here `None`). */
  function ParseInt(s: string): (r: Option<int>)
    ensures r.Some? <==> (|s| >= 1 && AllDigits(s))
                         || (|s| >= 2 && (s[0] == '-' || s[0] == '+') && AllDigits(s[1..]))
    ensures r.Some? ==> |s| > 0 && IsDigit(s[|s| - 1])
    ensures r.Some? && s[0] != '-' ==> r.value >= 0
    ensures s == "" ==> r.None?
  {
    if |s| >= 2 && (s[0] == '-' || s[0] == '+') && AllDigits(s[1..]) then
      var v: int := DigitsValue(s[1..]);
      Some(if s[0] == '-' then -v else v)
    else if |s| >= 1 && AllDigits(s) then
      Some(DigitsValue(s))
    else
      None
  }

  /** A single digit reads as its own value. */
  lemma ParseSingleDigit(c: char)
    requires IsDigit(c)
    ensures ParseInt([c]) == Some(DigitValue(c) as int)
  {
    var t := [c];
    assert AllDigits(t) && !(|t| >= 2);
    assert t[..|t| - 1] == "";
    assert DigitsValue(t) == DigitsValue("") * 10 + DigitValue(c);
  }

  /** Appending a digit to an unsigned number multiplies it by ten and adds the digit:
      with `ParseSingleDigit` this fixes the value of every unsigned digit string. */
  lemma ParseAppendDigit(s: string, c: char)
    requires |s| >= 1 && AllDigits(s) && IsDigit(c)
    ensures ParseInt(s + [c]).Some? && ParseInt(s).Some?
    ensures ParseInt(s + [c]).value == ParseInt(s).value * 10 + DigitValue(c)
  {
    var t := s + [c];
    assert t[..|t| - 1] == s;
    assert AllDigits(t);
  }

  /** A leading zero changes nothing: `int("07") == int("7")`. */
  lemma ParseLeadingZero(s: string)
    requires |s| >= 1 && AllDigits(s)
    ensures ParseInt("0" + s) == ParseInt(s)
  {
    var t := "0" + s;
    assert AllDigits(t);
    assert t[0] != '-' && t[0] != '+';
    LeadingZeroValue(s);
  }

  lemma {:induction false} LeadingZeroValue(s: string)
    requires AllDigits(s)
    ensures AllDigits("0" + s) && DigitsValue("0" + s) == DigitsValue(s)
  {
    var t := "0" + s;
    assert AllDigits(t);
    if |s| == 0 {
      assert t[..0] == "";
    } else {
      var init := s[..|s| - 1];
      assert t[..|t| - 1] == "0" + init;
      assert t[|t| - 1] == s[|s| - 1];
      LeadingZeroValue(init);
    }
  }

  /** A plus sign changes nothing: `int("+7") == int("7")`. */
  lemma ParsePlusSign(s: string)
    requires |s| >= 1 && AllDigits(s)
    ensures ParseInt("+" + s) == ParseInt(s)
  {
    var t := "+" + s;
    assert t[1..] == s;
  }

  /** A minus sign negates: `int("-7") == -int("7")`. */
  lemma ParseMinusSign(s: string)
    requires |s| >= 1 && AllDigits(s)
    ensures ParseInt(s).Some? && ParseInt("-" + s) == Some(-ParseInt(s).value)
  {
    var t := "-" + s;
    assert t[1..] == s;
  }

  /** Reading back the digits `str(n)` writes gives `n`. */
  lemma {:induction false} NatToStringValue(n: nat)
    ensures DigitsValue(NatToString(n)) == n
  {
    if n >= 10 {
      var s := NatToString(n);
      assert s[..|s| - 1] == NatToString(n / 10);
      NatToStringValue(n / 10);
    }
  }

  /** `int(str(n)) == n` for every integer. */
  lemma IntToStringRoundTrip(n: int)
    ensures ParseInt(IntToString(n)) == Some(n)
  {
    if n < 0 {
      NegativeRoundTrip(-n);
    } else {
      NatRoundTrip(n);
    }
  }

  lemma NatRoundTrip(n: nat)
    ensures ParseInt(NatToString(n)) == Some(n)
  {
    var s := NatToString(n);
    NatToStringValue(n);
    assert IsDigit(s[0]);
    assert ParseInt(s) == Some(DigitsValue(s));
  }

  lemma NegativeRoundTrip(m: nat)
    requires m > 0
    ensures ParseInt("-" + NatToString(m)) == Some(-(m as int))
  {
    var d := NatToString(m);
    var s := "-" + d;
    assert s[1..] == d;
    NatToStringValue(m);
    var v: int := DigitsValue(d);
    assert ParseInt(s) == Some(-v);
  }

  /** Distinct numbers are written differently. */
  lemma NatToStringInjective(a: nat, b: nat)
    requires NatToString(a) == NatToString(b)
    ensures a == b
  {
    NatToStringValue(a);
    NatToStringValue(b);
  }

  /** Distinct numbers are padded differently. */
  lemma {:induction false} Pad2Injective(a: nat, b: nat)
    requires Pad2(a) == Pad2(b)
    ensures a == b
  {
    Pad2Value(a);
    Pad2Value(b);
  }

  lemma {:induction false} Pad2Value(n: nat)
    ensures DigitsValue(Pad2(n)) == n
  {
    NatToStringValue(n);
    if n < 10 {
      var s := Pad2(n);
      assert s[..|s| - 1] == "0";
      assert DigitsValue("0"[..0]) == 0;
    }
  }
}
